=== FILE: README.md ===
# DocParse-Pro core, modelled in Dafny

This project models the job-processing core of DocParse-Pro. DocParse-Pro is a FastAPI service. It reads printed and handwritten text from images with a detector and a TrOCR recogniser. It parses forms into JSON with a Qwen vision model. Three other parts are modelled too: the two annotation tools used to build training data, and the command-line test clients.

Each part of the system is one Dafny module:

- `Gpu` (`gpu.dfy`): the GPU resource manager. It keeps a set of user ids and a capacity limit. It waits for the GPU by retrying until a timeout.
- `JobStore` (`jobstore.dfy`): the Redis job records. Each record holds a status, a result, an error and a progress value, and is stored under the bare job id.
- `JobQueue` (`jobqueue.dfy`): what both in-process queues share. There is a priority lane and a normal lane, a set of worker tasks, `start_worker`, `stop_worker`, `submit_job`, the queue status and the OCR health check.
- `OcrQueue` and `FormsQueue` (`ocrqueue.dfy`, `formsqueue.dfy`): the job lifecycle each worker runs. It takes the next job, waits for the GPU and writes "processing". It runs the backend, writes "completed" or "error", then releases the GPU and clears the CUDA cache.
- `TextExtraction` and `FormParsing` (`textextraction.dfy`, `formparsing.dfy`): the submit and status endpoints. This includes how form prompts are normalised.
- `OcrPipeline` and `Detection` (`ocrpipeline.dfy`, `detection.dfy`): `full_ocr_logic` and the polygon-to-box conversion of the detector.
- `ImageValidation` and `ImageProcessing` (`imagevalidation.dfy`, `imageprocessing.dfy`): upload checks, resizing, cropping and dominant colours.
- `Homepage` (`homepage.dfy`): which service description the home page shows for each mode.
- `ResponseParser` (`responseparser.dfy`): `extract_and_parse_json`. This is the regex-driven repair that turns model output into an object, with numbered keys grouped under `entities`.
- `Annotation`, `StreamlitTool` and `TkTool` (`annotation.dfy`, `streamlittool.dfy`, `tktool.dfy`): the annotation record, the filters, saving, bookmarks, flags, CSV export and consensus. The Streamlit and Tk front ends are modelled separately.
- `TestClients` and `AccuracyEval` (`testclients.dfy`, `accuracy.dfy`): the clients' polling loop, font fitting, image selection and batch tallies. Also the text normalisation used to score accuracy.
- `Wrappers`, `Text` and `PyDict`: shared helpers.
  - `Wrappers` holds `Option` and `Outcome`. `Outcome` is a value or a raised exception.
  - `Text` holds the ASCII behaviour of `str.strip`, `lower`, `title`, `isdigit`, `splitlines`, `find`, `startswith` and `endswith`.
  - `PyDict` holds insertion-ordered dictionaries. Assigning to an existing key overwrites it in place.

The model runs as a sequence of steps: one step is one worker pass, one endpoint call or one button press. Whatever the code gets from outside becomes a parameter:

- the clock, the GPU memory readings, the detector's and recogniser's outputs
- the model parser's result, directory listings, HTTP replies and font metrics
- fresh job ids

Within one step, only the GPU wait lets other workers act: between two attempts of `wait_for_gpu`, the `asyncio.sleep` lets other workers acquire and release the GPU. Each probe reports the user set the next attempt finds. No other `await` interleaves with another step.

## Model

| member | source | states |
|---|---|---|
| Gpu.UserId | backend/core/gpu_manager.py:37 | A job without a worker id registers under the bare service name. A job with a worker id registers under `<service>_worker_<id>`. |
| Gpu.UserIdPerWorker | backend/core/gpu_manager.py:37 | Two different workers of one service never share a GPU user id. |
| Gpu.AcquireGpu | backend/core/gpu_manager.py:32-54 | Access is granted exactly when fewer users than the limit hold the GPU and memory is not over the threshold. A grant adds the caller's id. A refusal changes nothing. |
| Gpu.AcquirePreservesValid | backend/core/gpu_manager.py:41-51 | Acquiring never takes the user count above `max_concurrent_users`. |
| Gpu.ReleaseGpu | backend/core/gpu_manager.py:56-68 | Releasing removes exactly the caller's id. Releasing an id that is not held changes nothing. The capacity bound is preserved. |
| Gpu.AcquireReleaseRoundTrip | backend/core/gpu_manager.py:32-68 | Acquiring then releasing under a fresh id gives back the manager as it was, whether or not access was granted. |
| Gpu.GetStats | backend/core/gpu_manager.py:74-87 | The stats list the current users, count them, give the limit, and say the GPU is available exactly when the count is below the limit. |
| Gpu.StatsPredictAcquire | backend/core/gpu_manager.py:74-87 | `gpu_available` is true exactly when an acquire with memory below the threshold would succeed. |
| Gpu.WaitForGpu | backend/core/gpu_manager.py:89-106 | Each attempt runs `acquire_gpu` on the manager as it finds it. The first attempt finds the manager from before the wait. A later one finds the user set other workers left during the preceding sleep. Every attempt before the last was refused and came before the timeout. The wait returns True with the state of the first granted acquire, or False at the first refused attempt past the timeout. |
| Gpu.WaitSeesRelease | backend/core/gpu_manager.py:96-106 | Suppose the first attempt is refused before the timeout, and during the sleep another worker frees a slot, and memory is low. Then the second attempt acquires, adding the caller's id to the set it found. |
| Gpu.QuietSeesStart | backend/core/gpu_manager.py:96-106 | When no other worker changes the user set during the wait, the last attempt finds the manager as the wait began. |
| Gpu.QuietWaitAtCapacityTimesOut | backend/core/gpu_manager.py:96-106 | A manager at capacity that no other worker releases during the wait is never acquired. The wait times out. |
| JobStore.SetJobStatus | backend/services/redis_job_manager.py:8-15 | A write adds or overwrites the job's key and leaves every other job's record as it was. |
| JobStore.GetJobStatus | backend/services/redis_job_manager.py:17-21 | The read gives None exactly for an id that was never written. |
| JobStore.GetAfterSet | backend/services/redis_job_manager.py:8-21 | Reading back a write returns exactly the status, result, error and progress written. |
| JobStore.SetLeavesOthers | backend/services/redis_job_manager.py:8-21 | A write to one job id does not change what any other id reads. |
| JobStore.SetDefaults | backend/services/redis_job_manager.py:8 | `set_job_status(id, status)` stores no result, no error and progress 0. |
| JobStore.ApplyWrites | backend/services/redis_job_manager.py:8-15 | After a series of writes to one job, its record is the last write. No other job changes. |
| JobQueue.Enqueue | backend/core/ocr_queue.py:60-65 | A job joins the tail of exactly one lane, the one its priority flag selects. The other lane is untouched. |
| JobQueue.Dispatch | backend/core/ocr_queue.py:76-89 | The worker takes the head of the priority lane when it is non-empty, otherwise the head of the normal lane. It gets nothing only when both lanes are empty. |
| JobQueue.DrainOrder | backend/core/ocr_queue.py:76-89 | Repeated dispatch hands out every priority job before any normal job, each lane in FIFO order. |
| JobQueue.EnqueueThenDrain | backend/core/ocr_queue.py:51-89 | A newly submitted job is handed out after everything already queued in its own lane. A priority job still goes before every normal job. |
| JobQueue.Alive | backend/core/ocr_queue.py:29 | The count of running tasks is at most the number of tasks. It is zero exactly when every task is done. |
| JobQueue.StartWorker | backend/core/ocr_queue.py:25-36 | Existing tasks are kept in order and only running tasks are added. Afterwards the alive count is `max_workers`, or the old count if that was already at least `max_workers`. |
| JobQueue.StartWorkerIdempotent | backend/core/ocr_queue.py:25-36 | A second `start_worker` while every worker is still alive starts none. |
| JobQueue.StopWorker | backend/core/ocr_queue.py:38-49 | After stopping, no task is alive and the task list is empty. |
| JobQueue.NewQueue | backend/core/ocr_queue.py:17-23 | A new queue has empty lanes, no workers, no active jobs and the given worker limit. |
| JobQueue.SubmitJob | backend/core/ocr_queue.py:51-68 | The job is enqueued on its lane and workers are started. With a positive limit, at least one worker is then alive. The limit and the active set are unchanged. |
| JobQueue.GetQueueStatus | backend/core/ocr_queue.py:147-156 | Both lane sizes, the active jobs and the worker limit are reported. `total_pending` is the sum of the lane sizes. |
| JobQueue.PendingCounts | backend/core/ocr_queue.py:51-156 | A submission raises `total_pending` by one. A dispatch lowers it by one. |
| JobQueue.OcrHealthCheck | backend/core/ocr_queue.py:158-169 | The OCR queue is healthy exactly when some worker task is not done. It reports the alive count and both lane sizes. |
| JobQueue.HealthyAfterSubmit | backend/core/ocr_queue.py:51-169 | Right after any submission to a queue with a positive worker limit, the health check reports healthy. |
| OcrQueue.FinalWrite | backend/core/ocr_queue.py:132-137 | The final record is "completed" with progress 100 and the result, exactly when the backend returned. Otherwise it is "error" with the exception text and progress 0. |
| OcrQueue.RunWrites | backend/core/ocr_queue.py:120-137 | While the GPU is held, the writes are "processing" at 1, then one "processing" write per progress value of the backend, then the final record. |
| OcrQueue.ProcessOcrJob | backend/core/ocr_queue.py:101-145 | Without the GPU there is a single timeout error write. With it, the writes are those of the run. The store ends with the last write. The job leaves the active set. The shared GPU id is released exactly when it was acquired. |
| OcrQueue.NoGpuNoProcessing | backend/core/ocr_queue.py:116-118 | Without the GPU a job is never written "processing". What the backend would have done makes no difference. |
| OcrQueue.FinalRecord | backend/core/ocr_queue.py:101-145 | After the job, its stored record is the timeout error or the run's final record. Every other job's record is unchanged. |
| OcrQueue.GpuRestored | backend/core/ocr_queue.py:116-145 | After the job, the GPU manager is the one the last wait attempt found, provided the shared id was free there. With limit 1 that always holds, because a grant needs an empty set. |
| OcrQueue.GpuRestoredWhenQuiet | backend/core/ocr_queue.py:116-145 | While no other worker touches the manager during the wait, the job gives back the GPU state it started from, when the shared id was free or the limit is 1. |
| OcrQueue.BadBytesFailAfterProcessing | backend/core/ocr_queue.py:120-137 | An empty upload is still written "processing" at 1, then fails with "Empty file" and progress 0. |
| OcrQueue.WorkerStep | backend/core/ocr_queue.py:70-99 | One worker pass processes the priority head, else the normal head, else does nothing. The processed job leaves the active set. |
| FormsQueue.GpuTimeoutMessage | backend/core/forms_queue.py:130 | The GPU timeout error starts with the fixed text and continues with the worker id. |
| FormsQueue.GpuTimeoutMessageNamesWorker | backend/core/forms_queue.py:130 | Two different workers never get the same timeout message, so the message identifies the worker. |
| FormsQueue.HeldWrites | backend/core/forms_queue.py:132-159 | A cache clear that raises gives a single error write. Otherwise "processing" at 1 is followed by the parser-missing error, the parser's error, or "completed" at 100 with the result. |
| FormsQueue.ProcessFormJob | backend/core/forms_queue.py:113-173 | Without the GPU the worker-specific timeout error is written. With it, the held writes are made. The store ends with the last write. The job leaves the active set. The worker's own GPU id is released exactly when it was acquired. |
| FormsQueue.ParserMissingNeverCompletes | backend/core/forms_queue.py:138-139 | With no parser, a job never reaches "completed". |
| FormsQueue.CleanupFailureSwallowed | backend/core/forms_queue.py:164-168 | A cache clear that raises in `finally` changes nothing about the outcome. |
| FormsQueue.ClearBeforeFailure | backend/core/forms_queue.py:132-135 | A cache clear that raises before the job starts sends it to "error" without any "processing" write. |
| FormsQueue.SuccessRecord | backend/core/forms_queue.py:143-154 | When the parser returns, the job reads back "completed" with progress 100 and the parser's result. |
| FormsQueue.GpuRestoredPerWorker | backend/core/forms_queue.py:161-173 | Suppose the worker's GPU id is registered neither before the job nor by anyone during the wait. Then the job leaves the GPU state as its last wait attempt found it, whatever the job's outcome. |
| FormsQueue.WorkerStep | backend/core/forms_queue.py:82-111 | One worker pass processes the priority head, else the normal head, else does nothing. |
| FormsQueue.FormsHealthCheck | backend/core/forms_queue.py:186-206 | The forms queue is healthy exactly when a worker is alive and the parser is available. It embeds the GPU stats. |
| FormsQueue.UnhealthyWithoutParser | backend/core/forms_queue.py:186-206 | Right after a submission, the forms queue is healthy with the parser and never healthy without it. |
| TextExtraction.JobFilename | backend/api/v1/endpoints/text_extraction.py:25 | The stored name is the upload's name, or "uploaded_image" when the name is missing or empty. |
| TextExtraction.SubmitOcrJob | backend/api/v1/endpoints/text_extraction.py:17-77 | A rejected upload changes nothing and returns the validation error. An accepted one writes "pending" at 0 and enqueues one job on the lane the route selects. |
| TextExtraction.SubmitLaneChoice | backend/api/v1/endpoints/text_extraction.py:17-77 | `/ocr` adds only to the normal lane and `/ocr/priority` only to the priority lane, each at the tail. |
| TextExtraction.OcrStatusOf | backend/api/v1/endpoints/text_extraction.py:79-118 | An unknown id is 404. "pending" and "processing" echo the status. "completed" with a result returns it at 100. "completed" without one is a server error. Any other status is an error. `success` is false exactly for errors. |
| TextExtraction.GetOcrJobStatus | backend/api/v1/endpoints/text_extraction.py:79-118 | The status route returns 404 exactly for ids the store never saw. A completed job with a result reads back at 100. |
| TextExtraction.SubmittedReadsPending | backend/api/v1/endpoints/text_extraction.py:29 | Right after an accepted submission, the job reads as "pending" at 0. |
| TextExtraction.StatusAfterProcessing | backend/api/v1/endpoints/text_extraction.py:79-118 | After a worker pass, the status route reports the record the lifecycle wrote. |
| FormParsing.StrippedNonBlank | backend/api/v1/endpoints/form_parsing.py:26-29 | The kept lines are non-empty and have no whitespace at either end. There are no more of them than input lines. |
| FormParsing.JoinLines | backend/api/v1/endpoints/form_parsing.py:26-29 | The joined prompt has no line break and no whitespace at either end. A whitespace-only prompt becomes empty. |
| FormParsing.JoinLinesIdempotent | backend/api/v1/endpoints/form_parsing.py:26-29 | Normalising a normalised prompt changes nothing. |
| FormParsing.NormalizePrompt | backend/api/v1/endpoints/form_parsing.py:26-29 | An empty prompt becomes the default prompt verbatim. Any other prompt is normalised. |
| FormParsing.BlankPromptBecomesEmpty | backend/api/v1/endpoints/form_parsing.py:26-29 | A whitespace-only prompt skips the default and reaches the worker as "". |
| FormParsing.SubmitFormParseJob | backend/api/v1/endpoints/form_parsing.py:14-43 | A rejected upload changes nothing. An accepted one writes "pending" at 0 and enqueues one normal-lane job with the normalised prompt. |
| FormParsing.Decoded | backend/services/redis_job_manager.py:17-21 | The decoded record keeps the status, result and progress. A missing error decodes as JSON null and a present one as its text. |
| FormParsing.ErrorMessage | backend/api/v1/endpoints/form_parsing.py:76-81 | A missing error key, a null error, a string and an object each give their own message. |
| FormParsing.FormStatusOf | backend/api/v1/endpoints/form_parsing.py:46-88 | An unknown id is 404. "completed" without a result is a server error. `success` holds exactly for the three live statuses. A failure carries the error message. A completed job carries its result. |
| FormParsing.GetFormJobStatus | backend/api/v1/endpoints/form_parsing.py:46-88 | The status route returns 404 exactly for ids the store never saw. |
| FormParsing.StoredErrorMessages | backend/api/v1/endpoints/form_parsing.py:76-81 | For records the worker wrote, the message is the stored error text, or "Job failed with unknown error" when there is none. The other two branches cannot happen. |
| FormParsing.StatusAfterFailure | backend/api/v1/endpoints/form_parsing.py:46-88 | A job that failed because the parser was missing reads back as an error with the parser-missing text. |
| OcrPipeline.Progress | backend/services/ocr_pipeline_service.py:51 | The progress written before region `idx` of `n` lies in 0..99 and is the integer part of `idx * 100 / n`. |
| OcrPipeline.ProgressMonotone | backend/services/ocr_pipeline_service.py:49-51 | The per-region formula is monotone in the region index: a later region never gets a smaller value. |
| OcrQueue.ProgressDropsAtFirstRegion | backend/core/ocr_queue.py:120-128 | A job's reported progress is not monotone: the worker writes 1, and the backend's first region then writes 0. After that, the backend's values never go backwards. |
| OcrPipeline.RegionText | backend/services/ocr_pipeline_service.py:53-64 | A region's text is non-empty exactly when the crop fits the image and the recogniser returned non-empty text. It is then that text. Every failure gives "". |
| OcrPipeline.Extract | backend/services/ocr_pipeline_service.py:49-71 | There is one extracted entry per detected region, in detection order, each with that region's box and text. |
| OcrPipeline.FullOcrLogic | backend/services/ocr_pipeline_service.py:39-82 | Bad bytes or a failing detector raise before any progress write. Otherwise every region is recognised with the progress written before it. The result lists one entry per region. |
| OcrPipeline.ValidationBeforeDetection | backend/services/ocr_pipeline_service.py:41-44 | Empty or oversized uploads fail the same way whatever the detector would have said, and write no progress. |
| OcrPipeline.FlatPolygonGivesEmptyText | backend/services/ocr_pipeline_service.py:53-64 | A region whose polygon has zero width is cropped to nothing and gets the empty text. |
| Detection.Trunc | backend/services/paddle_detection_service.py:58-66 | `int()` truncates toward zero: the result is within one of the argument, on the side of zero. |
| Detection.Min | backend/services/paddle_detection_service.py:52-53 | Python's `min` over the coordinates is an element of the list no greater than any other. |
| Detection.Max | backend/services/paddle_detection_service.py:52-53 | Python's `max` over the coordinates is an element of the list no smaller than any other. |
| Detection.PolygonToRegion | backend/services/paddle_detection_service.py:49-69 | An empty polygon raises. Otherwise the box corners are the truncated coordinate-wise extremes, attained by some vertex. Every truncated vertex lies inside the box. Width and height are non-negative. |
| Detection.SidesOfRegion | backend/services/paddle_detection_service.py:54-66 | The reported width and height, `int()` of the differences, are within one of the box's sides. They are equal to the sides when the coordinates are whole. |
| Detection.FractionalWidth | backend/services/paddle_detection_service.py:54-66 | A vertex pair at x = 0.5 and x = 1.4 gives a box one pixel wide but a reported width of 0. |
| Detection.Polygons | backend/services/paddle_detection_service.py:44-46 | No result entries, or a missing `dt_polys`, give an empty polygon list. |
| Detection.RegionsOf | backend/services/paddle_detection_service.py:49-69 | The loop raises exactly when some polygon is empty. Otherwise it gives one region per polygon, in order. |
| Detection.DetectTextBbox | backend/services/paddle_detection_service.py:24-71 | Without polygons the detection list is empty. Otherwise it has one region per polygon. |
| Detection.DetectBboxLogic | backend/services/paddle_detection_service.py:86-99 | The response succeeds exactly when detection does, lists those regions, and counts what it lists. |
| ImageValidation.Message | backend/utils/image/validation.py:15-43 | Exactly the wrong-type, empty-file and too-large errors have fixed messages. |
| ImageValidation.AfterLast | backend/utils/image/validation.py:29 | The text after the last separator is a suffix of the name without the separator. A name without the separator is returned whole. |
| ImageValidation.Extension | backend/utils/image/validation.py:29 | The derived extension starts with a dot. A dot-less name is read whole, lower-cased. |
| ImageValidation.ValidateImageFile | backend/utils/image/validation.py:15-32 | A missing content type or a non-image one is refused first. Then an unlisted MIME type, then an unlisted extension. Otherwise the upload passes. |
| ImageValidation.DotlessNamePasses | backend/utils/image/validation.py:28-32 | A file named `png` with type `image/png` passes validation. |
| ImageValidation.MissingContentTypeFirst | backend/utils/image/validation.py:19-20 | An upload without a content type is refused as the wrong type, whatever its name. |
| ImageValidation.ValidateImageBytes | backend/utils/image/validation.py:35-43 | Bytes pass exactly when they are non-empty and at most 10 MiB. Empty bytes and oversized bytes each get their own error. |
| ImageValidation.SizeBoundary | backend/utils/image/validation.py:41-43 | Exactly 10 MiB passes. One byte more is too large. |
| ImageValidation.ResizeImage | backend/utils/image/validation.py:76-87 | An image within bounds is unchanged. A zero side outside the bounds raises. Otherwise the new size fits inside both bounds, and the limiting side lands exactly on its bound. Its proportions match the original's up to truncating each side. |
| ImageProcessing.CropImage | backend/utils/image/processing.py:13-38 | An image that cannot be opened fails first. The crop succeeds exactly when the box is well ordered and inside the image, and then has that box. An inverted box is reported as invalid coordinates. |
| ImageProcessing.InvertedReportedFirst | backend/utils/image/processing.py:22-26 | A box that is both inverted and outside the image is reported as inverted. |
| ImageProcessing.SortDesc | backend/utils/image/processing.py:86 | The sorted colour counts are a permutation of the input, in non-increasing count order. |
| ImageProcessing.SliceTo | backend/utils/image/processing.py:87 | Python's `s[:n]` is a prefix of the stated length. A negative `n` counts from the end. |
| ImageProcessing.GetDominantColors | backend/utils/image/processing.py:76-93 | There are no colours when `getcolors` gives none. Otherwise exactly `min(num_colors, len(colors))` colours come back, or Python's count for a negative `num_colors`, and each one is present in the input. |
| ImageProcessing.DominantColorsOrdered | backend/utils/image/processing.py:84-87 | The first `num_colors` entries of the count-sorted list come back in order. No colour left out has a larger count than one returned. |
| Homepage.ServiceMode | backend/utils/homepage_config.py:18-22 | The mode compared is the given mode, or `DEPLOYED_OCR` when it is missing or empty, stripped and title-cased. |
| Homepage.GetServiceConfig | backend/utils/homepage_config.py:14-190 | "Trocr" selects the TrOCR description and "Qwen" the Qwen one. Every other mode gets the hybrid description. |
| Homepage.TitleNeverMixed | backend/utils/homepage_config.py:30-102 | After title-casing, the spellings "TrOCR", "TROCR", "QWEN", "HYBRID" and "both" that the branches also test can never occur. |
| Homepage.FallbackIsHybrid | backend/utils/homepage_config.py:146-190 | The `else` branch returns exactly the hybrid description. |
| Homepage.TitleKey | backend/utils/homepage_config.py:22 | A title-cased string reads "Trocr" or "Qwen" exactly when its lower-case form is "trocr" or "qwen". |
| Homepage.CaseInsensitiveSelection | backend/utils/homepage_config.py:18-30 | The service is chosen case-insensitively and ignoring surrounding whitespace, in both directions. |
| Homepage.DefaultModeIsDeployed | backend/utils/homepage_config.py:18 | With no mode, the deployed setting "TrOCR" selects the TrOCR description. |
| Homepage.GetBaseEndpoints | backend/utils/homepage_config.py:193-199 | The base endpoints are three GET routes, root, health and GPU status, all shown in slate. |
| ResponseParser.DropPunctuation | backend/utils/response_parser.py:54 | After removing punctuation, only word characters and whitespace remain. No upper-case character is introduced. Text without punctuation is unchanged. |
| ResponseParser.SpaceRuns | backend/utils/response_parser.py:55 | Whitespace runs become `_`, leaving only word characters. Text without whitespace is unchanged. |
| ResponseParser.UnderscoreRuns | backend/utils/response_parser.py:56 | Underscore runs collapse: no `__` remains. Text without runs is unchanged. |
| ResponseParser.NormalizeFieldName | backend/utils/response_parser.py:51-57 | A normalised field name is lower-case word characters with no `__`. |
| ResponseParser.NormalNameFixed | backend/utils/response_parser.py:51-57 | A name already in normal form is left as it is. |
| ResponseParser.NormalizeIdempotent | backend/utils/response_parser.py:51-57 | Normalising twice gives the same name as once. |
| ResponseParser.FindIsFirst | backend/utils/response_parser.py:42-43 | `str.find` returns exactly the first occurrence of the pattern. |
| ResponseParser.IsRelatedField | backend/utils/response_parser.py:36-49 | Related fields have both quoted tokens in the text. A token is always related to itself when it occurs. |
| ResponseParser.RelatedSymmetric | backend/utils/response_parser.py:36-49 | Relatedness does not depend on which of the two tokens is the entity, because the distance test is symmetric. |
| ResponseParser.RelatedFieldMeaning | backend/utils/response_parser.py:36-49 | A field is related to an entity exactly when both quoted tokens occur and their first occurrences are less than 500 characters apart, in either order. A missing token means unrelated. |
| ResponseParser.AllData | backend/utils/response_parser.py:62-87 | Each key in `all_data` appears once. Its value is the object of its last nested match, else the string of its last simple match. |
| ResponseParser.Organize | backend/utils/response_parser.py:89-105 | The organised items have distinct keys. |
| ResponseParser.OrganizeIsIdentity | backend/utils/response_parser.py:89-105 | Every key of `all_data` occurs once, so the grouping step never builds a list and returns `all_data` unchanged. |
| ResponseParser.Partition | backend/utils/response_parser.py:110-118 | The items are split into all-digit keys and other keys, in order, with nothing lost or invented. |
| ResponseParser.SortStrings | backend/utils/response_parser.py:123 | `sorted` gives a permutation in code-point order. |
| ResponseParser.SortIsTextual | backend/utils/response_parser.py:123 | Numbered keys sort as text, so "10" comes before "9". |
| ResponseParser.BaseEntity | backend/utils/response_parser.py:124-128 | An entity starts with its id, plus `primary_value` exactly when the numbered value is a string. |
| ResponseParser.AddRelated | backend/utils/response_parser.py:131-135 | The keys the entity had before the loop keep their positions, and the loop only adds items. |
| ResponseParser.AddRelatedKeys | backend/utils/response_parser.py:131-135 | An entity's keys are its starting keys plus the normalised names of the fields related to it. |
| ResponseParser.AddRelatedKeepsFirst | backend/utils/response_parser.py:131-135 | The id item keeps its value unless a related field normalises onto its key. |
| ResponseParser.Entity | backend/utils/response_parser.py:123-137 | Every entity starts with "id", which holds the number unless a related field overwrote it. |
| ResponseParser.LastRelated | backend/utils/response_parser.py:131-135 | A value is found exactly when some field related to the entity normalises to the name. |
| ResponseParser.LastRelatedMeaning | backend/utils/response_parser.py:131-135 | The value found is that of such a field, and no later field is related and normalises to the same name. |
| ResponseParser.AddRelatedValues | backend/utils/response_parser.py:131-135 | After the inner loop, a key holds the value of the last related field normalised to it. Any other key keeps its starting value. |
| ResponseParser.EntityValues | backend/utils/response_parser.py:123-137 | An entity's related names hold the last related value. Otherwise "id" holds the number and "primary_value" the numbered string. |
| ResponseParser.EntityKeys | backend/utils/response_parser.py:123-137 | An entity holds exactly "id", "primary_value" when the numbered value is a string, and the related fields. |
| ResponseParser.Entities | backend/utils/response_parser.py:123-137 | There is one entity per sorted numbered key, in that order, each built for its own key. |
| ResponseParser.TopLevel | backend/utils/response_parser.py:141-146 | The items present before the last loop keep their positions, and the loop only adds items. |
| ResponseParser.TopLevelKeys | backend/utils/response_parser.py:141-146 | The top level gains exactly the normalised names of fields related to no numbered key. |
| ResponseParser.LastTop | backend/utils/response_parser.py:141-146 | A value is found exactly when some field related to no numbered key is normalised to the name. |
| ResponseParser.LastTopMeaning | backend/utils/response_parser.py:141-146 | The value found is that of a field related to no numbered key and normalised to the name, with no later such field. |
| ResponseParser.TopLevelValues | backend/utils/response_parser.py:141-146 | After the last loop, a key holds the value of the last unrelated field normalised to it. Every other key keeps the value it had before. |
| ResponseParser.TopLevelKeepsFirst | backend/utils/response_parser.py:141-146 | The first top-level item keeps its value unless an unrelated field normalises onto its key. |
| ResponseParser.EntitiesItem | backend/utils/response_parser.py:120-139 | There is an "entities" item exactly when some key is numbered. |
| ResponseParser.HasEntitiesIff | backend/utils/response_parser.py:110-121 | The entity list exists exactly when some key of `all_data` is all digits. |
| ResponseParser.GenericJsonRepair | backend/utils/response_parser.py:59-147 | With numbered keys, the first item is "entities". The object holds exactly "entities" when some key is numbered, plus the normalised names of the unrelated fields. Each of those names holds the value of the last unrelated field normalised to it. |
| ResponseParser.RepairEntities | backend/utils/response_parser.py:121-139 | When there are numbered keys, the first item is "entities", one per numbered key in sorted order, unless an unrelated field is itself named "entities". |
| ResponseParser.CleanEscapes | backend/utils/response_parser.py:34 | Text without escaped newlines or quotes is unchanged. |
| ResponseParser.ExtractAndParseJson | backend/utils/response_parser.py:9-169 | The result is None exactly when there is no fenced JSON block. Otherwise it is the generic repair of the unescaped block. Its keys are exactly "entities" when some key is numbered, plus the normalised unrelated field names. Each such name holds the last unrelated field's value. Unless an unrelated field is itself named "entities", the first item is the sorted entity list. |
| Annotation.InitializeData | annotation_tool/data_annoation_tool.py:53-64 | Every image gets a record. Existing records are kept. New ones are empty, and their `created` and `modified` are the two separate clock readings taken for that file. |
| Annotation.LoadData | annotation_tool/data_annoation_tool.py:75-86 | Loading keeps exactly the initialised file set. Files in the saved data take its fields. Other files and a missing or unreadable file change nothing. |
| Annotation.SaveThenLoad | annotation_tool/data_annoation_tool.py:53-101 | Saving the records and loading them over fresh ones gives the saved records back. |
| Annotation.LoadIdempotent | annotation_tool/data_annoation_tool.py:75-86 | Loading the same file twice is the same as loading it once. |
| Annotation.StampModified | annotation_tool/data_annoation_tool.py:92-93 | Saving sets each record's modified time to the clock reading taken for that record in the loop, and changes nothing else. |
| Annotation.ParseFilter | annotation_tool/data_annoation_tool.py:124-149 | Exactly the six filter names are recognised, "all" and "consensus_needed" included. |
| Annotation.Select | annotation_tool/data_annoation_tool.py:124-149 | The filtered list is an order-preserving sub-list of the images. It holds exactly the images the filter keeps. |
| Annotation.SelectAll | annotation_tool/data_annoation_tool.py:126-127 | The "all" filter keeps the whole list. |
| Annotation.AnnotatedPartition | annotation_tool/data_annoation_tool.py:128-135 | The "annotated" and "unannotated" lists together are a permutation of the images. |
| Annotation.ConsensusNeededExactly | annotation_tool/data_annoation_tool.py:142-145 | An image needs consensus exactly when it has more than one annotator and an empty consensus. |
| Annotation.SaveAnnotation | annotation_tool/data_annoation_tool.py:641-664 | The user's entry becomes the stripped text, the confidence and the timestamp. Other users' entries and every other field are unchanged. The image counts as annotated exactly when the stripped text is non-empty. |
| Annotation.SaveFile | annotation_tool/data_annoation_tool.py:641-664 | The current image gets the saved entry, whose timestamp is its own reading. Every record's modified time becomes the reading `save_data` takes for it, and nothing else changes. |
| Annotation.RemoveFirst | annotation_tool/data_annoation_tool.py:820 | `list.remove` takes out one occurrence and keeps the rest. |
| Annotation.ToggleBookmark | annotation_tool/data_annoation_tool.py:810-824 | An unbookmarked user is appended. A bookmarked user is removed. Other users are unaffected. |
| Annotation.ToggleBookmarkTwice | annotation_tool/data_annoation_tool.py:810-824 | Bookmarking and then unbookmarking restores the list. |
| Annotation.FlagEntry | annotation_tool/data_annoation_tool.py:798 | A flag is the bare user name, or `user: reason` with the reason stripped. |
| Annotation.FlagEntryIsOwn | annotation_tool/data_annoation_tool.py:798-804 | Every flag a user writes is recognised as that user's own. |
| Annotation.OthersFlags | annotation_tool/data_annoation_tool.py:803-804 | Un-flagging keeps exactly the other users' flags, in order. |
| Annotation.ToggleFlag | annotation_tool/data_annoation_tool.py:785-808 | Corrected toggle. An unflagged user adds a flag when they give a reason. A flagged user loses every flag of their own and nobody else's. |
| Annotation.FlagThenUnflag | annotation_tool/data_annoation_tool.py:785-808 | With the corrected toggle, flagging and toggling again restores the flag list exactly. |
| Annotation.CsvRow | annotation_tool/data_annoation_tool.py:103-122 | A CSV row starts with the file name, joins the flags with ", ", says "True" exactly when there are bookmarks, and has blank cells for a user with no entry. |
| Annotation.ExportCsv | annotation_tool/data_annoation_tool.py:103-122 | The export is the header followed by one row per image, in the image order. |
| Annotation.SavedRow | annotation_tool/data_annoation_tool.py:103-122 | After a save, the user's CSV row shows the stripped text, the confidence and the timestamp. |
| Annotation.BookmarkedRow | annotation_tool/data_annoation_tool.py:103-122 | The bookmark column turns "True" after a first bookmark, and "False" after the only bookmark is removed. |
| Annotation.AnnotatedCount | annotation_tool/data_annoation_tool.py:630-632 | The progress count never exceeds the number of images. |
| Annotation.AnnotatedCountZero | annotation_tool/data_annoation_tool.py:630-632 | The count is 0 exactly when the user has annotated none of the images. |
| Annotation.AnnotatedCountAll | annotation_tool/data_annoation_tool.py:630-632 | The count equals the number of images exactly when the user has annotated every one. |
| Annotation.AnnotatedCountIsFilter | annotation_tool/data_annoation_tool.py:630-632 | The progress count equals the length of the "annotated" filter's list. |
| StreamlitTool.FilterFiles | annotation_tool/data_annoation_streamlit.py:69-88 | Each filter gives an order-preserving sub-list. An unknown name gives the whole list. |
| StreamlitTool.FilterFilesAll | annotation_tool/data_annoation_streamlit.py:69-88 | "all" and unknown filter names give the whole list. |
| StreamlitTool.ChangeFilter | annotation_tool/data_annoation_streamlit.py:142-147 | Choosing a new filter recomputes the list and returns to the first image. Choosing the same one changes nothing. |
| StreamlitTool.Navigate | annotation_tool/data_annoation_streamlit.py:160-170 | "First" goes to 0. "Prev" and "Next" move one step and stop at either end. "Last" goes to `total - 1`, which is -1 on an empty list. "Go" goes to the entered number minus one. With a bounded entry, the index stays inside the list. |
| StreamlitTool.NextThenPrev | annotation_tool/data_annoation_streamlit.py:160-170 | "Next" then "Prev" returns to the same image. |
| StreamlitTool.SaveCurrent | annotation_tool/data_annoation_streamlit.py:220-228 | The shown image's record is the saved annotation, with the entry's own timestamp reading and the modified time `save_data` reads for that record. Its flags, bookmarks, consensus, creation time and other users' entries are unchanged. Every other record changes only in its modified time, which is its own reading. |
| StreamlitTool.ToggleFlagAsWritten | annotation_tool/data_annoation_streamlit.py:255-269 | As written, "flagged" means some flag starts with the user name. Un-flagging drops every such flag. |
| StreamlitTool.PageNeverAddsFlag | annotation_tool/data_annoation_streamlit.py:255-272 | On the running page no reason is ever confirmed, so a toggle never adds a flag. An unflagged file stays as it is, and a flagged one loses at least one flag. |
| StreamlitTool.PrefixUnflagsOthers | annotation_tool/data_annoation_streamlit.py:257-267 | A user "ann" toggling on a file flagged by "anna" removes Anna's flag. The corrected toggle adds Ann's own flag instead. |
| StreamlitTool.ConsensusChoices | annotation_tool/data_annoation_streamlit.py:301-303 | There is one radio option `user: text` per annotator, in order. |
| StreamlitTool.AfterSeparator | annotation_tool/data_annoation_streamlit.py:306 | Without ": " the option is kept whole. Otherwise the result is at least two characters shorter. |
| StreamlitTool.ChoiceRecoversText | annotation_tool/data_annoation_streamlit.py:306 | Splitting an option at its first ": " gives back the annotator's text when the user name has no ": ". |
| StreamlitTool.SetConsensus | annotation_tool/data_annoation_streamlit.py:300-313 | The stripped custom text wins over the chosen option. An empty result stores nothing. Only the consensus field changes. |
| StreamlitTool.ChosenTextBecomesConsensus | annotation_tool/data_annoation_streamlit.py:300-313 | With a blank custom field, choosing an annotator's option stores that annotator's text. |
| TkTool.ApplyFilter | annotation_tool/data_annoation_tool.py:124-149 | A known filter recomputes the list. An unknown one keeps it. An out-of-range index is reset to 0. Nothing else changes. |
| TkTool.ShowImage | annotation_tool/data_annoation_tool.py:523-528 | An index inside the list is shown. Any other index is ignored. |
| TkTool.NextImage | annotation_tool/data_annoation_tool.py:680-688 | Next moves one forward, except on the last image. |
| TkTool.PrevImage | annotation_tool/data_annoation_tool.py:690-698 | Previous moves one back, except on the first image. |
| TkTool.FirstImage | annotation_tool/data_annoation_tool.py:700-703 | First goes to index 0. |
| TkTool.LastImage | annotation_tool/data_annoation_tool.py:705-708 | Last goes to the final image of a non-empty list. |
| TkTool.JumpToImage | annotation_tool/data_annoation_tool.py:710-723 | Only a number in 1..len moves, to that image. Anything else, unparsable text included, is ignored. |
| TkTool.NextThenPrev | annotation_tool/data_annoation_tool.py:680-698 | Next then Previous returns to the same image. |
| TkTool.NavigationKeepsData | annotation_tool/data_annoation_tool.py:680-723 | Navigation changes only the index. |
| TkTool.SaveCurrent | annotation_tool/data_annoation_tool.py:641-664 | With images, the shown file's annotation is saved and every record gets the modified time read for it. Without images, nothing happens. |
| TkTool.SaveMarksAnnotated | annotation_tool/data_annoation_tool.py:641-664 | After a save, the image counts as annotated exactly when the stripped text is non-empty. |
| TkTool.SaveAndNext | annotation_tool/data_annoation_tool.py:666-669 | Save and next stores the same records as a save. Then it moves one image forward, except on the last image. The filter, the lists and the user are unchanged, and the window invariant holds. |
| TkTool.ToggleFlagAsWritten | annotation_tool/data_annoation_tool.py:785-808 | As written, "flagged" means the bare user name is in the list. A user whose flag has a reason gets a second flag appended. |
| TkTool.FlagWithReasonSticks | annotation_tool/data_annoation_tool.py:793-804 | Without the bare name in the list, toggling never removes any flag. |
| TkTool.ReasonFlagCannotBeUndone | annotation_tool/data_annoation_tool.py:793-804 | Toggling after `ann: dim` appends a second copy. The corrected toggle removes it. |
| TkTool.ToggleFlagAt | annotation_tool/data_annoation_tool.py:785-808 | Without images, or when the reason dialog is cancelled, nothing changes. Otherwise the shown file's flags are toggled as written and every record gets the modified time the save reads for it. |
| TkTool.ToggleBookmarkAt | annotation_tool/data_annoation_tool.py:810-824 | Without images nothing changes. Otherwise the user's bookmark on the shown file is toggled and every record gets the modified time the save reads for it. |
| TkTool.SetConsensus | annotation_tool/data_annoation_tool.py:894-936 | Fewer than two annotators only warn. Otherwise the stripped custom text, else the selected annotation, is stored when non-empty. Only the consensus field changes. |
| TkTool.CustomConsensusSettles | annotation_tool/data_annoation_tool.py:886-941 | Storing a visible custom consensus takes the file out of "consensus_needed" for every user. |
| TestClients.PollFrom | tests/test_qwen_form_parsing.py:98-145 | No request is made exactly when the attempts are used up. At most the remaining attempts are made, with one sleep fewer than requests. |
| TestClients.PollFromMeaning | tests/test_qwen_form_parsing.py:98-145 | Each request before the last was answered "pending" or "processing". The first settling reply is returned. Otherwise, after `max_attempts` requests, the last in-progress reply is returned, or None when that request failed. There is one sleep between consecutive requests. |
| TestClients.PollJobStatus | tests/test_ocr_pipeline_e2e.py.py:209-261 | The loop agrees with the reference polling run. It makes at most `max_attempts` requests. A returned payload is the reply to the last request. |
| TestClients.PollingIsBounded | tests/test_ocr_pipeline_e2e.py.py:37-38 | The clients make at most 10 requests and sleep at most 270 seconds. |
| TestClients.PendingJobTimesOut | tests/test_qwen_form_parsing.py:98-145 | A job that keeps answering "pending" is polled exactly `max_attempts` times, and the last pending reply is returned. |
| TestClients.NoneIffLastRequestFailed | tests/test_qwen_form_parsing.py:98-145 | None comes back exactly when no reply settled and the final request failed or was not a pending or processing answer. |
| TestClients.SingleImageVerdict | tests/test_qwen_form_parsing.py:173-214 | An image passes exactly when it got a non-empty job id and the polling met a completed answer before any other settling reply. |
| TestClients.FitTextToBox | tests/test_ocr_pipeline_e2e.py.py:140-179 | The result is None exactly for empty text or a non-positive box side. Otherwise it is the minimum size or a fitting size in range. When fitting is monotone it is the largest fitting size, or the minimum when none fits. |
| TestClients.PathJoin | tests/test_ocr_pipeline_e2e.py.py:74 | A joined path ends with its last component. |
| TestClients.ImageNames | tests/test_ocr_pipeline_e2e.py.py:73-77 | The kept entries are exactly the listed image files that are not annotated outputs, in listing order. |
| TestClients.GetTestImages | tests/test_ocr_pipeline_e2e.py.py:67-80 | An unreadable directory gives no images. Otherwise each kept entry is joined onto the directory, in order. |
| TestClients.OutputsAreSkipped | tests/test_ocr_pipeline_e2e.py.py:73-77 | The annotated copy `<stem>_detected.png` the client writes is never picked up again. |
| TestClients.WalkEntries | tests/test_qwen_form_parsing.py:42-46 | The kept walk entries are exactly those with an image extension, in visiting order. |
| TestClients.WalkImages | tests/test_qwen_form_parsing.py:33-52 | Each kept walk entry becomes its root joined with its file name. |
| TestClients.FormClientTakesOutputs | tests/test_qwen_form_parsing.py:42-46 | The form client, unlike the OCR client, does take a `_detected.png` file. |
| TestClients.RunSequential | tests/test_qwen_form_parsing.py:236-253 | The successes are the passing verdicts and the failures the rest, each image counted once, with a pause between consecutive images. |
| TestClients.CollectConcurrent | tests/test_ocr_pipeline_e2e.py.py:529-556 | Each completed future is counted once. Successes are the futures that returned True. Exceptions count as failures. |
| TestClients.CompletionOrderIrrelevant | tests/test_ocr_pipeline_e2e.py.py:529-556 | The tallies do not depend on the order in which futures complete. |
| AccuracyEval.NormalizeText | tests/test_ocr_accuracy_evaluation.py:5-9 | A missing cell gives "". Otherwise the result has no whitespace and no upper-case letters, and is no longer than the input. |
| AccuracyEval.NormalizeIdempotent | tests/test_ocr_accuracy_evaluation.py:5-9 | Normalising a normalised text changes nothing. |
| AccuracyEval.SpacingIsIgnored | tests/test_ocr_accuracy_evaluation.py:5-9 | Any whitespace between two pieces of text leaves the normalised text unchanged. |
| AccuracyEval.StripIsDropped | tests/test_ocr_accuracy_evaluation.py:8-9 | The `strip()` before the substitution removes nothing the substitution would keep. |

## Left out

- Concurrency: asyncio tasks and the thread pool of the concurrent test client are not modelled. One worker pass or one request is one atomic step. The one exception is the GPU wait: other workers' acquires and releases during its sleeps reach it through the probes.
- Floating point: the GPU memory threshold (12 GB) and the clock are reduced to what a probe reports, that is whether memory is over the threshold and the elapsed time. `resize_image` uses exact reals.
- OcrPipeline.Progress: it uses the exact `floor(idx * 100 / n)`. Python computes `int(idx / n * 100)` in floating point, which can be one lower, for example 28 for 29 of 100.
- ImageProcessing.SortDesc: it proves order and permutation but not that equal counts keep their input order, as Python's stable sort does.
- Gpu.GetStats: the CUDA availability flag and the memory figures come from the device and are not modelled.
- Image decoding, drawing and encoding through PIL (`load_image`, `get_image_info`, `image_to_bytes`, `enhance_image_for_ocr`, `calculate_image_hash`) are not modelled. An image is its width and height.
- The models: the TrOCR recogniser, the Qwen parser and the PaddleOCR detector are parameters. Their outputs are given as values or raised exceptions.
- Redis client behaviour and the JSON encoding of records are not modelled. The store is a map from job id to record.
- Timestamps, `metadata_service` and the training-sample dump in `ocr_pipeline_service.py` are not modelled.
- Annotation.InitializeData, Annotation.StampModified, Annotation.SaveFile, TkTool.SaveCurrent and StreamlitTool.SaveCurrent: each `datetime.now()` call is a separate value. `created` and `modified` are two readings per file, `save_data` takes one per record, and the entry timestamp is its own. Nothing relates the readings: the model does not promise that the clock moves forward, or that two readings differ.
- The HTTP layer: FastAPI routing, response classes, the curl and Python snippets in `homepage_config.py`, the UI router, the queue-status endpoint wrappers and `system.py` are not modelled. The modelled functions return what these routes would serialise.
- ResponseParser.ExtractAndParseJson: the two regular expressions are a parameter that reports their matches. `json.dumps` followed by `json.loads` is taken as the identity, so the parse-failure branch and the last-resort simple extraction are not modelled.
- Text: only ASCII whitespace, case and digits are modelled. Unicode case mapping and Unicode whitespace are not.
- File I/O in the annotation tools (JSON and CSV writing, existence checks) is not modelled. The loaded file is a value, and `None` stands for a missing or unreadable file.
- TkTool.SetConsensus and StreamlitTool.SetConsensus: each works on one record. The `save_data` that follows a stored consensus also restamps every record, as Annotation.StampModified states, and that restamping is not repeated in these members.
- Annotation.LoadData: `dict.update` can also add keys that are not part of the record type. The model keeps only the known fields.
- StreamlitTool.ToggleFlagAsWritten: the append branch (`reason` present) cannot run in the page. "Confirm Flag" is drawn inside `toggle_flag`, which runs only when "Flag/Unflag" was clicked on that run. Clicking "Confirm Flag" starts a new run in which "Flag/Unflag" reads False. The member states that branch as the code writes it, and StreamlitTool.PageNeverAddsFlag states what the page can do.
- The login prompts, Streamlit widgets and reruns, and the Tk layout are not modelled. Neither are `refresh_filter`, `show_all_annotations` and `switch_user` of the Tk tool, because they only redraw or re-read state the model already covers.
- TestClients.FitTextToBox: text measurement is a parameter `fits`. Its docstring says it may return None for text that cannot fit, but the code always returns at least the minimum size, and the model follows the code.
- `process_single_image` of the OCR test client (drawing the boxes and labels), the report printing and the command-line argument handling are not modelled.
- AccuracyEval.NormalizeText: a non-string cell is taken to be its string form. `str()` of numbers is not modelled.
- The fine-tuning and PDF extraction scripts, `parser.py` and the Qwen and TrOCR service wrappers are outside this model.

## Findings

| source | as written | input that shows it | evidently intended | confidence | as-written member | corrected member |
|---|---|---|---|---|---|---|
| annotation_tool/data_annoation_streamlit.py:257-267 | The user counts as having flagged when any flag starts with their name. Un-flagging removes every flag with that prefix. | The file is flagged `["anna: blurry"]` and user "ann" toggles with reason "faded". Anna's flag is removed and none is added. | Only the user's own flags, the bare name or `name: reason`, count and are removed. | not executed | StreamlitTool.PageNeverAddsFlag | annotation_tool/data_annoation_streamlit.py:255-272 | On the running page no reason is ever confirmed, so a toggle never adds a flag. An unflagged file stays as it is, and a flagged one loses at least one flag. |
| StreamlitTool.PrefixUnflagsOthers | Annotation.ToggleFlag |
| annotation_tool/data_annoation_tool.py:793-804 | The flag branch tests `current_user not in flags`. A flag written with a reason, `user: reason`, is never seen as the user's own. | The file is flagged `["ann: dim"]` and user "ann" toggles. A second `"ann: dim"` is appended. While only reasoned flags are present, toggling never removes them. | Toggling after flagging with a reason removes that flag. | not executed | TkTool.ReasonFlagCannotBeUndone | Annotation.FlagThenUnflag |

=== FILE: accuracy.dfy ===
/** `normalize_text` of `tests/test_ocr_accuracy_evaluation.py`, the key the
    accuracy script compares recognised and expected text on. */
module AccuracyEval {
  import opened Text

  /** A cell of the results table: `NaN` when empty. */
  datatype Cell = Missing | Present(s: string)

  /** The characters of `s` other than whitespace, in order. */
  function DropSpaces(s: string): (r: string)
    ensures |r| <= |s|
    ensures forall i :: 0 <= i < |r| ==> !IsSpace(r[i])
    ensures (forall i :: 0 <= i < |s| ==> !IsUpper(s[i])) ==> forall i :: 0 <= i < |r| ==> !IsUpper(r[i])
  {
    if s == [] then []
    else if IsSpace(s[0]) then DropSpaces(s[1..])
    else [s[0]] + DropSpaces(s[1..])
  }

  /** `normalize_text`: `""` for a missing cell, otherwise the lower-cased text
      with every whitespace character removed. */
  function NormalizeText(cell: Cell): (r: string)
    ensures cell.Missing? ==> r == []
    ensures forall i :: 0 <= i < |r| ==> !IsSpace(r[i]) && !IsUpper(r[i])
    ensures cell.Present? ==> |r| <= |cell.s|
  {
    match cell
    case Missing => []
    case Present(s) =>
      StripNoUpper(Lower(s));
      DropSpaces(Strip(Lower(s)))
  }

  /** `strip()` keeps a text free of capitals: it only cuts pieces off. */
  lemma StripNoUpper(t: string)
    requires forall i :: 0 <= i < |t| ==> !IsUpper(t[i])
    ensures forall i :: 0 <= i < |Strip(t)| ==> !IsUpper(Strip(t)[i])
  {
    var pre, post := StripSplit(t);
    forall i | 0 <= i < |Strip(t)| ensures !IsUpper(Strip(t)[i]) {
      assert Strip(t)[i] == t[|pre| + i];
    }
  }

  lemma {:induction false} DropSpacesConcat(a: string, b: string)
    ensures DropSpaces(a + b) == DropSpaces(a) + DropSpaces(b)
    decreases |a|
  {
    if a != [] {
      assert (a + b)[1..] == a[1..] + b;
      DropSpacesConcat(a[1..], b);
    } else {
      assert a + b == b;
    }
  }

  lemma {:induction false} DropSpacesNoop(s: string)
    requires forall i :: 0 <= i < |s| ==> !IsSpace(s[i])
    ensures DropSpaces(s) == s
    decreases |s|
  {
    if s != [] {
      DropSpacesNoop(s[1..]);
    }
  }

  /** Normalising a normalised text changes nothing. */
  lemma NormalizeIdempotent(cell: Cell)
    ensures NormalizeText(Present(NormalizeText(cell))) == NormalizeText(cell)
  {
    NormalFixed(NormalizeText(cell));
  }

  /** A text without whitespace or capitals is its own normal form. */
  lemma NormalFixed(n: string)
    requires forall i :: 0 <= i < |n| ==> !IsSpace(n[i]) && !IsUpper(n[i])
    ensures DropSpaces(Strip(Lower(n))) == n
  {
    StripIsDropped(n);
    LowerNoop(n);
    DropSpacesNoop(n);
  }

  /** Extra whitespace anywhere between two words does not change the
      normalised text, so "Total  Due" and "totaldue" compare equal. */
  lemma SpacingIsIgnored(a: string, b: string, gap: string)
    requires forall i :: 0 <= i < |gap| ==> IsSpace(gap[i])
    ensures NormalizeText(Present(a + gap + b)) == NormalizeText(Present(a + b))
  {
    var ag := a + gap;
    var x, y := DropSpaces(Lower(a)), DropSpaces(Lower(b));
    StripIsDropped(ag + b);
    StripIsDropped(a + b);
    DropLowerConcat(ag, b);
    DropLowerConcat(a, gap);
    DropLowerSpaces(gap);
    assert DropSpaces(Lower(ag)) == x + [];
    assert x + [] == x;
    DropLowerConcat(a, b);
  }

  /** The `strip()` before the substitution removes nothing the substitution
      would keep. */
  lemma StripIsDropped(s: string)
    ensures DropSpaces(Strip(Lower(s))) == DropSpaces(Lower(s))
  {
    var t := Lower(s);
    var pre, post := StripSplit(t);
    DropOuterSpaces(t, pre, Strip(t), post);
  }

  /** `strip()` cuts whitespace-only pieces off both ends. */
  lemma StripSplit(s: string) returns (pre: string, post: string)
    ensures s == pre + (Strip(s) + post)
    ensures forall i :: 0 <= i < |pre| ==> IsSpace(pre[i])
    ensures forall i :: 0 <= i < |post| ==> IsSpace(post[i])
  {
    var l := LStrip(s);
    pre := LStripHead(s);
    post := RStripTail(l);
  }

  lemma LStripHead(s: string) returns (pre: string)
    ensures s == pre + LStrip(s)
    ensures forall i :: 0 <= i < |pre| ==> IsSpace(pre[i])
  {
    var l := LStrip(s);
    LStripSlice(s);
    pre := s[..|s| - |l|];
    forall i | 0 <= i < |pre| ensures IsSpace(pre[i]) {
      assert pre[i] == s[i];
    }
    assert s == pre + l;
  }

  lemma RStripTail(l: string) returns (post: string)
    ensures l == RStrip(l) + post
    ensures forall i :: 0 <= i < |post| ==> IsSpace(post[i])
  {
    var m := RStrip(l);
    RStripSlice(l);
    post := l[|m|..];
    forall i | 0 <= i < |post| ensures IsSpace(post[i]) {
      assert post[i] == l[|m| + i];
    }
    assert l == m + post;
  }

  /** Whitespace around a text is dropped by the substitution. */
  lemma DropOuterSpaces(s: string, pre: string, mid: string, post: string)
    requires s == pre + (mid + post)
    requires forall i :: 0 <= i < |pre| ==> IsSpace(pre[i])
    requires forall i :: 0 <= i < |post| ==> IsSpace(post[i])
    ensures DropSpaces(s) == DropSpaces(mid)
  {
    var m := DropSpaces(mid);
    DropSpacesConcat(pre, mid + post);
    AllSpaceDropped(pre);
    DropSpacesConcat(mid, post);
    AllSpaceDropped(post);
    assert [] + (m + []) == m;
  }

  lemma DropLowerConcat(a: string, b: string)
    ensures DropSpaces(Lower(a + b)) == DropSpaces(Lower(a)) + DropSpaces(Lower(b))
  {
    LowerConcat(a, b);
    DropSpacesConcat(Lower(a), Lower(b));
  }

  lemma LowerConcat(a: string, b: string)
    ensures Lower(a + b) == Lower(a) + Lower(b)
  {}

  lemma DropLowerSpaces(s: string)
    requires forall i :: 0 <= i < |s| ==> IsSpace(s[i])
    ensures DropSpaces(Lower(s)) == []
  {
    AllSpaceDropped(Lower(s));
  }

  lemma {:induction false} AllSpaceDropped(s: string)
    requires forall i :: 0 <= i < |s| ==> IsSpace(s[i])
    ensures DropSpaces(s) == []
    decreases |s|
  {
    if s != [] {
      AllSpaceDropped(s[1..]);
    }
  }
}

=== FILE: annotation.dfy ===
/** The annotation store both annotation tools keep
    (`annotation_tool/data_annoation_streamlit.py` and
    `annotation_tool/data_annoation_tool.py`): per image file, the users'
    transcriptions, the flags, the bookmarks and the agreed consensus. Every
    `datetime.now().isoformat()` call is its own reading: a single one is a
    `now` parameter, and a reading taken once per file inside a loop is a
    `Stamps` parameter giving the string read for each file. Nothing relates
    two readings. The JSON and CSV files are values. */
module Annotation {
  import opened Wrappers
  import opened Text
  import opened PyDict

  // ---------------------------------------------------------------------------
  // Data model
  // ---------------------------------------------------------------------------

  /** One user's annotation. A record read back from the JSON file may lack
      any of the three keys. */
  datatype UserEntry = UserEntry(text: Option<string>, confidence: Option<string>, timestamp: Option<string>)

  /** The record of one image file. `users` keeps insertion order, which is the
      order the consensus choices are offered in. */
  datatype FileData = FileData(
    users: Dict<UserEntry>, flags: seq<string>, bookmarks: seq<string>,
    consensus: string, created: string, modified: string)

  /** `data`: filename to record. */
  type Data = map<string, FileData>

  /** The clock reading a loop takes for each file it visits. */
  type Stamps = string -> string

  /** The record `initialize_data` gives a new file; `created` and `modified`
      are two separate clock readings. */
  function Fresh(created: string, modified: string): FileData {
    FileData([], [], [], "", created, modified)
  }

  /** Every file of `files` has a record in `data`: the tools index
      `data[f]` for listed files only after initialising them. */
  predicate Covers(data: Data, files: seq<string>) {
    forall i :: 0 <= i < |files| ==> files[i] in data
  }

  /** `initialize_data`: each listed file not yet present gets an empty
      record, whose `created` and `modified` are the two readings taken for
      it; the Streamlit tool starts from `{}`. */
  function InitializeData(data: Data, files: seq<string>, created: Stamps, modified: Stamps): (r: Data)
    ensures Covers(r, files)
    ensures forall f :: f in r <==> f in data || f in files
    ensures forall f :: f in data ==> r[f] == data[f]
    ensures forall f :: f in r && f !in data ==> r[f] == Fresh(created(f), modified(f))
    decreases |files|
  {
    if files == [] then data
    else
      var d := if files[0] in data then data else data[files[0] := Fresh(created(files[0]), modified(files[0]))];
      var r := InitializeData(d, files[1..], created, modified);
      assert forall i :: 1 <= i < |files| ==> files[i] == files[1..][i - 1];
      r
  }

  // ---------------------------------------------------------------------------
  // load_data / save_data
  // ---------------------------------------------------------------------------

  /** A record as `json.load` returns it: each key may be absent. */
  datatype LoadedFile = LoadedFile(
    users: Option<Dict<UserEntry>>, flags: Option<seq<string>>, bookmarks: Option<seq<string>>,
    consensus: Option<string>, created: Option<string>, modified: Option<string>)

  /** `record.update(loaded)`: every key the loaded record has replaces the
      current value. */
  function Update(fd: FileData, l: LoadedFile): FileData {
    FileData(
      l.users.GetOr(fd.users), l.flags.GetOr(fd.flags), l.bookmarks.GetOr(fd.bookmarks),
      l.consensus.GetOr(fd.consensus), l.created.GetOr(fd.created), l.modified.GetOr(fd.modified))
  }

  /** `load_data`: `loaded` is the parsed file, `None` when it is missing or
      cannot be read (the tools then warn and keep `data`). Only files that
      already have a record are merged. */
  function LoadData(data: Data, loaded: Option<map<string, LoadedFile>>): (r: Data)
    ensures r.Keys == data.Keys
    ensures forall f :: f in data && (loaded.None? || f !in loaded.value) ==> r[f] == data[f]
    ensures forall f :: f in data && loaded.Some? && f in loaded.value ==> r[f] == Update(data[f], loaded.value[f])
  {
    match loaded
    case None => data
    case Some(m) => map f | f in data :: if f in m then Update(data[f], m[f]) else data[f]
  }

  /** The record `json.dump` writes: every key present. */
  function Dump(fd: FileData): (l: LoadedFile) {
    LoadedFile(Some(fd.users), Some(fd.flags), Some(fd.bookmarks), Some(fd.consensus), Some(fd.created), Some(fd.modified))
  }

  function DumpAll(data: Data): (m: map<string, LoadedFile>)
    ensures m.Keys == data.Keys
  {
    map f | f in data :: Dump(data[f])
  }

  /** Saving and restarting restores the data: initialising the same files and
      loading what was saved gives back exactly the saved records. */
  lemma SaveThenLoad(data: Data, files: seq<string>, created: Stamps, modified: Stamps)
    requires forall f :: f in data <==> f in files
    ensures LoadData(InitializeData(map[], files, created, modified), Some(DumpAll(data))) == data
  {
    var r := LoadData(InitializeData(map[], files, created, modified), Some(DumpAll(data)));
    assert r.Keys == data.Keys;
    forall f | f in data ensures r[f] == data[f] {
      assert r[f] == Update(Fresh(created(f), modified(f)), Dump(data[f]));
    }
  }

  /** Loading the same file twice changes nothing more. */
  lemma LoadIdempotent(data: Data, loaded: Option<map<string, LoadedFile>>)
    ensures LoadData(LoadData(data, loaded), loaded) == LoadData(data, loaded)
  {
    if loaded.Some? {
      var once := LoadData(data, loaded);
      forall f | f in data ensures LoadData(once, loaded)[f] == once[f] {
        if f in loaded.value {
          assert Update(Update(data[f], loaded.value[f]), loaded.value[f]) == Update(data[f], loaded.value[f]);
        }
      }
    }
  }

  /** `save_data` stamps every record's `modified` with the reading taken for
      it in its loop, before writing. */
  function StampModified(data: Data, stamp: Stamps): (r: Data)
    ensures r.Keys == data.Keys
    ensures forall f :: f in r ==> r[f].modified == stamp(f) && r[f].(modified := data[f].modified) == data[f]
  {
    map f | f in data :: data[f].(modified := stamp(f))
  }

  // ---------------------------------------------------------------------------
  // Filters
  // ---------------------------------------------------------------------------

  /** `current_user in users and users[current_user].get('text', '').strip()`. */
  predicate IsAnnotated(fd: FileData, user: string) {
    match Get(fd.users, user)
    case None => false
    case Some(e) => Strip(e.text.GetOr("")) != []
  }

  datatype Filter = All | Annotated | Unannotated | Flagged | Bookmarked | ConsensusNeeded

  /** The filter names both tools recognise. */
  function ParseFilter(name: string): (r: Option<Filter>)
    ensures r.Some? <==> name in {"all", "annotated", "unannotated", "flagged", "bookmarked", "consensus_needed"}
    ensures r == Some(All) <==> name == "all"
    ensures r == Some(ConsensusNeeded) <==> name == "consensus_needed"
  {
    if name == "all" then Some(All)
    else if name == "annotated" then Some(Annotated)
    else if name == "unannotated" then Some(Unannotated)
    else if name == "flagged" then Some(Flagged)
    else if name == "bookmarked" then Some(Bookmarked)
    else if name == "consensus_needed" then Some(ConsensusNeeded)
    else None
  }

  /** Whether `filter` keeps a file with record `fd` for `user`. */
  predicate Keeps(filter: Filter, fd: FileData, user: string) {
    match filter
    case All => true
    case Annotated => IsAnnotated(fd, user)
    case Unannotated => !IsAnnotated(fd, user)
    case Flagged => fd.flags != []
    case Bookmarked => fd.bookmarks != []
    case ConsensusNeeded => |fd.users| > 1 && Strip(fd.consensus) == []
  }

  /** `r` is `s` with some elements left out, the rest in order. */
  predicate IsSubseq<T(==)>(r: seq<T>, s: seq<T>)
    decreases |s|
  {
    if r == [] then true
    else if s == [] then false
    else if r[0] == s[0] then IsSubseq(r[1..], s[1..])
    else IsSubseq(r, s[1..])
  }

  lemma {:induction false} SubseqMembers<T>(r: seq<T>, s: seq<T>)
    requires IsSubseq(r, s)
    ensures forall i :: 0 <= i < |r| ==> r[i] in s
    decreases |s|
  {
    if r != [] && s != [] {
      if r[0] == s[0] {
        SubseqMembers(r[1..], s[1..]);
        assert forall i :: 1 <= i < |r| ==> r[i] == r[1..][i - 1];
      } else {
        SubseqMembers(r, s[1..]);
      }
    }
  }

  lemma {:induction false} SubseqRefl<T>(s: seq<T>)
    ensures IsSubseq(s, s)
  {
    if s != [] {
      SubseqRefl(s[1..]);
    }
  }

  /** A sub-list is no longer than the list, and one as long is the list. */
  lemma {:induction false} SubseqLength<T>(r: seq<T>, s: seq<T>)
    requires IsSubseq(r, s)
    ensures |r| <= |s|
    ensures |r| == |s| ==> r == s
    decreases |s|
  {
    if r != [] && s != [] {
      if r[0] == s[0] {
        SubseqLength(r[1..], s[1..]);
        assert r == [r[0]] + r[1..] && s == [s[0]] + s[1..];
      } else {
        SubseqLength(r, s[1..]);
      }
    }
  }

  /** The list comprehension over `image_files` with `filter`'s condition. */
  function Select(data: Data, files: seq<string>, user: string, filter: Filter): (r: seq<string>)
    requires Covers(data, files)
    ensures IsSubseq(r, files)
    ensures forall i :: 0 <= i < |r| ==> r[i] in data && Keeps(filter, data[r[i]], user)
    ensures forall i :: 0 <= i < |files| && Keeps(filter, data[files[i]], user) ==> files[i] in r
  {
    if files == [] then []
    else
      var rest := Select(data, files[1..], user, filter);
      assert forall i :: 1 <= i < |files| ==> files[i] == files[1..][i - 1];
      if Keeps(filter, data[files[0]], user) then [files[0]] + rest else rest
  }

  /** "all" keeps every file. */
  lemma {:induction false} SelectAll(data: Data, files: seq<string>, user: string)
    requires Covers(data, files)
    ensures Select(data, files, user, All) == files
  {
    if files != [] {
      SelectAll(data, files[1..], user);
    }
  }

  /** One step of the comprehension: the head is kept or not, then the rest. */
  lemma SelectCons(data: Data, files: seq<string>, user: string, filter: Filter)
    requires Covers(data, files) && files != []
    ensures Select(data, files, user, filter) ==
      (if Keeps(filter, data[files[0]], user) then [files[0]] else []) + Select(data, files[1..], user, filter)
  {}

  /** "annotated" and "unannotated" split the files between them: together
      they hold every file exactly as often as the list does. */
  lemma {:induction false} AnnotatedPartition(data: Data, files: seq<string>, user: string)
    requires Covers(data, files)
    ensures multiset(Select(data, files, user, Annotated)) + multiset(Select(data, files, user, Unannotated)) == multiset(files)
  {
    if files != [] {
      var tail := files[1..];
      AnnotatedPartition(data, tail, user);
      SelectCons(data, files, user, Annotated);
      SelectCons(data, files, user, Unannotated);
      var a := Select(data, tail, user, Annotated);
      var u := Select(data, tail, user, Unannotated);
      var head := if IsAnnotated(data[files[0]], user) then [files[0]] else [];
      var other := if IsAnnotated(data[files[0]], user) then [] else [files[0]];
      assert files == [files[0]] + tail;
      SplitOne(files[0], head, other, a, u, tail);
    }
  }

  /** Sending one element to one of two piles that already split `t` splits
      `[x] + t`. */
  lemma SplitOne<T>(x: T, head: seq<T>, other: seq<T>, a: seq<T>, u: seq<T>, t: seq<T>)
    requires multiset(a) + multiset(u) == multiset(t)
    requires (head == [x] && other == []) || (head == [] && other == [x])
    ensures multiset(head + a) + multiset(other + u) == multiset([x] + t)
  {
    assert multiset(head + a) == multiset(head) + multiset(a);
    assert multiset(other + u) == multiset(other) + multiset(u);
    assert multiset([x] + t) == multiset{x} + multiset(t);
  }

  /** "consensus_needed" keeps exactly the files with more than one annotator
      and a blank consensus. */
  lemma ConsensusNeededExactly(data: Data, files: seq<string>, user: string, f: string)
    requires Covers(data, files)
    ensures f in Select(data, files, user, ConsensusNeeded) <==>
      f in files && |data[f].users| > 1 && Strip(data[f].consensus) == []
  {
    var r := Select(data, files, user, ConsensusNeeded);
    SubseqMembers(r, files);
    if f in files {
      var i :| 0 <= i < |files| && files[i] == f;
    }
  }

  // ---------------------------------------------------------------------------
  // Saving an annotation
  // ---------------------------------------------------------------------------

  /** The entry the save buttons store: the stripped text with the chosen
      confidence and the current time. */
  function Saved(input: string, confidence: string, now: string): UserEntry {
    UserEntry(Some(Strip(input)), Some(confidence), Some(now))
  }

  /** Creating the user's entry if missing and then `update`-ing its three
      keys: only the current user's entry changes. */
  function SaveAnnotation(fd: FileData, user: string, input: string, confidence: string, now: string): (r: FileData)
    ensures Get(r.users, user) == Some(Saved(input, confidence, now))
    ensures forall u :: u != user ==> Get(r.users, u) == Get(fd.users, u)
    ensures r.(users := fd.users) == fd
    ensures Unique(fd.users) ==> Unique(r.users)
    ensures IsAnnotated(r, user) <==> Strip(input) != []
  {
    fd.(users := Put(fd.users, user, Saved(input, confidence, now)))
  }

  /** Saving the annotation of `filename`, then `save_data`: the other files'
      records change only in `modified`. */
  function SaveFile(data: Data, filename: string, user: string, input: string, confidence: string,
                    now: string, stamp: Stamps): (r: Data)
    requires filename in data
    ensures r.Keys == data.Keys
    ensures r[filename] == SaveAnnotation(data[filename], user, input, confidence, now).(modified := stamp(filename))
    ensures forall g :: g in data && g != filename ==> r[g] == data[g].(modified := stamp(g))
  {
    StampModified(data[filename := SaveAnnotation(data[filename], user, input, confidence, now)], stamp)
  }

  // ---------------------------------------------------------------------------
  // Bookmarks
  // ---------------------------------------------------------------------------

  predicate NoDup(s: seq<string>) {
    forall i, j :: 0 <= i < j < |s| ==> s[i] != s[j]
  }

  /** The position of the first `x` in `s` (`list.index`). */
  function FirstPos(s: seq<string>, x: string): (i: nat)
    requires x in s
    ensures i < |s| && s[i] == x && x !in s[..i]
  {
    if s[0] == x then 0
    else
      var j := FirstPos(s[1..], x);
      assert s[..j + 1] == [s[0]] + s[1..][..j];
      j + 1
  }

  /** `list.remove(x)`: drops the first occurrence. */
  function RemoveFirst(s: seq<string>, x: string): (r: seq<string>)
    requires x in s
    ensures |r| == |s| - 1
    ensures multiset(r) == multiset(s) - multiset{x}
  {
    var i := FirstPos(s, x);
    assert s == s[..i] + [x] + s[i + 1..];
    s[..i] + s[i + 1..]
  }

  lemma RemoveFirstMembers(s: seq<string>, x: string)
    requires x in s
    ensures forall u :: u != x ==> (u in RemoveFirst(s, x) <==> u in s)
    ensures NoDup(s) ==> NoDup(RemoveFirst(s, x)) && x !in RemoveFirst(s, x)
  {
    RemoveFirstKeeps(s, x);
    if NoDup(s) {
      RemoveFirstNoDup(s, x);
    }
  }

  lemma RemoveFirstKeeps(s: seq<string>, x: string)
    requires x in s
    ensures forall u :: u != x ==> (u in RemoveFirst(s, x) <==> u in s)
  {
    var r := RemoveFirst(s, x);
    forall u | u != x ensures u in r <==> u in s {
      assert multiset(r)[u] == multiset(s)[u];
    }
  }

  lemma RemoveFirstNoDup(s: seq<string>, x: string)
    requires x in s && NoDup(s)
    ensures NoDup(RemoveFirst(s, x)) && x !in RemoveFirst(s, x)
  {
    var i := FirstPos(s, x);
    var r := s[..i] + s[i + 1..];
    assert RemoveFirst(s, x) == r;
    forall a, b | 0 <= a < b < |r| ensures r[a] != r[b] {
      var a' := if a < i then a else a + 1;
      var b' := if b < i then b else b + 1;
      assert r[a] == s[a'] && r[b] == s[b'];
    }
    forall k | 0 <= k < |r| ensures r[k] != x {
      var k' := if k < i then k else k + 1;
      assert r[k] == s[k'];
    }
  }

  /** `toggle_bookmark` on the bookmark list: append the user if absent,
      otherwise remove them. */
  function ToggleBookmark(bookmarks: seq<string>, user: string): (r: seq<string>)
    ensures user !in bookmarks ==> r == bookmarks + [user]
    ensures forall u :: u != user ==> (u in r <==> u in bookmarks)
    ensures NoDup(bookmarks) ==> NoDup(r) && (user in r <==> user !in bookmarks)
  {
    if user !in bookmarks then bookmarks + [user]
    else
      RemoveFirstMembers(bookmarks, user);
      RemoveFirst(bookmarks, user)
  }

  /** Bookmarking and then un-bookmarking restores the list. */
  lemma ToggleBookmarkTwice(bookmarks: seq<string>, user: string)
    requires user !in bookmarks
    ensures ToggleBookmark(ToggleBookmark(bookmarks, user), user) == bookmarks
  {
    var b := bookmarks + [user];
    assert user !in b[..|bookmarks|];
    assert FirstPos(b, user) == |bookmarks|;
    assert b[..|bookmarks|] == bookmarks;
  }

  // ---------------------------------------------------------------------------
  // Flags
  // ---------------------------------------------------------------------------

  /** The entry a confirmed flag appends: "user: reason", or the bare name when
      the reason is blank. */
  function FlagEntry(user: string, reason: string): (r: string)
    ensures Strip(reason) == [] ==> r == user
    ensures Strip(reason) != [] ==> r == user + ": " + Strip(reason)
  {
    if Strip(reason) != [] then user + ": " + Strip(reason) else user
  }

  /** The flags the Tk tool counts as `user`'s: the bare name or one
      starting with "user:". */
  predicate IsOwnFlag(f: string, user: string) {
    StartsWith(f, user + ":") || f == user
  }

  lemma FlagEntryIsOwn(user: string, reason: string)
    ensures IsOwnFlag(FlagEntry(user, reason), user)
  {
    if Strip(reason) != [] {
      assert (user + ": " + Strip(reason))[..|user + ":"|] == user + ":";
    }
  }

  /** The elements of `s` that `keep` accepts, in order. */
  function FilterSeq<T>(s: seq<T>, keep: T -> bool): (r: seq<T>)
    ensures IsSubseq(r, s)
    ensures forall i :: 0 <= i < |r| ==> keep(r[i])
    ensures forall i :: 0 <= i < |s| && keep(s[i]) ==> s[i] in r
  {
    if s == [] then []
    else
      var rest := FilterSeq(s[1..], keep);
      assert forall i :: 1 <= i < |s| ==> s[i] == s[1..][i - 1];
      if keep(s[0]) then [s[0]] + rest else rest
  }

  /** Filtering keeps the whole list when every element is accepted. */
  lemma {:induction false} FilterSeqAll<T>(s: seq<T>, keep: T -> bool)
    requires forall i :: 0 <= i < |s| ==> keep(s[i])
    ensures FilterSeq(s, keep) == s
  {
    if s != [] {
      FilterSeqAll(s[1..], keep);
    }
  }

  /** The flags of the other users: every flag that is not `user`'s. */
  function OthersFlags(flags: seq<string>, user: string): (r: seq<string>)
    ensures IsSubseq(r, flags)
    ensures forall i :: 0 <= i < |r| ==> !IsOwnFlag(r[i], user)
    ensures forall i :: 0 <= i < |flags| && !IsOwnFlag(flags[i], user) ==> flags[i] in r
  {
    FilterSeq(flags, NotOwnBy(user))
  }

  /** The condition of the un-flag comprehension. */
  function NotOwnBy(user: string): string -> bool {
    f => !IsOwnFlag(f, user)
  }

  /** Filtering a list with one more element at the end. */
  lemma {:induction false} FilterSeqSnoc<T>(s: seq<T>, x: T, keep: T -> bool)
    ensures FilterSeq(s + [x], keep) == FilterSeq(s, keep) + (if keep(x) then [x] else [])
  {
    if s != [] {
      FilterSeqSnoc(s[1..], x, keep);
      assert (s + [x])[1..] == s[1..] + [x];
    }
  }

  /** Whether `user` has a flag on the file, by the Tk tool's reading of
      "own flag". */
  predicate HasOwnFlag(flags: seq<string>, user: string) {
    exists i :: 0 <= i < |flags| && IsOwnFlag(flags[i], user)
  }

  /** Toggling a flag with the user's own flags recognised as the un-flag
      branch recognises them: with no own flag, a confirmed reason (`Some`)
      appends the entry and a cancelled dialog (`None`) changes nothing; with
      one, all own flags go and every other user's flag stays. Both tools'
      `toggle_flag` are measured against this definition. */
  function ToggleFlag(flags: seq<string>, user: string, reason: Option<string>): (r: seq<string>)
    ensures !HasOwnFlag(flags, user) && reason.Some? ==> r == flags + [FlagEntry(user, reason.value)]
    ensures !HasOwnFlag(flags, user) && reason.None? ==> r == flags
    ensures HasOwnFlag(flags, user) ==> !HasOwnFlag(r, user) && IsSubseq(r, flags)
    ensures forall i :: 0 <= i < |flags| && !IsOwnFlag(flags[i], user) ==> flags[i] in r
  {
    if !HasOwnFlag(flags, user) then
      match reason
      case Some(why) => flags + [FlagEntry(user, why)]
      case None => flags
    else OthersFlags(flags, user)
  }

  /** Flagging and then toggling again removes exactly the new flag: the list
      is back to what it was. */
  lemma FlagThenUnflag(flags: seq<string>, user: string, reason: string, again: Option<string>)
    requires !HasOwnFlag(flags, user)
    ensures ToggleFlag(ToggleFlag(flags, user, Some(reason)), user, again) == flags
  {
    var e := FlagEntry(user, reason);
    FlagEntryIsOwn(user, reason);
    var f := flags + [e];
    assert ToggleFlag(flags, user, Some(reason)) == f;
    assert f[|flags|] == e;
    assert HasOwnFlag(f, user);
    assert ToggleFlag(f, user, again) == FilterSeq(f, NotOwnBy(user));
    FilterSeqSnoc(flags, e, NotOwnBy(user));
    FilterSeqAll(flags, NotOwnBy(user));
  }

  // ---------------------------------------------------------------------------
  // CSV export
  // ---------------------------------------------------------------------------

  const CsvHeader: seq<string> := ["filename", "text", "confidence", "timestamp", "flags", "bookmarked"]

  /** `str(bool)` as `csv.writer` writes it. */
  function BoolText(b: bool): string {
    if b then "True" else "False"
  }

  /** The user's entry, or the empty one `get(current_user, {})` gives. */
  function EntryOf(fd: FileData, user: string): UserEntry {
    Get(fd.users, user).GetOr(UserEntry(None, None, None))
  }

  /** One row of `export_to_csv`. */
  function CsvRow(filename: string, fd: FileData, user: string): (r: seq<string>)
    ensures |r| == |CsvHeader| && r[0] == filename
    ensures r[5] == "True" <==> fd.bookmarks != []
    ensures r[4] == Join(fd.flags, ", ")
    ensures Get(fd.users, user).None? ==> r[1] == r[2] == r[3] == ""
  {
    var e := EntryOf(fd, user);
    [filename, e.text.GetOr(""), e.confidence.GetOr(""), e.timestamp.GetOr(""),
     Join(fd.flags, ", "), BoolText(fd.bookmarks != [])]
  }

  /** The rows of `export_to_csv`: the header, then one row per image file in
      order. */
  function ExportCsv(data: Data, files: seq<string>, user: string): (r: seq<seq<string>>)
    requires Covers(data, files)
    ensures |r| == |files| + 1 && r[0] == CsvHeader
    ensures forall i :: 0 <= i < |files| ==> r[i + 1] == CsvRow(files[i], data[files[i]], user)
  {
    [CsvHeader] + seq(|files|, i requires 0 <= i < |files| => CsvRow(files[i], data[files[i]], user))
  }

  /** After a save the user's row carries the stripped text, the confidence and
      the time of the save. */
  lemma SavedRow(filename: string, fd: FileData, user: string, input: string, confidence: string, now: string)
    ensures CsvRow(filename, SaveAnnotation(fd, user, input, confidence, now), user)[1..4] == [Strip(input), confidence, now]
  {}

  /** Bookmarking a file makes its row read "True"; un-bookmarking the only
      bookmark makes it read "False". */
  lemma BookmarkedRow(filename: string, fd: FileData, user: string)
    ensures user !in fd.bookmarks ==> CsvRow(filename, fd.(bookmarks := ToggleBookmark(fd.bookmarks, user)), user)[5] == "True"
    ensures fd.bookmarks == [user] ==> CsvRow(filename, fd.(bookmarks := ToggleBookmark(fd.bookmarks, user)), user)[5] == "False"
  {
    if fd.bookmarks == [user] {
      assert NoDup(fd.bookmarks);
      var r := ToggleBookmark(fd.bookmarks, user);
      assert user !in r;
      assert r == [];
    }
  }

  // ---------------------------------------------------------------------------
  // Progress
  // ---------------------------------------------------------------------------

  /** `annotated_by_user`: how many image files the user has annotated. */
  function AnnotatedCount(data: Data, files: seq<string>, user: string): (n: nat)
    requires Covers(data, files)
    ensures n <= |files|
  {
    if files == [] then 0
    else (if IsAnnotated(data[files[0]], user) then 1 else 0) + AnnotatedCount(data, files[1..], user)
  }

  /** The count is 0 exactly when the user has annotated none of the images. */
  lemma {:induction false} AnnotatedCountZero(data: Data, files: seq<string>, user: string)
    requires Covers(data, files)
    ensures AnnotatedCount(data, files, user) == 0 <==> forall i :: 0 <= i < |files| ==> !IsAnnotated(data[files[i]], user)
  {
    if files != [] {
      var t := files[1..];
      AnnotatedCountZero(data, t, user);
      if AnnotatedCount(data, files, user) == 0 {
        forall i | 0 <= i < |files| ensures !IsAnnotated(data[files[i]], user) {
          if i > 0 { assert files[i] == t[i - 1]; }
        }
      }
      if forall i :: 0 <= i < |files| ==> !IsAnnotated(data[files[i]], user) {
        forall i | 0 <= i < |t| ensures !IsAnnotated(data[t[i]], user) {
          assert t[i] == files[i + 1];
        }
      }
    }
  }

  /** The count is the number of images exactly when the user has annotated
      every one. */
  lemma {:induction false} AnnotatedCountAll(data: Data, files: seq<string>, user: string)
    requires Covers(data, files)
    ensures AnnotatedCount(data, files, user) == |files| <==> forall i :: 0 <= i < |files| ==> IsAnnotated(data[files[i]], user)
  {
    if files != [] {
      var t := files[1..];
      AnnotatedCountAll(data, t, user);
      if AnnotatedCount(data, files, user) == |files| {
        forall i | 0 <= i < |files| ensures IsAnnotated(data[files[i]], user) {
          if i > 0 { assert files[i] == t[i - 1]; }
        }
      }
      if forall i :: 0 <= i < |files| ==> IsAnnotated(data[files[i]], user) {
        forall i | 0 <= i < |t| ensures IsAnnotated(data[t[i]], user) {
          assert t[i] == files[i + 1];
        }
      }
    }
  }

  /** The progress count is the length of the "annotated" list. */
  lemma {:induction false} AnnotatedCountIsFilter(data: Data, files: seq<string>, user: string)
    requires Covers(data, files)
    ensures AnnotatedCount(data, files, user) == |Select(data, files, user, Annotated)|
  {
    if files != [] {
      AnnotatedCountIsFilter(data, files[1..], user);
    }
  }
}

=== FILE: detection.dfy ===
/** The polygon-to-box reduction of the PaddleOCR detection service
    (`backend/services/paddle_detection_service.py`). The detector itself is an
    oracle: its `predict` output is given as a list of result entries, each with
    an optional `dt_polys` list of polygons. */
module Detection {
  import opened Wrappers

  /** A polygon vertex; the detector may report fractional coordinates. */
  datatype Point = Point(x: real, y: real)

  type Polygon = seq<Point>

  /** One entry of `predict`'s output; `dtPolys` is None when the key is absent. */
  datatype PredictEntry = PredictEntry(dtPolys: Option<seq<Polygon>>)

  datatype BoundingBox = BoundingBox(x1: int, y1: int, x2: int, y2: int)

  datatype Region = Region(bbox: BoundingBox, width: int, height: int)

  /** Python's `int()` of a number: truncation toward zero. */
  function Trunc(v: real): (r: int)
    ensures 0.0 <= v ==> r as real <= v < r as real + 1.0
    ensures v < 0.0 ==> r as real - 1.0 < v <= r as real
  {
    if v >= 0.0 then v.Floor else -((-v).Floor)
  }

  /** Truncation keeps the order of its arguments. */
  lemma TruncMonotone(a: real, b: real)
    requires a <= b
    ensures Trunc(a) <= Trunc(b)
  {}

  /** A whole number truncates to itself. */
  predicate Whole(v: real) {
    v == v.Floor as real
  }

  function Xs(p: Polygon): (r: seq<real>)
    ensures |r| == |p| && forall i :: 0 <= i < |p| ==> r[i] == p[i].x
  {
    seq(|p|, i requires 0 <= i < |p| => p[i].x)
  }

  function Ys(p: Polygon): (r: seq<real>)
    ensures |r| == |p| && forall i :: 0 <= i < |p| ==> r[i] == p[i].y
  {
    seq(|p|, i requires 0 <= i < |p| => p[i].y)
  }

  /** Python's `min` of a non-empty list. */
  function Min(s: seq<real>): (m: real)
    requires s != []
    ensures m in s && forall i :: 0 <= i < |s| ==> m <= s[i]
  {
    if |s| == 1 then s[0]
    else
      var rest := Min(s[1..]);
      if s[0] <= rest then s[0] else rest
  }

  /** Python's `max` of a non-empty list. */
  function Max(s: seq<real>): (m: real)
    requires s != []
    ensures m in s && forall i :: 0 <= i < |s| ==> s[i] <= m
  {
    if |s| == 1 then s[0]
    else
      var rest := Max(s[1..]);
      if s[0] >= rest then s[0] else rest
  }

  /** The box of one polygon: `int()` of the coordinate-wise minimum and
      maximum, and `int()` of their differences as width and height. `min` of
      an empty polygon raises. */
  function PolygonToRegion(p: Polygon): (r: Outcome<Region>)
    ensures r.Raised? <==> p == []
    ensures r.Returned? ==>
      && r.value.bbox.x1 <= r.value.bbox.x2 && r.value.bbox.y1 <= r.value.bbox.y2
      && r.value.width >= 0 && r.value.height >= 0
      && (forall i :: 0 <= i < |p| ==>
            r.value.bbox.x1 <= Trunc(p[i].x) <= r.value.bbox.x2 && r.value.bbox.y1 <= Trunc(p[i].y) <= r.value.bbox.y2)
      && (exists i :: 0 <= i < |p| && Trunc(p[i].x) == r.value.bbox.x1)
      && (exists i :: 0 <= i < |p| && Trunc(p[i].x) == r.value.bbox.x2)
      && (exists i :: 0 <= i < |p| && Trunc(p[i].y) == r.value.bbox.y1)
      && (exists i :: 0 <= i < |p| && Trunc(p[i].y) == r.value.bbox.y2)
  {
    if p == [] then Raised("min() arg is an empty sequence")
    else
      var xs := Xs(p);
      var ys := Ys(p);
      var xMin := Min(xs);
      var xMax := Max(xs);
      var yMin := Min(ys);
      var yMax := Max(ys);
      assert xMin <= xs[0] <= xMax && yMin <= ys[0] <= yMax;
      TruncMonotone(xMin, xMax);
      TruncMonotone(yMin, yMax);
      forall i | 0 <= i < |p|
        ensures Trunc(xMin) <= Trunc(p[i].x) <= Trunc(xMax) && Trunc(yMin) <= Trunc(p[i].y) <= Trunc(yMax)
      {
        TruncMonotone(xMin, p[i].x);
        TruncMonotone(p[i].x, xMax);
        TruncMonotone(yMin, p[i].y);
        TruncMonotone(p[i].y, yMax);
      }
      Returned(Region(BoundingBox(Trunc(xMin), Trunc(yMin), Trunc(xMax), Trunc(yMax)),
                      Trunc(xMax - xMin), Trunc(yMax - yMin)))
  }

  /** The reported width and height differ from the box's sides by at most
      one, and equal them exactly when the vertices have whole coordinates. */
  lemma SidesOfRegion(p: Polygon)
    requires p != []
    ensures var d := PolygonToRegion(p).value;
      && d.bbox.x2 - d.bbox.x1 - 1 <= d.width <= d.bbox.x2 - d.bbox.x1 + 1
      && d.bbox.y2 - d.bbox.y1 - 1 <= d.height <= d.bbox.y2 - d.bbox.y1 + 1
    ensures (forall i :: 0 <= i < |p| ==> Whole(p[i].x) && Whole(p[i].y)) ==>
      var d := PolygonToRegion(p).value;
      d.width == d.bbox.x2 - d.bbox.x1 && d.height == d.bbox.y2 - d.bbox.y1
  {
    var xMin, xMax, yMin, yMax := Min(Xs(p)), Max(Xs(p)), Min(Ys(p)), Max(Ys(p));
    assert xMin <= xMax && yMin <= yMax by {
      assert xMin <= Xs(p)[0] <= xMax && yMin <= Ys(p)[0] <= yMax;
    }
    TruncDifference(xMin, xMax);
    TruncDifference(yMin, yMax);
    if forall i :: 0 <= i < |p| ==> Whole(p[i].x) && Whole(p[i].y) {
      WholeOfList(Xs(p), xMin);
      WholeOfList(Xs(p), xMax);
      WholeOfList(Ys(p), yMin);
      WholeOfList(Ys(p), yMax);
    }
  }

  /** `int(b - a)` against `int(b) - int(a)`, for `a <= b`. */
  lemma TruncDifference(a: real, b: real)
    requires a <= b
    ensures Trunc(b) - Trunc(a) - 1 <= Trunc(b - a) <= Trunc(b) - Trunc(a) + 1
    ensures Whole(a) && Whole(b) ==> Trunc(b - a) == Trunc(b) - Trunc(a)
  {}

  lemma WholeOfList(s: seq<real>, v: real)
    requires v in s && forall i :: 0 <= i < |s| ==> Whole(s[i])
    ensures Whole(v)
  {}

  /** A box whose extremes are fractional: from x = 0.5 to x = 1.4 the box
      spans `int(1.4) - int(0.5) = 1` while the reported width is
      `int(0.9) = 0`. */
  lemma FractionalWidth()
    ensures var d := PolygonToRegion([Point(0.5, 0.0), Point(1.4, 2.0)]).value;
      d.bbox == BoundingBox(0, 0, 1, 2) && d.width == 0 && d.height == 2
  {
    var p := [Point(0.5, 0.0), Point(1.4, 2.0)];
    assert Xs(p) == [0.5, 1.4] && Ys(p) == [0.0, 2.0];
    assert Min([0.5, 1.4]) == 0.5 by { assert [0.5, 1.4][1..] == [1.4]; }
    assert Max([0.5, 1.4]) == 1.4 by { assert [0.5, 1.4][1..] == [1.4]; }
    assert Min([0.0, 2.0]) == 0.0 by { assert [0.0, 2.0][1..] == [2.0]; }
    assert Max([0.0, 2.0]) == 2.0 by { assert [0.0, 2.0][1..] == [2.0]; }
  }

  /** The polygon list `detect_text_bbox` iterates: `results[0]['dt_polys']`
      when the results are non-empty and carry the key, else none. */
  function Polygons(results: seq<PredictEntry>): (r: seq<Polygon>)
    ensures results == [] || results[0].dtPolys.None? ==> r == []
  {
    if results != [] && results[0].dtPolys.Some? then results[0].dtPolys.value else []
  }

  predicate HasEmpty(polys: seq<Polygon>) {
    exists i :: 0 <= i < |polys| && polys[i] == []
  }

  lemma HasEmptyCons(polys: seq<Polygon>)
    requires polys != []
    ensures HasEmpty(polys) <==> polys[0] == [] || HasEmpty(polys[1..])
  {
    if HasEmpty(polys[1..]) {
      var i :| 0 <= i < |polys[1..]| && polys[1..][i] == [];
      assert polys[i + 1] == [];
    }
    if HasEmpty(polys) && polys[0] != [] {
      var i :| 0 <= i < |polys| && polys[i] == [];
      assert polys[1..][i - 1] == [];
    }
  }

  /** The loop of `detect_text_bbox` over a polygon list: one region per
      polygon, in order; an empty polygon anywhere raises and nothing is
      returned. */
  function RegionsOf(polys: seq<Polygon>): (r: Outcome<seq<Region>>)
    ensures r.Raised? <==> HasEmpty(polys)
    ensures r.Returned? ==> |r.value| == |polys|
    ensures r.Returned? ==> forall i :: 0 <= i < |polys| ==> PolygonToRegion(polys[i]) == Returned(r.value[i])
  {
    if polys == [] then Returned([])
    else
      HasEmptyCons(polys);
      var head := PolygonToRegion(polys[0]);
      var tail := RegionsOf(polys[1..]);
      if head.Raised? then Raised(head.message)
      else if tail.Raised? then Raised(tail.message)
      else
        var rs := [head.value] + tail.value;
        assert forall i :: 0 <= i < |polys| ==> PolygonToRegion(polys[i]) == Returned(rs[i]) by {
          forall i | 0 <= i < |polys| ensures PolygonToRegion(polys[i]) == Returned(rs[i]) {
            if i > 0 {
              assert polys[i] == polys[1..][i - 1] && rs[i] == tail.value[i - 1];
            }
          }
        }
        Returned(rs)
  }

  /** `detect_text_bbox` after the detector has run (image decoding and
      metadata are not modelled). */
  function DetectTextBbox(results: seq<PredictEntry>): (r: Outcome<seq<Region>>)
    ensures results == [] || results[0].dtPolys.None? || results[0].dtPolys == Some([]) ==> r == Returned([])
    ensures r.Returned? ==> |r.value| == |Polygons(results)|
  {
    RegionsOf(Polygons(results))
  }

  datatype TextDetectionResponse = TextDetectionResponse(success: bool, detections: seq<Region>, totalDetections: nat)

  /** `detect_bbox_logic`: the response counts what it lists. */
  function DetectBboxLogic(results: seq<PredictEntry>): (r: Outcome<TextDetectionResponse>)
    ensures r.Returned? ==> r.value.success && r.value.totalDetections == |r.value.detections|
    ensures r.Returned? <==> DetectTextBbox(results).Returned?
    ensures r.Returned? ==> r.value.detections == DetectTextBbox(results).value
  {
    match DetectTextBbox(results)
    case Raised(msg) => Raised(msg)
    case Returned(ds) => Returned(TextDetectionResponse(true, ds, |ds|))
  }
}

=== FILE: formparsing.dfy ===
/** The form-parsing endpoints (`backend/api/v1/endpoints/form_parsing.py`):
    prompt normalisation, job submission, and the status lookup with its
    error-message fallbacks. The parser's result type is `R`. */
module FormParsing {
  import opened Wrappers
  import opened Text
  import JobStore
  import JobQueue
  import ImageValidation
  import FormsQueue
  import Gpu
  import TextExtraction

  /** `settings.DEFAULT_LLM_PROMPT`, used verbatim (it is not normalised). */
  const DefaultLlmPrompt: string :=
    "FORM IMAGE TO JSON - Extract ALL information from this form image and return ONLY a valid JSON object.\n" +
    "            - Do NOT return any commentary, description, example, or explanation\U{2014}ONLY the JSON object.\n" +
    "            - The output MUST be a single, complete JSON object, only the assistance response no user prompt.\n" +
    "            - Include every field or element you can identify, preserving structure, grouping, and relationships.\n" +
    "            - Represent checkboxes/radios/dropdowns/tables/signatures/printed/handwritten/special elements/sections/empty/incomplete fields/validation/fine print as appropriate JSON keys/values.\n" +
    "            - Mark unclear or questionable values as \"[UNCLEAR]\".\n" +
    "            - If a field is empty, use null.\n" +
    "            - For lists, use JSON arrays.\n" +
    "            - For tables, use JSON arrays of objects (each object is a row).\n" +
    "            - For booleans (checkboxes, radios), use true/false.\n" +
    "            - For dates, use ISO format if possible.\n" +
    "            - For confidence, use a separate key per section: \"confidence\": 0.0 to 1.0."

  /** The stripped lines of `lines` that are not blank, in order. */
  function StrippedNonBlank(lines: seq<string>): (r: seq<string>)
    ensures |r| <= |lines|
    ensures forall k :: 0 <= k < |r| ==> r[k] != [] && !IsSpace(r[k][0]) && !IsSpace(r[k][|r[k]| - 1])
  {
    if lines == [] then []
    else
      var s := Strip(lines[0]);
      if s == [] then StrippedNonBlank(lines[1..]) else [s] + StrippedNonBlank(lines[1..])
  }

  lemma {:induction false} StrippedNonBlankNoBreak(lines: seq<string>)
    requires forall k :: 0 <= k < |lines| ==> NoLineBreak(lines[k])
    ensures forall k :: 0 <= k < |StrippedNonBlank(lines)| ==> NoLineBreak(StrippedNonBlank(lines)[k])
  {
    if lines != [] {
      StripNoLineBreak(lines[0]);
      StrippedNonBlankNoBreak(lines[1..]);
    }
  }

  lemma {:induction false} StrippedNonBlankAllSpace(lines: seq<string>)
    ensures (forall k :: 0 <= k < |lines| ==> AllSpace(lines[k])) ==> StrippedNonBlank(lines) == []
  {
    if lines != [] {
      StrippedNonBlankAllSpace(lines[1..]);
    }
  }

  /** `" ".join(line.strip() for line in llm_prompt.splitlines() if line.strip())`. */
  function JoinLines(prompt: string): (r: string)
    ensures NoLineBreak(r)
    ensures r == [] || (!IsSpace(r[0]) && !IsSpace(r[|r| - 1]))
    ensures AllSpace(prompt) ==> r == []
  {
    JoinedShape(prompt);
    Join(StrippedNonBlank(SplitLines(prompt)), " ")
  }

  lemma JoinedShape(prompt: string)
    ensures var r := Join(StrippedNonBlank(SplitLines(prompt)), " ");
      && NoLineBreak(r)
      && (r == [] || (!IsSpace(r[0]) && !IsSpace(r[|r| - 1])))
      && (AllSpace(prompt) ==> r == [])
  {
    var lines := SplitLines(prompt);
    var parts := StrippedNonBlank(lines);
    JoinedNoBreak(lines);
    if parts != [] {
      JoinEnds(parts, " ");
    }
    if AllSpace(prompt) {
      StrippedNonBlankAllSpace(lines);
    }
  }

  lemma JoinedNoBreak(lines: seq<string>)
    requires forall k :: 0 <= k < |lines| ==> NoLineBreak(lines[k])
    ensures NoLineBreak(Join(StrippedNonBlank(lines), " "))
  {
    StrippedNonBlankNoBreak(lines);
    assert NoLineBreak(" ");
    JoinNoLineBreak(StrippedNonBlank(lines), " ");
  }

  /** Normalising twice changes nothing. */
  lemma JoinLinesIdempotent(prompt: string)
    ensures JoinLines(JoinLines(prompt)) == JoinLines(prompt)
  {
    var r := JoinLines(prompt);
    if r != [] {
      assert SplitLines(r) == [r];
      StripNoop(r);
      assert StrippedNonBlank([r]) == [r];
    }
  }

  /** The prompt a form job runs with: the default for an empty prompt,
      otherwise the normalised lines. */
  function NormalizePrompt(prompt: string): (r: string)
    ensures prompt == [] ==> r == DefaultLlmPrompt
    ensures prompt != [] ==> NoLineBreak(r) && (r == [] || (!IsSpace(r[0]) && !IsSpace(r[|r| - 1])))
  {
    if prompt == [] then DefaultLlmPrompt else JoinLines(prompt)
  }

  /** A whitespace-only prompt is not empty, so it skips the default and ends up
      as "". */
  lemma BlankPromptBecomesEmpty()
    ensures NormalizePrompt(" \n\t") == ""
  {
    assert AllSpace(" \n\t");
  }

  datatype SubmitResponse = Submitted(jobId: string, message: string) | BadRequest(error: ImageValidation.UploadError)

  /** `submit_form_parse_job`: validate, write "pending", normalise the prompt,
      then submit on the normal lane (the priority flag is never passed). */
  function SubmitFormParseJob<R>(w: FormsQueue.World<R>, u: TextExtraction.Upload, prompt: string, freshId: string)
    : (r: (SubmitResponse, FormsQueue.World<R>))
    ensures ImageValidation.ValidateImageFile(u.contentType, u.filename).Some? ==>
      r.0 == BadRequest(ImageValidation.ValidateImageFile(u.contentType, u.filename).value) && r.1 == w
    ensures ImageValidation.ValidateImageFile(u.contentType, u.filename).None? ==>
      && r.0 == Submitted(freshId, "Form parse job submitted. Poll for status using job_id.")
      && r.1.store == w.store[freshId := JobStore.Record("pending", None, None, 0)]
      && r.1.queue.lanes.priority == w.queue.lanes.priority
      && r.1.queue.lanes.normal == w.queue.lanes.normal + [FormsQueue.FormJob(u.filename, u.byteCount, NormalizePrompt(prompt), freshId)]
      && r.1.queue.tasks == JobQueue.StartWorker(w.queue.tasks, w.queue.maxWorkers)
      && r.1.gpu == w.gpu
  {
    match ImageValidation.ValidateImageFile(u.contentType, u.filename)
    case Some(e) => (BadRequest(e), w)
    case None =>
      var store := JobStore.SetJobStatus(w.store, freshId, "pending");
      var job := FormsQueue.FormJob(u.filename, u.byteCount, NormalizePrompt(prompt), freshId);
      (Submitted(freshId, "Form parse job submitted. Poll for status using job_id."),
       FormsQueue.World(JobQueue.SubmitJob(w.queue, job, false), store, w.gpu))
  }

  /** The `error` entry of a decoded record: absent, JSON null, a string, or an
      object (carried as its `str()` rendering). */
  datatype ErrorField = Missing | Null | Text(text: string) | Dict(repr: string)

  /** A job record as `json.loads` returns it. */
  datatype RawJob<R> = RawJob(status: string, result: Option<R>, error: ErrorField, progress: int)

  /** What `get_job_status` decodes from a record `set_job_status` wrote. */
  function Decoded<R>(rec: JobStore.Record<R>): (r: RawJob<R>)
    ensures r.status == rec.status && r.result == rec.result && r.progress == rec.progress
    ensures rec.error.None? ==> r.error == Null
    ensures rec.error.Some? ==> r.error == Text(rec.error.value)
  {
    RawJob(rec.status, rec.result, match rec.error case None => Null case Some(e) => Text(e), rec.progress)
  }

  /** The error branch's message. */
  function ErrorMessage(e: ErrorField): (m: string)
    ensures e == Missing ==> m == "Unknown error occurred"
    ensures e == Null ==> m == "Job failed with unknown error"
    ensures e.Text? ==> m == e.text
    ensures e.Dict? ==> m == e.repr
  {
    match e
    case Missing => "Unknown error occurred"
    case Null => "Job failed with unknown error"
    case Text(s) => s
    case Dict(s) => s
  }

  datatype StatusResponse<R> =
    | NotFound
    | Status(success: bool, status: string, message: string, result: Option<R>)
    | ServerError

  /** `get_form_parse_job_status_api` on a decoded record. */
  function FormStatusOf<R>(job: Option<RawJob<R>>): (r: StatusResponse<R>)
    ensures job.None? <==> r == NotFound
    ensures r == ServerError <==> job.Some? && job.value.status == "completed" && job.value.result.None?
    ensures r.Status? ==> (r.success <==> job.value.status in {"pending", "processing", "completed"})
    ensures r.Status? && !r.success ==> r.status == "error" && r.message == ErrorMessage(job.value.error) && r.result.None?
    ensures r.Status? && r.success ==> r.status == job.value.status
    ensures r.Status? && r.status == "completed" ==> r.result == job.value.result
  {
    match job
    case None => NotFound
    case Some(j) =>
      if j.status == "pending" then Status(true, "pending", "Job is still processing", None)
      else if j.status == "processing" then Status(true, "processing", "Job is still processing", None)
      else if j.status == "completed" then
        if j.result.Some? then Status(true, "completed", "Job completed successfully", j.result) else ServerError
      else Status(false, "error", ErrorMessage(j.error), None)
  }

  function GetFormJobStatus<R>(store: JobStore.Store<R>, jobId: string): (r: StatusResponse<R>)
    ensures jobId !in store <==> r == NotFound
  {
    FormStatusOf(match JobStore.GetJobStatus(store, jobId) case None => None case Some(rec) => Some(Decoded(rec)))
  }

  /** For records written by the forms worker the "missing key" and "object"
      branches are dead: a failed job reports its stored message, or the
      null-error fallback. */
  lemma StoredErrorMessages<R>(store: JobStore.Store<R>, jobId: string)
    requires jobId in store && store[jobId].status !in {"pending", "processing", "completed"}
    ensures store[jobId].error.Some? ==>
      GetFormJobStatus(store, jobId) == Status(false, "error", store[jobId].error.value, None)
    ensures store[jobId].error.None? ==>
      GetFormJobStatus(store, jobId) == Status(false, "error", "Job failed with unknown error", None)
  {}

  /** A failed forms job reads back with its exception text as the message. */
  lemma StatusAfterFailure<R>(w: FormsQueue.World<R>, job: FormsQueue.FormJob, workerId: int,
                              probes: seq<Gpu.Probe>, env: FormsQueue.Env<R>)
    requires Gpu.ClockPasses(probes, FormsQueue.GpuTimeout)
    requires !env.parserAvailable && env.clearBefore.None?
    requires FormsQueue.ProcessFormJob(w, job, workerId, probes, env).gpuAcquired
    ensures GetFormJobStatus(FormsQueue.ProcessFormJob(w, job, workerId, probes, env).world.store, job.jobId)
         == Status(false, "error", FormsQueue.ParserMissingMessage, None)
  {}
}

=== FILE: formsqueue.dfy ===
/** The form-parsing job lifecycle of `InProcessFormsQueue`
    (`backend/core/forms_queue.py`). Unlike the OCR queue, each worker leases the
    GPU under its own id, the GPU memory is cleared before and after the job,
    and the Qwen parser may be missing. The parser's result type is `R`; the
    parser call, `clear_gpu_memory` and parser availability are oracles. */
module FormsQueue {
  import opened Wrappers
  import opened Text
  import Gpu
  import JobStore
  import JobQueue

  /** The `job_data` dict; the file name is None when the upload has none. */
  datatype FormJob = FormJob(filename: Option<string>, byteCount: nat, llmPrompt: string, jobId: string)

  datatype World<R> = World(queue: JobQueue.Queue<FormJob>, store: JobStore.Store<R>, gpu: Gpu.Manager)

  datatype Step<R> = Step(world: World<R>, writes: seq<JobStore.Record<R>>, gpuAcquired: bool)

  /** How the environment behaves during one job: whether the first
      `clear_gpu_memory` raises, whether `qwen_parser` is present, what the
      parser returns or raises, and whether the clear in `finally` raises. */
  datatype Env<R> = Env(clearBefore: Option<string>, parserAvailable: bool, parse: Outcome<R>, clearAfterRaises: bool)

  const GpuService: string := "forms_queue"

  const GpuTimeout: real := 300.0

  const ParserMissingMessage: string := "Qwen vision service not available - GPU required"

  function GpuTimeoutMessage(workerId: int): (m: string)
    ensures StartsWith(m, "Could not acquire GPU access within timeout period for worker ")
  {
    "Could not acquire GPU access within timeout period for worker " + IntToString(workerId)
  }

  /** The timeout message names the worker: two workers never get the same
      message. */
  lemma GpuTimeoutMessageNamesWorker(a: int, b: int)
    requires GpuTimeoutMessage(a) == GpuTimeoutMessage(b)
    ensures a == b
  {
    var p := "Could not acquire GPU access within timeout period for worker ";
    assert GpuTimeoutMessage(a)[|p|..] == IntToString(a);
    assert GpuTimeoutMessage(b)[|p|..] == IntToString(b);
    IntToStringInjective(a, b);
  }

  function ErrorWrite<R>(message: string): (r: JobStore.Record<R>)
    ensures r.status == "error" && r.error == Some(message) && r.result.None? && r.progress == 0
  {
    JobStore.Record("error", None, Some(message), 0)
  }

  /** The writes made while holding the GPU. */
  function HeldWrites<R>(env: Env<R>): (r: seq<JobStore.Record<R>>)
    ensures env.clearBefore.Some? ==> r == [ErrorWrite(env.clearBefore.value)]
    ensures env.clearBefore.None? ==> |r| == 2 && r[0] == JobStore.Record("processing", None, None, 1)
    ensures env.clearBefore.None? && !env.parserAvailable ==> r[1] == ErrorWrite(ParserMissingMessage)
    ensures env.clearBefore.None? && env.parserAvailable && env.parse.Returned? ==>
      r[1] == JobStore.Record("completed", Some(env.parse.value), None, 100)
    ensures env.clearBefore.None? && env.parserAvailable && env.parse.Raised? ==>
      r[1] == ErrorWrite(env.parse.message)
  {
    if env.clearBefore.Some? then [ErrorWrite(env.clearBefore.value)]
    else
      var last :=
        if !env.parserAvailable then ErrorWrite(ParserMissingMessage)
        else match env.parse
          case Returned(v) => JobStore.Record("completed", Some(v), None, 100)
          case Raised(m) => ErrorWrite(m);
      [JobStore.Record("processing", None, None, 1), last]
  }

  /** `_process_job` for `job` on worker `workerId`. The GPU is acquired and
      released under the same per-worker id. */
  function ProcessFormJob<R>(w: World<R>, job: FormJob, workerId: int, probes: seq<Gpu.Probe>, env: Env<R>): (r: Step<R>)
    requires Gpu.ClockPasses(probes, GpuTimeout)
    ensures r.gpuAcquired == Gpu.WaitForGpu(w.gpu, GpuService, Some(workerId), probes, GpuTimeout).acquired
    ensures !r.gpuAcquired ==> r.writes == [ErrorWrite(GpuTimeoutMessage(workerId))]
    ensures r.gpuAcquired ==> r.writes == HeldWrites(env)
    ensures r.world.store == JobStore.ApplyWrites(w.store, job.jobId, r.writes)
    ensures r.world.queue == w.queue.(active := w.queue.active - {job.jobId})
    ensures r.world.gpu.users == Gpu.WaitForGpu(w.gpu, GpuService, Some(workerId), probes, GpuTimeout).seen.users
      - (if r.gpuAcquired then {Gpu.UserId(GpuService, Some(workerId))} else {})
    ensures r.world.gpu.maxConcurrent == w.gpu.maxConcurrent
  {
    var id := Gpu.UserId(GpuService, Some(workerId));
    var active := w.queue.active + {job.jobId};
    var wait := Gpu.WaitForGpu(w.gpu, GpuService, Some(workerId), probes, GpuTimeout);
    var writes := if wait.acquired then HeldWrites(env) else [ErrorWrite(GpuTimeoutMessage(workerId))];
    // The clear in `finally` is wrapped in its own try: `env.clearAfterRaises`
    // only produces a log line.
    var gpu := if wait.acquired then Gpu.ReleaseGpu(wait.manager, GpuService, Some(workerId)) else wait.manager;
    assert active - {job.jobId} == w.queue.active - {job.jobId};
    assert wait.acquired ==> gpu.users == (wait.seen.users + {id}) - {id} == wait.seen.users - {id};
    Step(World(w.queue.(active := active - {job.jobId}), JobStore.ApplyWrites(w.store, job.jobId, writes), gpu),
         writes, wait.acquired)
  }

  /** With no parser the job is written "processing" and then "error"; it never
      reaches "completed". */
  lemma ParserMissingNeverCompletes<R>(w: World<R>, job: FormJob, workerId: int, probes: seq<Gpu.Probe>, env: Env<R>)
    requires Gpu.ClockPasses(probes, GpuTimeout)
    requires !env.parserAvailable
    ensures var r := ProcessFormJob(w, job, workerId, probes, env);
      && (forall k :: 0 <= k < |r.writes| ==> r.writes[k].status != "completed")
      && r.writes[|r.writes| - 1].status == "error"
      && (r.gpuAcquired && env.clearBefore.None? ==>
            r.writes == [JobStore.Record("processing", None, None, 1), ErrorWrite(ParserMissingMessage)])
  {
    var r := ProcessFormJob(w, job, workerId, probes, env);
    var held := HeldWrites(env);
    if r.gpuAcquired && env.clearBefore.None? {
      assert r.writes == held == [held[0], held[1]];
    }
  }

  /** A failing clear in `finally` is swallowed: the outcome is the same as with
      a clear that succeeds, so the active-set removal and the GPU release still
      happen. */
  lemma CleanupFailureSwallowed<R>(w: World<R>, job: FormJob, workerId: int, probes: seq<Gpu.Probe>, env: Env<R>)
    requires Gpu.ClockPasses(probes, GpuTimeout)
    ensures ProcessFormJob(w, job, workerId, probes, env.(clearAfterRaises := true))
         == ProcessFormJob(w, job, workerId, probes, env.(clearAfterRaises := false))
  {}

  /** A clear that raises before the job starts sends it to "error" without a
      "processing" write. */
  lemma ClearBeforeFailure<R>(w: World<R>, job: FormJob, workerId: int, probes: seq<Gpu.Probe>, env: Env<R>)
    requires Gpu.ClockPasses(probes, GpuTimeout)
    requires env.clearBefore.Some?
    ensures forall k :: 0 <= k < |ProcessFormJob(w, job, workerId, probes, env).writes| ==>
      ProcessFormJob(w, job, workerId, probes, env).writes[k].status == "error"
  {}

  /** Success stores "completed" with progress 100 and the parser's result. */
  lemma SuccessRecord<R>(w: World<R>, job: FormJob, workerId: int, probes: seq<Gpu.Probe>, env: Env<R>)
    requires Gpu.ClockPasses(probes, GpuTimeout)
    requires env.clearBefore.None? && env.parserAvailable && env.parse.Returned?
    requires ProcessFormJob(w, job, workerId, probes, env).gpuAcquired
    ensures JobStore.GetJobStatus(ProcessFormJob(w, job, workerId, probes, env).world.store, job.jobId)
         == Some(JobStore.Record("completed", Some(env.parse.value), None, 100))
  {}

  /** A worker whose user id is registered neither before the job nor by
      anyone else during its wait leaves the GPU state as its last wait attempt
      found it: the release after the job undoes the acquisition, whatever the
      job's outcome. */
  lemma GpuRestoredPerWorker<R>(w: World<R>, job: FormJob, workerId: int, probes: seq<Gpu.Probe>, env: Env<R>)
    requires Gpu.ClockPasses(probes, GpuTimeout)
    requires Gpu.UserId(GpuService, Some(workerId)) !in w.gpu.users
    requires forall k :: 0 <= k < |probes| ==> Gpu.UserId(GpuService, Some(workerId)) !in probes[k].afterSleep
    ensures ProcessFormJob(w, job, workerId, probes, env).world.gpu
         == Gpu.WaitForGpu(w.gpu, GpuService, Some(workerId), probes, GpuTimeout).seen
  {
    var id := Gpu.UserId(GpuService, Some(workerId));
    var r := ProcessFormJob(w, job, workerId, probes, env);
    var wait := Gpu.WaitForGpu(w.gpu, GpuService, Some(workerId), probes, GpuTimeout);
    Gpu.SeenAvoids(w.gpu, probes, wait.attempts - 1, id);
    assert r.world.gpu.users == wait.seen.users;
  }

  /** One pass of `_worker_loop`: priority lane first. */
  function WorkerStep<R>(w: World<R>, workerId: int, probes: seq<Gpu.Probe>, env: Env<R>): (r: Option<(FormJob, Step<R>)>)
    requires Gpu.ClockPasses(probes, GpuTimeout)
    ensures r.None? <==> w.queue.lanes.priority == [] && w.queue.lanes.normal == []
    ensures w.queue.lanes.priority != [] ==> r.value.0 == w.queue.lanes.priority[0]
    ensures w.queue.lanes.priority == [] && w.queue.lanes.normal != [] ==> r.value.0 == w.queue.lanes.normal[0]
  {
    match JobQueue.Dispatch(w.queue.lanes)
    case None => None
    case Some(t) => Some((t.job, ProcessFormJob(w.(queue := w.queue.(lanes := t.rest)), t.job, workerId, probes, env)))
  }

  datatype FormsHealth = FormsHealth(healthy: bool, activeWorkers: nat, maxWorkers: int, workersRunning: bool,
                                     parserAvailable: bool, queueSize: nat, priorityQueueSize: nat, gpuManager: Gpu.Stats)

  /** `InProcessFormsQueue.health_check`: healthy iff a worker is alive and the
      parser is available. */
  function FormsHealthCheck(q: JobQueue.Queue<FormJob>, parserAvailable: bool, gpu: Gpu.Manager): (r: FormsHealth)
    ensures r.healthy <==> (exists i :: 0 <= i < |q.tasks| && !q.tasks[i]) && parserAvailable
    ensures r.workersRunning <==> JobQueue.Alive(q.tasks) > 0
    ensures r.parserAvailable == parserAvailable && r.gpuManager == Gpu.GetStats(gpu)
  {
    var n := JobQueue.Alive(q.tasks);
    FormsHealth(n > 0 && parserAvailable, n, q.maxWorkers, n > 0, parserAvailable,
                |q.lanes.normal|, |q.lanes.priority|, Gpu.GetStats(gpu))
  }

  /** Without the parser the forms queue never reports healthy, even with
      workers running. */
  lemma UnhealthyWithoutParser(q: JobQueue.Queue<FormJob>, gpu: Gpu.Manager, job: FormJob, priority: bool)
    requires q.maxWorkers > 0
    ensures FormsHealthCheck(JobQueue.SubmitJob(q, job, priority), true, gpu).healthy
    ensures !FormsHealthCheck(JobQueue.SubmitJob(q, job, priority), false, gpu).healthy
  {}
}

=== FILE: gpu.dfy ===
/** The shared GPU resource manager (`GPUResourceManager`): a capacity-bounded
    set of user ids. The memory reading is a boolean oracle ("allocated memory is
    over the 12 GB threshold"); with CUDA unavailable the oracle is false. */
module Gpu {
  import opened Wrappers
  import opened Text

  datatype Manager = Manager(users: set<string>, maxConcurrent: int)

  /** The deployed instance: `GPUResourceManager(max_concurrent_users=1)`. */
  const Initial: Manager := Manager({}, 1)

  /** The capacity bound the manager maintains. */
  predicate Valid(m: Manager) {
    |m.users| <= m.maxConcurrent
  }

  /** `"<service>_worker_<wid>"` when a worker id is given, else the bare service
      name. Acquire, release and the timeout log all build the id this way. */
  function UserId(service: string, workerId: Option<int>): (id: string)
    ensures workerId.None? ==> id == service
    ensures workerId.Some? ==> StartsWith(id, service + "_worker_")
  {
    match workerId
    case None => service
    case Some(w) => service + "_worker_" + IntToString(w)
  }

  /** Two workers of one service never share a GPU user id. */
  lemma UserIdPerWorker(service: string, w1: int, w2: int)
    requires w1 != w2
    ensures UserId(service, Some(w1)) != UserId(service, Some(w2))
  {
    var p := service + "_worker_";
    if UserId(service, Some(w1)) == UserId(service, Some(w2)) {
      assert UserId(service, Some(w1))[|p|..] == IntToString(w1);
      assert UserId(service, Some(w2))[|p|..] == IntToString(w2);
      IntToStringInjective(w1, w2);
    }
  }

  datatype Grant = Grant(granted: bool, manager: Manager)

  /** `acquire_gpu`: refused at capacity, refused when memory is over the
      threshold, otherwise the user id joins the set. */
  function AcquireGpu(m: Manager, service: string, workerId: Option<int>, memoryHigh: bool): (r: Grant)
    ensures r.granted <==> |m.users| < m.maxConcurrent && !memoryHigh
    ensures !r.granted ==> r.manager == m
    ensures r.granted ==> r.manager == m.(users := m.users + {UserId(service, workerId)})
  {
    if |m.users| >= m.maxConcurrent then Grant(false, m)
    else if memoryHigh then Grant(false, m)
    else Grant(true, m.(users := m.users + {UserId(service, workerId)}))
  }

  /** Acquiring never breaks the capacity bound. */
  lemma AcquirePreservesValid(m: Manager, service: string, workerId: Option<int>, memoryHigh: bool)
    requires Valid(m)
    ensures Valid(AcquireGpu(m, service, workerId, memoryHigh).manager)
  {
    var u := UserId(service, workerId);
    assert |m.users + {u}| <= |m.users| + 1;
  }

  /** `release_gpu`: the id leaves the set if present; otherwise nothing changes. */
  function ReleaseGpu(m: Manager, service: string, workerId: Option<int>): (r: Manager)
    ensures UserId(service, workerId) !in r.users
    ensures r.users == m.users - {UserId(service, workerId)}
    ensures UserId(service, workerId) !in m.users ==> r == m
    ensures r.maxConcurrent == m.maxConcurrent
    ensures Valid(m) ==> Valid(r)
  {
    var u := UserId(service, workerId);
    if u in m.users then m.(users := m.users - {u}) else m
  }

  /** Releasing under the id just acquired gives back the set held before,
      provided the id was not already held. */
  lemma AcquireReleaseRoundTrip(m: Manager, service: string, workerId: Option<int>, memoryHigh: bool)
    requires UserId(service, workerId) !in m.users
    ensures ReleaseGpu(AcquireGpu(m, service, workerId, memoryHigh).manager, service, workerId) == m
  {}

  datatype Stats = Stats(users: set<string>, activeUsers: nat, maxUsers: int, gpuAvailable: bool)

  /** `get_stats` (CUDA availability and the memory reading are left out). */
  function GetStats(m: Manager): (r: Stats)
    ensures r.users == m.users && r.activeUsers == |m.users| && r.maxUsers == m.maxConcurrent
    ensures r.gpuAvailable <==> r.activeUsers < r.maxUsers
  {
    Stats(m.users, |m.users|, m.maxConcurrent, |m.users| < m.maxConcurrent)
  }

  /** `gpu_available` predicts exactly whether an acquire with memory below the
      threshold would be granted. */
  lemma StatsPredictAcquire(m: Manager, service: string, workerId: Option<int>)
    ensures GetStats(m).gpuAvailable <==> AcquireGpu(m, service, workerId, false).granted
  {}

  /** One attempt of `wait_for_gpu`'s loop as the environment presents it: the
      memory oracle for the acquire, the elapsed time read after it fails, and
      the user set the next attempt finds once `asyncio.sleep(2)` has let the
      other workers acquire and release. */
  datatype Probe = Probe(memoryHigh: bool, elapsed: real, afterSleep: set<string>)

  /** How a wait ended: whether it acquired, the manager its last attempt found,
      the manager it leaves, and how many attempts it made. */
  datatype Wait = Wait(acquired: bool, seen: Manager, manager: Manager, attempts: nat)

  /** The environment eventually lets the clock pass the timeout. */
  predicate ClockPasses(probes: seq<Probe>, timeout: real) {
    exists k :: 0 <= k < |probes| && probes[k].elapsed > timeout
  }

  /** The manager as attempt `k` finds it: the first attempt comes before any
      sleep, every later one after the sleep that followed the previous probe. */
  function Seen(m: Manager, probes: seq<Probe>, k: nat): (r: Manager)
    requires k < |probes|
    ensures r.maxConcurrent == m.maxConcurrent
    ensures k == 0 ==> r == m
    ensures k > 0 ==> r.users == probes[k - 1].afterSleep
  {
    if k == 0 then m else m.(users := probes[k - 1].afterSleep)
  }

  /** No other worker changes the user set while this one waits. */
  predicate Quiet(m: Manager, probes: seq<Probe>) {
    forall k :: 0 <= k < |probes| ==> probes[k].afterSleep == m.users
  }

  /** `wait_for_gpu`: retry `acquire_gpu` on the manager as each attempt finds
      it, until one succeeds (True) or, after a failure, the elapsed time
      exceeds `timeout` (False). */
  function WaitForGpu(m: Manager, service: string, workerId: Option<int>, probes: seq<Probe>, timeout: real): (r: Wait)
    requires ClockPasses(probes, timeout)
    ensures 1 <= r.attempts <= |probes|
    ensures r.seen == Seen(m, probes, r.attempts - 1)
    ensures forall j :: 0 <= j < r.attempts - 1 ==>
      !AcquireGpu(Seen(m, probes, j), service, workerId, probes[j].memoryHigh).granted && probes[j].elapsed <= timeout
    ensures r.acquired ==> AcquireGpu(r.seen, service, workerId, probes[r.attempts - 1].memoryHigh) == Grant(true, r.manager)
    ensures !r.acquired ==>
      && r.manager == r.seen
      && probes[r.attempts - 1].elapsed > timeout
      && !AcquireGpu(r.seen, service, workerId, probes[r.attempts - 1].memoryHigh).granted
  {
    WaitFrom(m, service, workerId, probes, timeout, 0)
  }

  function WaitFrom(m: Manager, service: string, workerId: Option<int>, probes: seq<Probe>, timeout: real, k: nat): (r: Wait)
    requires k < |probes|
    requires exists j :: k <= j < |probes| && probes[j].elapsed > timeout
    ensures k + 1 <= r.attempts <= |probes|
    ensures r.seen == Seen(m, probes, r.attempts - 1)
    ensures forall j :: k <= j < r.attempts - 1 ==>
      !AcquireGpu(Seen(m, probes, j), service, workerId, probes[j].memoryHigh).granted && probes[j].elapsed <= timeout
    ensures r.acquired ==> AcquireGpu(r.seen, service, workerId, probes[r.attempts - 1].memoryHigh) == Grant(true, r.manager)
    ensures !r.acquired ==>
      && r.manager == r.seen
      && probes[r.attempts - 1].elapsed > timeout
      && !AcquireGpu(r.seen, service, workerId, probes[r.attempts - 1].memoryHigh).granted
    decreases |probes| - k
  {
    var seen := Seen(m, probes, k);
    var g := AcquireGpu(seen, service, workerId, probes[k].memoryHigh);
    if g.granted then Wait(true, seen, g.manager, k + 1)
    else if probes[k].elapsed > timeout then Wait(false, seen, seen, k + 1)
    else WaitFrom(m, service, workerId, probes, timeout, k + 1)
  }

  /** A release by another worker during the sleep is seen: a first attempt
      refused before the timeout, followed by a sleep that leaves a free slot
      and a low memory reading, acquires on the second attempt. */
  lemma WaitSeesRelease(m: Manager, service: string, workerId: Option<int>, probes: seq<Probe>, timeout: real)
    requires ClockPasses(probes, timeout) && 2 <= |probes|
    requires !AcquireGpu(m, service, workerId, probes[0].memoryHigh).granted && probes[0].elapsed <= timeout
    requires |probes[0].afterSleep| < m.maxConcurrent && !probes[1].memoryHigh
    ensures var r := WaitForGpu(m, service, workerId, probes, timeout);
      r.acquired && r.attempts == 2 && r.manager.users == probes[0].afterSleep + {UserId(service, workerId)}
  {
    var r := WaitForGpu(m, service, workerId, probes, timeout);
    var s1 := Seen(m, probes, 1);
    assert AcquireGpu(s1, service, workerId, probes[1].memoryHigh).granted;
  }

  /** An id that is neither held at the start nor left behind by any sleep is
      absent from what every attempt finds. */
  lemma SeenAvoids(m: Manager, probes: seq<Probe>, k: nat, id: string)
    requires k < |probes| && id !in m.users
    requires forall j :: 0 <= j < |probes| ==> id !in probes[j].afterSleep
    ensures id !in Seen(m, probes, k).users
  {
    if k > 0 {
      assert id !in probes[k - 1].afterSleep;
    }
  }

  /** While no other worker touches the manager, every attempt finds it as the
      wait began. */
  lemma QuietSeesStart(m: Manager, service: string, workerId: Option<int>, probes: seq<Probe>, timeout: real)
    requires ClockPasses(probes, timeout) && Quiet(m, probes)
    ensures WaitForGpu(m, service, workerId, probes, timeout).seen == m
  {
    var r := WaitForGpu(m, service, workerId, probes, timeout);
    if r.attempts > 1 {
      assert r.seen.users == probes[r.attempts - 2].afterSleep;
    }
  }

  /** A manager at capacity that no other worker releases is never acquired by
      waiting: the wait times out. */
  lemma QuietWaitAtCapacityTimesOut(m: Manager, service: string, workerId: Option<int>, probes: seq<Probe>, timeout: real)
    requires ClockPasses(probes, timeout) && Quiet(m, probes)
    requires |m.users| >= m.maxConcurrent
    ensures !WaitForGpu(m, service, workerId, probes, timeout).acquired
  {
    QuietSeesStart(m, service, workerId, probes, timeout);
  }
}

=== FILE: homepage.dfy ===
/** The homepage content of `HomepageConfig` (`backend/utils/homepage_config.py`):
    which of the three service descriptions the landing page shows for a
    deployment mode, and the always-present system endpoints. The curl and
    Python snippets of each description are not modelled. */
module Homepage {
  import opened Wrappers
  import opened Text

  datatype Feature = Feature(name: string, icon: string, desc: string)

  datatype Endpoint = Endpoint(verb: string, path: string, description: string, color: string)

  datatype ServiceConfig = ServiceConfig(
    serviceName: string, serviceDescription: string, serviceTagline: string, serviceIcon: string,
    serviceMode: string, primaryColor: string, accentColor: string,
    features: seq<Feature>, serviceEndpoints: seq<Endpoint>)

  /** `settings.DEPLOYED_OCR`. */
  const DeployedOcr: string := "TrOCR"

  const TrOcrConfig: ServiceConfig := ServiceConfig(
    "TrOCR Text Recognition",
    "Advanced text recognition using Microsoft's TrOCR model",
    "Precise text extraction with state-of-the-art transformer models",
    "fas fa-text-height", "TrOCR", "blue", "indigo",
    [Feature("Text Extraction", "fas fa-file-text", "Extract text from images with high accuracy using transformer models"),
     Feature("Multi-language Support", "fas fa-globe", "Support for multiple languages and scripts with specialized models"),
     Feature("Batch Processing", "fas fa-layer-group", "Process multiple images efficiently with queue management")],
    [Endpoint("POST", "/api/v1/ocr", "Submit OCR job to queue", "emerald"),
     Endpoint("POST", "/api/v1/ocr/priority", "Submit high priority OCR job", "amber"),
     Endpoint("GET", "/api/v1/ocr/status/{job_id}", "Get OCR job status/result", "violet"),
     Endpoint("GET", "/api/v1/ocr/queue/status", "Get OCR queue status", "cyan")])

  const QwenConfig: ServiceConfig := ServiceConfig(
    "Qwen Vision Form Parser",
    "Intelligent form parsing using Qwen Vision model",
    "Advanced form understanding with AI-powered field extraction",
    "fas fa-file-invoice", "Qwen", "purple", "pink",
    [Feature("Form Understanding", "fas fa-wpforms", "Understand and parse complex form structures with AI intelligence"),
     Feature("Field Extraction", "fas fa-search", "Extract specific fields and values automatically with high precision"),
     Feature("Structured Output", "fas fa-sitemap", "Get structured JSON output for easy integration and processing")],
    [Endpoint("POST", "/api/v1/parse", "Submit form parsing job", "emerald"),
     Endpoint("POST", "/api/v1/parse/priority", "Submit priority parsing job", "amber"),
     Endpoint("GET", "/api/v1/parse/status/{job_id}", "Get parsing job status/result", "violet"),
     Endpoint("GET", "/api/v1/parse/queue/status", "Get forms queue status", "cyan")])

  const HybridConfig: ServiceConfig := ServiceConfig(
    "OCR & Form Parsing Suite",
    "Complete solution for text recognition and form parsing",
    "Unified platform for both text extraction and form understanding",
    "fas fa-eye", "Hybrid", "teal", "orange",
    [Feature("Text Recognition", "fas fa-file-text", "Extract text from any image or document with TrOCR precision"),
     Feature("Form Parsing", "fas fa-wpforms", "Parse and understand form structures with Qwen intelligence"),
     Feature("Flexible Processing", "fas fa-cogs", "Choose between TrOCR and Qwen models based on your needs")],
    [Endpoint("POST", "/api/v1/ocr", "Submit OCR job", "emerald"),
     Endpoint("POST", "/api/v1/parse", "Submit form parsing job", "amber"),
     Endpoint("GET", "/api/v1/{service}/status/{job_id}", "Get job status (ocr or parse)", "violet")])

  /** The `else` branch, written out separately as the source does. */
  const FallbackConfig: ServiceConfig := ServiceConfig(
    "OCR & Form Parsing Suite",
    "Complete solution for text recognition and form parsing",
    "Unified platform for both text extraction and form understanding",
    "fas fa-eye", "Hybrid", "teal", "orange",
    [Feature("Text Recognition", "fas fa-file-text", "Extract text from any image or document with TrOCR precision"),
     Feature("Form Parsing", "fas fa-wpforms", "Parse and understand form structures with Qwen intelligence"),
     Feature("Flexible Processing", "fas fa-cogs", "Choose between TrOCR and Qwen models based on your needs")],
    [Endpoint("POST", "/api/v1/ocr", "Submit OCR job", "emerald"),
     Endpoint("POST", "/api/v1/parse", "Submit form parsing job", "amber"),
     Endpoint("GET", "/api/v1/{service}/status/{job_id}", "Get job status (ocr or parse)", "violet")])

  /** The mode string the branches compare: `mode or DEPLOYED_OCR`, then
      stripped and title-cased when non-empty. */
  function ServiceMode(mode: Option<string>, deployed: string): (key: string)
    ensures mode.Some? && mode.value != [] ==> key == Title(Strip(mode.value))
    ensures (mode.None? || mode.value == []) ==> key == Title(Strip(deployed))
  {
    var m := if mode.Some? && mode.value != [] then mode.value else deployed;
    if m != [] then Title(Strip(m)) else m
  }

  /** `get_service_config(mode)` with `DEPLOYED_OCR` = `deployed`. */
  function GetServiceConfig(mode: Option<string>, deployed: string := DeployedOcr): (r: ServiceConfig)
    ensures ServiceMode(mode, deployed) == "Trocr" ==> r == TrOcrConfig
    ensures ServiceMode(mode, deployed) == "Qwen" ==> r == QwenConfig
    ensures ServiceMode(mode, deployed) !in {"Trocr", "Qwen"} ==> r == HybridConfig
    ensures r.serviceMode in {"TrOCR", "Qwen", "Hybrid"}
  {
    var key := ServiceMode(mode, deployed);
    TitleNeverMixed(Strip(if mode.Some? && mode.value != [] then mode.value else deployed));
    if key == "Trocr" || key == "TrOCR" || key == "TROCR" then TrOcrConfig
    else if key == "Qwen" || key == "QWEN" then QwenConfig
    else if key == "Hybrid" || key == "HYBRID" || key == "Both" || key == "both" then HybridConfig
    else FallbackConfig
  }

  /** `str.title` never yields the spellings "TrOCR", "TROCR", "QWEN",
      "HYBRID" or "both", so those comparisons in `get_service_config` can
      never succeed. */
  lemma TitleNeverMixed(s: string)
    ensures Title(s) !in {"TrOCR", "TROCR", "QWEN", "HYBRID", "both"}
  {
    var r := Title(s);
    if |s| >= 2 {
      assert !IsLower(r[0]) && IsLetter(r[0]) == IsLetter(s[0]);
      assert IsLetter(s[0]) ==> !IsUpper(r[1]);
    }
    if |s| >= 3 {
      assert IsLetter(r[1]) == IsLetter(s[1]);
      assert IsLetter(s[1]) ==> !IsUpper(r[2]);
    }
  }

  /** The `else` branch returns exactly the hybrid description: every mode
      that is not TrOCR or Qwen gets the combined suite. */
  lemma FallbackIsHybrid()
    ensures FallbackConfig == HybridConfig
  {}

  /** A title-cased string reads "Trocr" exactly when the input is a spelling
      of "trocr", and "Qwen" exactly when it is a spelling of "qwen". */
  lemma TitleKey(t: string)
    ensures Title(t) == "Trocr" <==> Lower(t) == "trocr"
    ensures Title(t) == "Qwen" <==> Lower(t) == "qwen"
  {
    TitleIgnoresCase(t, false);
    LowerTitle(t, false);
    LowerTrocr();
    LowerQwen();
    if Lower(t) == "trocr" {
      TitleTrocr();
    } else if Lower(t) == "qwen" {
      TitleQwen();
    }
  }

  lemma LowerTrocr()
    ensures Lower("Trocr") == "trocr"
  {
    assert Lower("Trocr")[0] == LowerChar('T') == 't';
  }

  lemma LowerQwen()
    ensures Lower("Qwen") == "qwen"
  {
    assert Lower("Qwen")[0] == LowerChar('Q') == 'q';
  }

  /** The mode is matched case-insensitively and without surrounding
      whitespace: any spelling of "trocr" selects TrOCR, any spelling of
      "qwen" selects Qwen, and every other mode (any spelling of "hybrid" or
      "both" among them) selects the combined suite. */
  lemma CaseInsensitiveSelection(mode: string)
    requires mode != []
    ensures Lower(Strip(mode)) == "trocr" <==> GetServiceConfig(Some(mode)).serviceMode == "TrOCR"
    ensures Lower(Strip(mode)) == "qwen" <==> GetServiceConfig(Some(mode)).serviceMode == "Qwen"
    ensures Lower(Strip(mode)) !in {"trocr", "qwen"} <==> GetServiceConfig(Some(mode)) == HybridConfig
  {
    TitleKey(Strip(mode));
  }

  /** With no mode, or an empty one, the deployed setting decides; the shipped
      setting "TrOCR" selects the TrOCR description. */
  lemma DefaultModeIsDeployed(mode: Option<string>)
    requires mode.None? || mode.value == []
    ensures GetServiceConfig(mode) == TrOcrConfig
  {
    DeployedKey();
  }

  /** The shipped setting reads "Trocr" once stripped and title-cased. */
  lemma DeployedKey()
    ensures Title(Strip(DeployedOcr)) == "Trocr"
  {
    StripNoop(DeployedOcr);
    TitleIgnoresCase(DeployedOcr, false);
    LowerDeployed();
    TitleTrocr();
  }

  lemma LowerDeployed()
    ensures Lower(DeployedOcr) == "trocr"
  {
    var l := Lower(DeployedOcr);
    assert LowerChar('T') == 't' && LowerChar('O') == 'o' && LowerChar('C') == 'c';
    assert l[0] == 't' && l[1] == 'r' && l[2] == 'o' && l[3] == 'c' && l[4] == 'r';
  }

  lemma TitleTrocr()
    ensures Title("trocr") == "Trocr"
  {
    assert UpperChar('t') == 'T';
    assert TitleAfter("r", true) == "r";
    assert TitleAfter("cr", true) == "cr";
    assert TitleAfter("ocr", true) == "ocr";
    assert TitleAfter("rocr", true) == "rocr";
  }

  lemma TitleQwen()
    ensures Title("qwen") == "Qwen"
  {
    assert UpperChar('q') == 'Q';
    assert TitleAfter("n", true) == "n";
    assert TitleAfter("en", true) == "en";
    assert TitleAfter("wen", true) == "wen";
  }

  /** `get_base_endpoints`: the three system routes, all shown in slate. */
  function GetBaseEndpoints(): (r: seq<Endpoint>)
    ensures |r| == 3
    ensures forall i :: 0 <= i < |r| ==> r[i].verb == "GET" && r[i].color == "slate"
    ensures [r[0].path, r[1].path, r[2].path] == ["/api/v1/", "/api/v1/health", "/api/v1/gpu/status"]
  {
    [Endpoint("GET", "/api/v1/", "API root with metadata", "slate"),
     Endpoint("GET", "/api/v1/health", "Health check endpoint", "slate"),
     Endpoint("GET", "/api/v1/gpu/status", "GPU resource status", "slate")]
  }
}

=== FILE: imageprocessing.dfy ===
/** Image processing helpers (`backend/utils/image/processing.py`): the box
    checks of `crop_image` and the selection step of `get_dominant_colors`. Pixel
    work (decoding, cropping, PNG encoding, resizing) is left to PIL and not
    modelled; an image is its dimensions. */
module ImageProcessing {
  import opened Wrappers
  import ImageValidation

  datatype Box = Box(x1: int, y1: int, x2: int, y2: int)

  datatype CropError = InvalidCoordinates | OutOfBounds | OpenFailed(message: string)

  datatype Crop = Cropped(box: Box) | CropFailed(error: CropError)

  /** The box passes both of `crop_image`'s checks against an image of the given size. */
  predicate FitsInside(b: Box, d: ImageValidation.Dims) {
    0 <= b.x1 < b.x2 <= d.width && 0 <= b.y1 < b.y2 <= d.height
  }

  /** `crop_image`: the image is opened first (`image` is Raised when PIL cannot
      decode it); then an inverted or empty box is refused, then one that leaves
      the image. */
  function CropImage(image: Outcome<ImageValidation.Dims>, b: Box): (r: Crop)
    ensures image.Returned? ==> (r.Cropped? <==> FitsInside(b, image.value))
    ensures r.Cropped? ==> r.box == b
    ensures image.Returned? && (b.x1 >= b.x2 || b.y1 >= b.y2) ==> r == CropFailed(InvalidCoordinates)
    ensures image.Raised? ==> r == CropFailed(OpenFailed(image.message))
  {
    match image
    case Raised(msg) => CropFailed(OpenFailed(msg))
    case Returned(d) =>
      if b.x1 >= b.x2 || b.y1 >= b.y2 then CropFailed(InvalidCoordinates)
      else if b.x1 < 0 || b.y1 < 0 || b.x2 > d.width || b.y2 > d.height then CropFailed(OutOfBounds)
      else Cropped(b)
  }

  /** An inverted box that also leaves the image is reported as inverted. */
  lemma InvertedReportedFirst(d: ImageValidation.Dims, b: Box)
    requires b.x1 >= b.x2 && b.x2 > d.width
    ensures CropImage(Returned(d), b) == CropFailed(InvalidCoordinates)
  {}

  /** A `getcolors` entry: a pixel count and a colour value. */
  datatype ColorCount<C> = ColorCount(count: nat, color: C)

  predicate NonIncreasing<C>(s: seq<ColorCount<C>>) {
    forall i, j :: 0 <= i < j < |s| ==> s[i].count >= s[j].count
  }

  /** Inserts `x` after every element whose count is larger than its own and
      before the first whose count is not: `x` comes from earlier in the input
      than every element of `s`, so equal counts keep their input order (as
      Python's stable sort with `reverse=True` does). */
  function InsertDesc<C>(x: ColorCount<C>, s: seq<ColorCount<C>>): (r: seq<ColorCount<C>>)
    requires NonIncreasing(s)
    ensures NonIncreasing(r)
    ensures multiset(r) == multiset(s) + multiset{x}
    ensures |r| == |s| + 1
    ensures r[0] == if s != [] && s[0].count > x.count then s[0] else x
  {
    if s == [] then [x]
    else if s[0].count > x.count then
      var t := InsertDesc(x, s[1..]);
      assert s == [s[0]] + s[1..];
      ConsNonIncreasing(s[0], t);
      [s[0]] + t
    else
      ConsNonIncreasing(x, s);
      [x] + s
  }

  lemma ConsNonIncreasing<C>(a: ColorCount<C>, t: seq<ColorCount<C>>)
    requires NonIncreasing(t) && (t == [] || a.count >= t[0].count)
    ensures NonIncreasing([a] + t)
  {
    assert forall j :: 0 <= j < |t| ==> a.count >= t[j].count;
  }

  /** `colors.sort(key=lambda x: x[0], reverse=True)` by insertion. */
  function SortDesc<C>(s: seq<ColorCount<C>>): (r: seq<ColorCount<C>>)
    ensures NonIncreasing(r)
    ensures multiset(r) == multiset(s)
  {
    if s == [] then []
    else
      assert s == [s[0]] + s[1..];
      InsertDesc(s[0], SortDesc(s[1..]))
  }

  /** Python's `s[:n]`; a negative `n` counts from the end. */
  function SliceTo<T>(s: seq<T>, n: int): (r: seq<T>)
    ensures n >= 0 ==> |r| == if n <= |s| then n else |s|
    ensures n < 0 ==> |r| == if |s| + n >= 0 then |s| + n else 0
    ensures r == s[..|r|]
  {
    if n >= 0 then (if n <= |s| then s[..n] else s)
    else if |s| + n >= 0 then s[..|s| + n] else []
  }

  /** `get_dominant_colors` given what `getcolors` produced for the thumbnail
      (None when it returns None or the resize raises). */
  function GetDominantColors<C>(colors: Option<seq<ColorCount<C>>>, numColors: int): (r: seq<C>)
    ensures colors.None? || colors == Some([]) ==> r == []
    ensures numColors >= 0 ==> |r| <= numColors
    ensures colors.Some? ==> |r| <= |colors.value|
    ensures colors.Some? && numColors >= 0 ==>
              |r| == if numColors <= |colors.value| then numColors else |colors.value|
    ensures colors.Some? && numColors < 0 ==>
              |r| == if |colors.value| + numColors >= 0 then |colors.value| + numColors else 0
    ensures colors.Some? ==> forall k :: 0 <= k < |r| ==> exists e :: e in colors.value && e.color == r[k]
  {
    match colors
    case None => []
    case Some(cs) =>
      if cs == [] then []
      else
        SortDescLength(cs);
        var top := SliceTo(SortDesc(cs), numColors);
        TopFromInput(cs, numColors);
        ColorsOf(top)
  }

  /** `[color[1] for color in s]`. */
  function ColorsOf<C>(s: seq<ColorCount<C>>): (r: seq<C>)
    ensures |r| == |s| && forall k :: 0 <= k < |s| ==> r[k] == s[k].color
  {
    seq(|s|, k requires 0 <= k < |s| => s[k].color)
  }

  /** Every entry kept by the slice of the sorted list is an input entry. */
  lemma TopFromInput<C>(cs: seq<ColorCount<C>>, numColors: int)
    ensures forall k :: 0 <= k < |SliceTo(SortDesc(cs), numColors)| ==> SliceTo(SortDesc(cs), numColors)[k] in cs
  {
    var sorted := SortDesc(cs);
    var top := SliceTo(sorted, numColors);
    forall k | 0 <= k < |top| ensures top[k] in cs {
      assert top[k] == sorted[k];
      assert sorted[k] in multiset(sorted);
    }
  }

  /** The colours come out in non-increasing count order: the k-th colour
      returned is the k-th entry of the count-sorted list, exactly the first
      `num_colors` of them come back (fewer when there are fewer colours), and
      no colour left out has a larger count than one returned. */
  lemma DominantColorsOrdered<C>(cs: seq<ColorCount<C>>, numColors: int)
    requires cs != []
    ensures var r := GetDominantColors(Some(cs), numColors);
            var sorted := SortDesc(cs);
            && NonIncreasing(sorted) && multiset(sorted) == multiset(cs)
            && (numColors >= 0 ==> |r| == if numColors <= |cs| then numColors else |cs|)
            && |r| <= |sorted|
            && (forall k :: 0 <= k < |r| ==> r[k] == sorted[k].color)
            && (forall k, j :: 0 <= k < |r| <= j < |sorted| ==> sorted[k].count >= sorted[j].count)
  {
    var r := GetDominantColors(Some(cs), numColors);
    var sorted := SortDesc(cs);
    SortDescLength(cs);
    var top := SliceTo(sorted, numColors);
    assert r == ColorsOf(top);
    assert forall k :: 0 <= k < |r| ==> r[k] == sorted[k].color;
  }

  lemma SortDescLength<C>(cs: seq<ColorCount<C>>)
    ensures |SortDesc(cs)| == |cs|
  {
    assert |multiset(SortDesc(cs))| == |multiset(cs)|;
  }
}

=== FILE: imagevalidation.dfy ===
/** Upload validation (`backend/utils/image/validation.py`): content type, MIME
    set, file extension, byte size, and the size check of `resize_image`. An
    upload is reduced to its optional content type and optional file name; a
    byte string to its length. */
module ImageValidation {
  import opened Wrappers
  import opened Text

  /** `settings.MAX_FILE_SIZE`: 10 MiB. */
  const MaxFileSize: nat := 10 * 1024 * 1024

  const AllowedExtensions: set<string> := {".jpg", ".jpeg", ".png", ".bmp", ".tiff", ".webp"}

  const AllowedMimeTypes: set<string> :=
    {"image/jpeg", "image/jpg", "image/png", "image/bmp", "image/tiff", "image/webp"}

  /** The `ValidationError`s the two validators raise, in the order they check. */
  datatype UploadError = InvalidFileType | UnsupportedMimeType | UnsupportedExtension | EmptyFile | FileTooLarge

  /** The fixed `ValidationError` messages. The MIME and extension messages
      list a set in iteration order and are left out. */
  function Message(e: UploadError): (m: Option<string>)
    ensures m.Some? <==> e in {InvalidFileType, EmptyFile, FileTooLarge}
  {
    match e
    case InvalidFileType => Some("Invalid file type. Please upload an image file.")
    case EmptyFile => Some("Empty file uploaded")
    case FileTooLarge => Some("File too large. Maximum size: 10.0MB")
    case _ => None
  }

  /** The text after the last `c` in `s`, or all of `s` when `c` does not occur:
      `s.split(c)[-1]`. */
  function AfterLast(s: string, c: char): (r: string)
    ensures c !in r
    ensures EndsWith(s, r)
    ensures |r| < |s| ==> s[|s| - |r| - 1] == c
    ensures c !in s ==> r == s
  {
    if s == [] then []
    else if s[|s| - 1] == c then []
    else AfterLast(s[..|s| - 1], c) + [s[|s| - 1]]
  }

  /** The extension `validate_image_file` derives from a file name. */
  function Extension(filename: string): (r: string)
    ensures |r| >= 1 && r[0] == '.'
    ensures '.' !in filename ==> r == "." + Lower(filename)
  {
    "." + Lower(AfterLast(filename, '.'))
  }

  /** `validate_image_file`: None when the upload passes. A missing or empty
      file name skips the extension check. */
  function ValidateImageFile(contentType: Option<string>, filename: Option<string>): (r: Option<UploadError>)
    ensures (contentType.None? || !StartsWith(contentType.value, "image/")) <==> r == Some(InvalidFileType)
    ensures r == Some(UnsupportedMimeType) <==>
      contentType.Some? && StartsWith(contentType.value, "image/") && contentType.value !in AllowedMimeTypes
    ensures r == Some(UnsupportedExtension) <==>
      && contentType.Some? && contentType.value in AllowedMimeTypes
      && filename.Some? && filename.value != [] && Extension(filename.value) !in AllowedExtensions
    ensures r.None? <==>
      && contentType.Some? && contentType.value in AllowedMimeTypes
      && (filename.None? || filename.value == [] || Extension(filename.value) in AllowedExtensions)
  {
    if contentType.None? || contentType.value == [] || !StartsWith(contentType.value, "image/") then
      Some(InvalidFileType)
    else if contentType.value !in AllowedMimeTypes then Some(UnsupportedMimeType)
    else if filename.Some? && filename.value != [] && Extension(filename.value) !in AllowedExtensions then
      Some(UnsupportedExtension)
    else None
  }

  /** A dot-less file name is read whole as its extension, so "png" passes. */
  lemma DotlessNamePasses()
    ensures ValidateImageFile(Some("image/png"), Some("png")) == None
  {
    var lo := Lower("png");
    assert lo[0] == 'p' && lo[1] == 'n' && lo[2] == 'g';
    assert lo == "png";
    assert '.' !in "png";
    assert Extension("png") == ".png";
    assert ".png" in AllowedExtensions;
    assert "image/png"[..|"image/"|] == "image/";
    assert StartsWith("image/png", "image/");
    assert "image/png" in AllowedMimeTypes;
  }

  /** An upload without a content type is refused as the wrong type whatever its
      name. */
  lemma MissingContentTypeFirst(filename: Option<string>)
    ensures ValidateImageFile(None, filename) == Some(InvalidFileType)
  {}

  /** `validate_image_bytes` on a byte string of length `size`. */
  function ValidateImageBytes(size: nat): (r: Option<UploadError>)
    ensures r.None? <==> 0 < size <= MaxFileSize
    ensures r == Some(EmptyFile) <==> size == 0
    ensures r == Some(FileTooLarge) <==> size > MaxFileSize
  {
    if size == 0 then Some(EmptyFile)
    else if size > MaxFileSize then Some(FileTooLarge)
    else None
  }

  /** The size limit is inclusive. */
  lemma SizeBoundary()
    ensures ValidateImageBytes(MaxFileSize).None?
    ensures ValidateImageBytes(MaxFileSize + 1) == Some(FileTooLarge)
  {}

  datatype Dims = Dims(width: nat, height: nat)

  /** `resize_image` on the image's dimensions, with Python's float division read
      as exact real division. The ratio's division by zero (a zero side with the
      other side over its limit) raises, and so does a negative target size. */
  function ResizeImage(d: Dims, maxWidth: int, maxHeight: int): (r: Outcome<Dims>)
    ensures d.width <= maxWidth && d.height <= maxHeight ==> r == Returned(d)
    ensures !(d.width <= maxWidth && d.height <= maxHeight) && (d.width == 0 || d.height == 0) ==> r.Raised?
    ensures d.width > 0 && d.height > 0 && maxWidth >= 0 && maxHeight >= 0 ==> r.Returned?
    ensures r.Returned? && !(d.width <= maxWidth && d.height <= maxHeight) && maxWidth >= 0 && maxHeight >= 0 ==>
      r.value.width <= maxWidth && r.value.height <= maxHeight
    ensures r.Returned? && !(d.width <= maxWidth && d.height <= maxHeight) ==>
      r.value.width == maxWidth || r.value.height == maxHeight
    ensures r.Returned? ==> SameAspect(d, r.value)
  {
    if d.width <= maxWidth && d.height <= maxHeight then Returned(d)
    else if d.width == 0 || d.height == 0 then Raised("division by zero")
    else
      var w := d.width as real;
      var h := d.height as real;
      var rw := maxWidth as real / w;
      var rh := maxHeight as real / h;
      var ratio := if rw <= rh then rw else rh;
      if ratio < 0.0 then Raised("negative size")
      else
        ScaleFacts(d, maxWidth, maxHeight, ratio);
        Returned(ScaleDims(d, ratio))
  }

  /** Both sides multiplied by `ratio` and truncated, as `int()` does for the
      non-negative products. */
  function ScaleDims(d: Dims, ratio: real): (e: Dims)
    requires ratio >= 0.0
    ensures e.width == (d.width as real * ratio).Floor && e.height == (d.height as real * ratio).Floor
  {
    var w := d.width as real;
    var h := d.height as real;
    MulNonneg(w, ratio);
    MulNonneg(h, ratio);
    Dims((w * ratio).Floor as nat, (h * ratio).Floor as nat)
  }

  lemma MulNonneg(a: real, b: real)
    requires a >= 0.0 && b >= 0.0
    ensures a * b >= 0.0
  {}

  /** With the ratio `resize_image` picks, the scaled size fits both bounds,
      the limiting side lands exactly on its bound, and the proportions are
      kept. */
  lemma ScaleFacts(d: Dims, maxWidth: int, maxHeight: int, ratio: real)
    requires d.width > 0 && d.height > 0 && ratio >= 0.0
    requires var rw := maxWidth as real / d.width as real;
             var rh := maxHeight as real / d.height as real;
             ratio == if rw <= rh then rw else rh
    ensures ScaleDims(d, ratio).width <= maxWidth && ScaleDims(d, ratio).height <= maxHeight
    ensures ScaleDims(d, ratio).width == maxWidth || ScaleDims(d, ratio).height == maxHeight
    ensures SameAspect(d, ScaleDims(d, ratio))
  {
    var rw := maxWidth as real / d.width as real;
    var rh := maxHeight as real / d.height as real;
    ScaleFits(d, ratio, rw, rh, maxWidth, maxHeight);
    ScaledAspect(d, ratio, ScaleDims(d, ratio));
  }

  lemma ScaleFits(d: Dims, ratio: real, rw: real, rh: real, maxWidth: int, maxHeight: int)
    requires d.width > 0 && d.height > 0 && ratio >= 0.0
    requires rw == maxWidth as real / d.width as real && rh == maxHeight as real / d.height as real
    requires ratio == if rw <= rh then rw else rh
    ensures ScaleDims(d, ratio).width <= maxWidth && ScaleDims(d, ratio).height <= maxHeight
    ensures ScaleDims(d, ratio).width == maxWidth || ScaleDims(d, ratio).height == maxHeight
  {
    SideFacts(d.width as real, ratio, rw, maxWidth);
    SideFacts(d.height as real, ratio, rh, maxHeight);
  }

  /** One side scaled by a ratio no larger than its own bound ratio stays
      within the bound, and lands on it when the ratios agree. */
  lemma SideFacts(side: real, ratio: real, bound: real, max: int)
    requires side > 0.0 && 0.0 <= ratio && bound == max as real / side
    ensures ratio <= bound ==> (side * ratio).Floor <= max
    ensures ratio == bound ==> (side * ratio).Floor == max
  {
    if ratio <= bound {
      ScaleBound(side, ratio, bound, max as real);
    }
    FillsBound(side, ratio, bound, max);
  }

  /** `e` has the proportions of `d` up to truncating each side: neither side
      of `e` is more than one unit ahead of the other's scaled value. */
  predicate SameAspect(d: Dims, e: Dims) {
    && e.width * d.height <= d.width * (e.height + 1)
    && e.height * d.width <= d.height * (e.width + 1)
  }

  /** Scaling both sides by one ratio and truncating keeps the proportions. */
  lemma ScaledAspect(d: Dims, ratio: real, e: Dims)
    requires d.width > 0 && d.height > 0 && ratio >= 0.0
    requires e.width == (d.width as real * ratio).Floor && e.height == (d.height as real * ratio).Floor
    ensures SameAspect(d, e)
  {
    var w, h := d.width as real, d.height as real;
    TruncCross(e.width as real, w, h, ratio, e.height as real);
    TruncCross(e.height as real, h, w, ratio, e.width as real);
    assert (e.width * d.height) as real == e.width as real * h;
    assert (d.width * (e.height + 1)) as real == w * (e.height as real + 1.0);
    assert (e.height * d.width) as real == e.height as real * w;
    assert (d.height * (e.width + 1)) as real == h * (e.width as real + 1.0);
  }

  /** One side's truncated value times the other side stays below the other
      side's truncated value plus one, times this side. */
  lemma TruncCross(a: real, s: real, t: real, q: real, b: real)
    requires s > 0.0 && t > 0.0 && a <= s * q && t * q < b + 1.0
    ensures a * t < s * (b + 1.0)
  {
    MulLe(a, s * q, t);
    assert (s * q) * t == s * (t * q);
    MulLt(t * q, b + 1.0, s);
  }

  lemma MulLe(a: real, b: real, c: real)
    requires a <= b && c > 0.0
    ensures a * c <= b * c
  {}

  lemma MulLt(a: real, b: real, c: real)
    requires a < b && c > 0.0
    ensures c * a < c * b
  {}

  /** The side whose ratio is the smaller one is scaled exactly onto its
      bound. */
  lemma FillsBound(side: real, ratio: real, bound: real, max: int)
    requires side > 0.0 && bound == max as real / side
    ensures ratio == bound ==> (side * ratio).Floor == max
  {
    if ratio == bound {
      assert side * ratio == max as real;
    }
  }

  lemma ScaleBound(side: real, ratio: real, bound: real, max: real)
    requires side > 0.0 && 0.0 <= ratio <= bound && bound == max / side
    ensures 0.0 <= side * ratio <= max
  {
    assert side * ratio <= side * bound;
    assert side * bound == max;
  }
}

=== FILE: jobqueue.dfy ===
/** The queue machinery shared by `InProcessOCRQueue` and `InProcessFormsQueue`:
    two FIFO lanes (normal and priority), the list of worker tasks with its
    top-up, the `active_jobs` set, and the status and health reports. The two
    classes are textually identical in these parts; the job payload type `J` is
    a parameter. A worker task is represented by its `done()` flag. */
module JobQueue {
  import opened Wrappers

  datatype Lanes<J> = Lanes(normal: seq<J>, priority: seq<J>)

  /** `submit_job`'s lane choice: the job joins the tail of exactly one lane, the
      priority lane iff `priority`. */
  function Enqueue<J>(l: Lanes<J>, job: J, priority: bool): (r: Lanes<J>)
    ensures priority ==> r.priority == l.priority + [job] && r.normal == l.normal
    ensures !priority ==> r.normal == l.normal + [job] && r.priority == l.priority
    ensures |r.normal| + |r.priority| == |l.normal| + |l.priority| + 1
  {
    if priority then l.(priority := l.priority + [job]) else l.(normal := l.normal + [job])
  }

  datatype Taken<J> = Taken(job: J, rest: Lanes<J>)

  /** One pass of `_worker_loop`: the head of the priority lane when it is
      non-empty, else the head of the normal lane, else nothing (the worker
      sleeps and retries). */
  function Dispatch<J>(l: Lanes<J>): (r: Option<Taken<J>>)
    ensures r.None? <==> l.priority == [] && l.normal == []
    ensures l.priority != [] ==> r == Some(Taken(l.priority[0], l.(priority := l.priority[1..])))
    ensures l.priority == [] && l.normal != [] ==> r == Some(Taken(l.normal[0], l.(normal := l.normal[1..])))
  {
    if l.priority != [] then Some(Taken(l.priority[0], l.(priority := l.priority[1..])))
    else if l.normal != [] then Some(Taken(l.normal[0], l.(normal := l.normal[1..])))
    else None
  }

  /** The order in which repeated dispatch hands out the queued jobs when no
      submission intervenes. */
  function Drain<J>(l: Lanes<J>): seq<J>
    decreases |l.normal| + |l.priority|
  {
    match Dispatch(l)
    case None => []
    case Some(t) => [t.job] + Drain(t.rest)
  }

  /** Every priority job is handed out before every normal job, and each lane
      in its arrival order. */
  lemma {:induction false} DrainOrder<J>(l: Lanes<J>)
    ensures Drain(l) == l.priority + l.normal
    decreases |l.normal| + |l.priority|
  {
    match Dispatch(l)
    case None =>
    case Some(t) =>
      DrainOrder(t.rest);
      if l.priority != [] {
        assert l.priority == [l.priority[0]] + l.priority[1..];
      } else {
        assert l.normal == [l.normal[0]] + l.normal[1..];
      }
  }

  /** A job submitted now is handed out after everything already queued in its
      lane and, for a priority job, before every normal job. */
  lemma EnqueueThenDrain<J>(l: Lanes<J>, job: J, priority: bool)
    ensures priority ==> Drain(Enqueue(l, job, priority)) == l.priority + [job] + l.normal
    ensures !priority ==> Drain(Enqueue(l, job, priority)) == l.priority + l.normal + [job]
  {
    DrainOrder(Enqueue(l, job, priority));
  }

  /** The number of tasks whose `done()` flag is false. */
  function Alive(tasks: seq<bool>): (n: nat)
    ensures n <= |tasks|
    ensures n == 0 <==> forall i :: 0 <= i < |tasks| ==> tasks[i]
  {
    if tasks == [] then 0 else Alive(tasks[..|tasks| - 1]) + (if tasks[|tasks| - 1] then 0 else 1)
  }

  lemma {:induction false} AliveAppend(a: seq<bool>, b: seq<bool>)
    ensures Alive(a + b) == Alive(a) + Alive(b)
    decreases |b|
  {
    if b == [] {
      assert a + b == a;
    } else {
      assert (a + b)[..|a + b| - 1] == a + b[..|b| - 1];
      AliveAppend(a, b[..|b| - 1]);
    }
  }

  lemma {:induction false} AliveFresh(n: nat)
    ensures Alive(seq(n, _ => false)) == n
  {
    if n > 0 {
      assert seq(n, _ => false)[..n - 1] == seq(n - 1, _ => false);
      AliveFresh(n - 1);
    }
  }

  /** `start_worker`: `max_workers - alive` new running tasks are appended (none
      when that is not positive). Worker ids are list positions, so the new
      workers get ids never used before. */
  function StartWorker(tasks: seq<bool>, maxWorkers: int): (r: seq<bool>)
    ensures |r| >= |tasks| && r[..|tasks|] == tasks
    ensures forall i :: |tasks| <= i < |r| ==> !r[i]
    ensures Alive(tasks) >= maxWorkers ==> r == tasks
    ensures Alive(r) == if Alive(tasks) >= maxWorkers then Alive(tasks) else maxWorkers
  {
    var n := maxWorkers - Alive(tasks);
    if n <= 0 then tasks
    else
      AliveAppend(tasks, seq(n, _ => false));
      AliveFresh(n);
      tasks + seq(n, _ => false)
  }

  /** A second `start_worker` with every worker still alive starts none. */
  lemma StartWorkerIdempotent(tasks: seq<bool>, maxWorkers: int)
    ensures StartWorker(StartWorker(tasks, maxWorkers), maxWorkers) == StartWorker(tasks, maxWorkers)
  {}

  /** `stop_worker`: every task is cancelled and the list is cleared. */
  function StopWorker(tasks: seq<bool>): (r: seq<bool>)
    ensures Alive(r) == 0 && |r| == 0
  {
    []
  }

  /** The queue object: lanes, worker tasks, `max_workers` and `active_jobs`. */
  datatype Queue<J> = Queue(lanes: Lanes<J>, tasks: seq<bool>, maxWorkers: int, active: set<string>)

  function NewQueue<J>(maxWorkers: int): (q: Queue<J>)
    ensures q.lanes.normal == [] && q.lanes.priority == [] && q.tasks == [] && q.active == {}
    ensures q.maxWorkers == maxWorkers
  {
    Queue(Lanes([], []), [], maxWorkers, {})
  }

  /** `submit_job`: enqueue on the chosen lane, then `start_worker`. */
  function SubmitJob<J>(q: Queue<J>, job: J, priority: bool): (r: Queue<J>)
    ensures r.lanes == Enqueue(q.lanes, job, priority)
    ensures r.tasks == StartWorker(q.tasks, q.maxWorkers)
    ensures q.maxWorkers > 0 ==> Alive(r.tasks) > 0
    ensures r.maxWorkers == q.maxWorkers && r.active == q.active
  {
    q.(lanes := Enqueue(q.lanes, job, priority), tasks := StartWorker(q.tasks, q.maxWorkers))
  }

  datatype QueueStatus = QueueStatus(activeJobs: nat, maxWorkers: int, currentJobs: set<string>,
                                     queueSize: nat, priorityQueueSize: nat, totalPending: nat)

  /** `get_queue_status`. */
  function GetQueueStatus<J>(q: Queue<J>): (r: QueueStatus)
    ensures r.totalPending == r.queueSize + r.priorityQueueSize
    ensures r.activeJobs == |r.currentJobs| && r.currentJobs == q.active
    ensures r.queueSize == |q.lanes.normal| && r.priorityQueueSize == |q.lanes.priority|
    ensures r.maxWorkers == q.maxWorkers
  {
    QueueStatus(|q.active|, q.maxWorkers, q.active, |q.lanes.normal|, |q.lanes.priority|,
                |q.lanes.normal| + |q.lanes.priority|)
  }

  /** A submission raises `total_pending` by one; a dispatch lowers it by one. */
  lemma PendingCounts<J>(q: Queue<J>, job: J, priority: bool)
    ensures GetQueueStatus(SubmitJob(q, job, priority)).totalPending == GetQueueStatus(q).totalPending + 1
    ensures Dispatch(q.lanes).Some? ==>
      GetQueueStatus(q.(lanes := Dispatch(q.lanes).value.rest)).totalPending + 1 == GetQueueStatus(q).totalPending
  {}

  datatype Health = Health(healthy: bool, activeWorkers: nat, maxWorkers: int, workersRunning: bool,
                           queueSize: nat, priorityQueueSize: nat)

  /** `InProcessOCRQueue.health_check`: healthy iff some worker task is alive. */
  function OcrHealthCheck<J>(q: Queue<J>): (r: Health)
    ensures r.healthy <==> exists i :: 0 <= i < |q.tasks| && !q.tasks[i]
    ensures r.workersRunning == r.healthy && r.activeWorkers == Alive(q.tasks)
    ensures r.queueSize == |q.lanes.normal| && r.priorityQueueSize == |q.lanes.priority|
  {
    var n := Alive(q.tasks);
    Health(n > 0, n, q.maxWorkers, n > 0, |q.lanes.normal|, |q.lanes.priority|)
  }

  /** Right after a submission to a queue with a positive worker budget, the
      queue reports healthy. */
  lemma HealthyAfterSubmit<J>(q: Queue<J>, job: J, priority: bool)
    requires q.maxWorkers > 0
    ensures OcrHealthCheck(SubmitJob(q, job, priority)).healthy
  {}
}

=== FILE: jobstore.dfy ===
/** The Redis-backed job store (`redis_job_manager`): a map from job id to the
    record `{status, result, error, progress}`. JSON encoding and the Redis
    client are not modelled; a write replaces the whole record. The store is
    generic in the type `R` of a completed job's result. */
module JobStore {
  import opened Wrappers

  datatype Record<R> = Record(status: string, result: Option<R>, error: Option<string>, progress: int)

  type Store<R> = map<string, Record<R>>

  /** `set_job_status`; omitted arguments default to `result=None`,
      `error=None`, `progress=0`. */
  function SetJobStatus<R>(s: Store<R>, jobId: string, status: string,
                           result: Option<R> := None, error: Option<string> := None,
                           progress: int := 0): (r: Store<R>)
    ensures r.Keys == s.Keys + {jobId}
    ensures forall id :: id in s && id != jobId ==> r[id] == s[id]
  {
    s[jobId := Record(status, result, error, progress)]
  }

  /** `get_job_status`: None for an id never written. */
  function GetJobStatus<R>(s: Store<R>, jobId: string): (r: Option<Record<R>>)
    ensures r.None? <==> jobId !in s
  {
    if jobId in s then Some(s[jobId]) else None
  }

  /** Reading back a write yields exactly the four fields written: nothing of an
      earlier record survives. */
  lemma GetAfterSet<R>(s: Store<R>, jobId: string, status: string, result: Option<R>,
                       error: Option<string>, progress: int)
    ensures GetJobStatus(SetJobStatus(s, jobId, status, result, error, progress), jobId)
         == Some(Record(status, result, error, progress))
  {}

  /** A write to one id leaves every other id's lookup unchanged. */
  lemma SetLeavesOthers<R>(s: Store<R>, jobId: string, other: string, status: string,
                           result: Option<R>, error: Option<string>, progress: int)
    requires other != jobId
    ensures GetJobStatus(SetJobStatus(s, jobId, status, result, error, progress), other)
         == GetJobStatus(s, other)
  {}

  /** The defaults of `set_job_status(job_id, status)`. */
  lemma SetDefaults<R>(s: Store<R>, jobId: string, status: string)
    ensures GetJobStatus(SetJobStatus(s, jobId, status), jobId) == Some(Record(status, None, None, 0))
  {}

  /** A sequence of writes to one job, applied in order. */
  function ApplyWrites<R>(s: Store<R>, jobId: string, writes: seq<Record<R>>): (r: Store<R>)
    ensures writes == [] ==> r == s
    ensures writes != [] ==> r == s[jobId := writes[|writes| - 1]]
    ensures forall id :: id in s && id != jobId ==> id in r && r[id] == s[id]
  {
    if writes == [] then s
    else
      var w := writes[|writes| - 1];
      SetJobStatus(ApplyWrites(s, jobId, writes[..|writes| - 1]), jobId, w.status, w.result, w.error, w.progress)
  }
}

=== FILE: ocrpipeline.dfy ===
/** `full_ocr_logic` (`backend/services/ocr_pipeline_service.py`): validate the
    bytes, detect text regions, then recognise each region's crop, writing a
    progress value before each region. The detector and the recogniser are
    oracles; timings, metadata and the optional training-sample dump are not
    modelled. The progress writes are returned as a list instead of being sent
    to the job store; the OCR queue applies them. */
module OcrPipeline {
  import opened Wrappers
  import opened Text
  import ImageValidation
  import ImageProcessing
  import Detection

  datatype ExtractedText = ExtractedText(bbox: Detection.BoundingBox, width: int, height: int, text: string)

  datatype OcrJobResult = OcrJobResult(success: bool, filename: string, message: string,
                                       detections: seq<ExtractedText>, totalDetections: nat)

  /** What one run of `full_ocr_logic` does: the progress values it writes, in
      order, and what it returns or raises. */
  datatype Run = Run(progress: seq<int>, outcome: Outcome<OcrJobResult>)

  /** The progress written before region `idx` of `n`: `int(idx / n * 100)`,
      read as exact integer arithmetic. */
  function Progress(idx: nat, n: nat): (p: int)
    requires idx < n
    ensures 0 <= p <= 99
    ensures p * n <= idx * 100 < (p + 1) * n
  {
    idx * 100 / n
  }

  /** The formula is monotone in the region index: a later region never gets a
      smaller value. (The job's reported progress as a whole is not monotone;
      see `OcrQueue.ProgressDropsAtFirstRegion`.) */
  lemma ProgressMonotone(i: nat, j: nat, n: nat)
    requires i <= j < n
    ensures Progress(i, n) <= Progress(j, n)
  {
    var pi := Progress(i, n);
    var pj := Progress(j, n);
    assert pi * n < (pj + 1) * n;
    MulLessCancel(pi, pj + 1, n);
  }

  lemma MulLessCancel(a: int, b: int, n: nat)
    requires a * n < b * n
    ensures a < b
  {
    assert (b - a) * n == b * n - a * n;
  }

  /** `detection.bbox.dict()` as `crop_image` receives it. */
  function BoxOf(d: Detection.Region): (b: ImageProcessing.Box)
    ensures b.x1 == d.bbox.x1 && b.y1 == d.bbox.y1 && b.x2 == d.bbox.x2 && b.y2 == d.bbox.y2
  {
    ImageProcessing.Box(d.bbox.x1, d.bbox.y1, d.bbox.x2, d.bbox.y2)
  }

  /** The text recorded for one region: the recogniser's text when the crop
      succeeds and the recogniser returns a non-empty string; "" when the crop
      is refused, the recogniser raises, or it returns None or "". */
  function RegionText(image: ImageValidation.Dims, d: Detection.Region, recognised: Outcome<Option<string>>): (t: string)
    ensures !ImageProcessing.FitsInside(BoxOf(d), image) ==> t == ""
    ensures recognised.Raised? || recognised == Returned(None) ==> t == ""
    ensures t != "" <==>
      && ImageProcessing.FitsInside(BoxOf(d), image)
      && recognised.Returned? && recognised.value.Some? && recognised.value.value != ""
    ensures t != "" ==> t == recognised.value.value
  {
    match ImageProcessing.CropImage(Returned(image), BoxOf(d))
    case CropFailed(_) => ""
    case Cropped(_) =>
      match recognised
      case Raised(_) => ""
      case Returned(None) => ""
      case Returned(Some(s)) => s
  }

  /** The detection loop over `regions`: one `ExtractedText` per region, each
      keeping its region's box, width and height. */
  function Extract(image: ImageValidation.Dims, regions: seq<Detection.Region>,
                   recognise: nat -> Outcome<Option<string>>): (r: seq<ExtractedText>)
    ensures |r| == |regions|
    ensures forall i :: 0 <= i < |r| ==>
      && r[i].bbox == regions[i].bbox && r[i].width == regions[i].width && r[i].height == regions[i].height
      && r[i].text == RegionText(image, regions[i], recognise(i))
  {
    seq(|regions|, i requires 0 <= i < |regions| =>
      ExtractedText(regions[i].bbox, regions[i].width, regions[i].height, RegionText(image, regions[i], recognise(i))))
  }

  /** The progress values the loop writes for `n` regions. */
  function ProgressWrites(n: nat): (r: seq<int>)
    ensures |r| == n
    ensures forall i :: 0 <= i < n ==> r[i] == Progress(i, n) && 0 <= r[i] <= 99
  {
    seq(n, i requires 0 <= i < n => Progress(i, n))
  }

  /** `full_ocr_logic`. `byteCount` is the upload's length, `image` its decoded
      size, `detector` what the PaddleOCR model returns (or raises), and
      `recognise(i)` what TrOCR returns (or raises) on the crop of region `i`. */
  function FullOcrLogic(filename: string, byteCount: nat, image: ImageValidation.Dims,
                        detector: Outcome<seq<Detection.PredictEntry>>,
                        recognise: nat -> Outcome<Option<string>>): (r: Run)
    ensures ImageValidation.ValidateImageBytes(byteCount).Some? ==> r.progress == [] && r.outcome.Raised?
    ensures detector.Raised? ==> r.progress == [] && r.outcome.Raised?
    ensures r.outcome.Returned? <==>
      && ImageValidation.ValidateImageBytes(byteCount).None?
      && detector.Returned? && Detection.DetectTextBbox(detector.value).Returned?
    ensures r.outcome.Returned? ==>
      var regions := Detection.DetectTextBbox(detector.value).value;
      && r.outcome.value.success
      && r.outcome.value.filename == filename
      && r.outcome.value.detections == Extract(image, regions, recognise)
      && r.outcome.value.totalDetections == |r.outcome.value.detections| == |regions|
      && r.outcome.value.message == "Successfully detected " + NatToString(|regions|) + " text regions"
      && r.progress == ProgressWrites(|regions|)
    ensures r.outcome.Raised? ==> r.progress == []
  {
    match ImageValidation.ValidateImageBytes(byteCount)
    case Some(e) => Run([], Raised(ImageValidation.Message(e).GetOr("")))
    case None =>
      match detector
      case Raised(msg) => Run([], Raised(msg))
      case Returned(entries) =>
        match Detection.DetectTextBbox(entries)
        case Raised(msg) => Run([], Raised(msg))
        case Returned(regions) =>
          var ds := Extract(image, regions, recognise);
          Run(ProgressWrites(|regions|),
              Returned(OcrJobResult(true, filename, "Successfully detected " + NatToString(|ds|) + " text regions",
                                    ds, |ds|)))
  }

  /** Bad bytes are refused before the detector's output is looked at. */
  lemma ValidationBeforeDetection(filename: string, byteCount: nat, image: ImageValidation.Dims,
                                  d1: Outcome<seq<Detection.PredictEntry>>, d2: Outcome<seq<Detection.PredictEntry>>,
                                  recognise: nat -> Outcome<Option<string>>)
    requires byteCount == 0 || byteCount > ImageValidation.MaxFileSize
    ensures FullOcrLogic(filename, byteCount, image, d1, recognise) == FullOcrLogic(filename, byteCount, image, d2, recognise)
    ensures FullOcrLogic(filename, byteCount, image, d1, recognise).progress == []
  {}

  /** A region whose polygon has all its vertices on one vertical line gets an
      empty box, which `crop_image` refuses, so its text is "" whatever the
      recogniser would say. */
  lemma {:induction false} FlatPolygonGivesEmptyText(image: ImageValidation.Dims, p: Detection.Polygon,
                                                     recognised: Outcome<Option<string>>)
    requires p != [] && forall i :: 0 <= i < |p| ==> p[i].x == p[0].x
    ensures Detection.PolygonToRegion(p).Returned?
    ensures RegionText(image, Detection.PolygonToRegion(p).value, recognised) == ""
  {
    var d := Detection.PolygonToRegion(p).value;
    var k :| 0 <= k < |p| && Detection.Trunc(p[k].x) == d.bbox.x1;
    var m :| 0 <= m < |p| && Detection.Trunc(p[m].x) == d.bbox.x2;
    assert d.bbox.x1 == d.bbox.x2;
  }
}

=== FILE: ocrqueue.dfy ===
/** The OCR job lifecycle of `InProcessOCRQueue` (`backend/core/ocr_queue.py`).
    A worker's handling of one job runs to completion as one atomic step; the
    GPU wait reads the environment through `Gpu.Probe`s and the OCR backend's
    behaviour is given as an `OcrPipeline.Run`. The store records every write the
    step makes, in order, so that the lifecycle can be stated over them. */
module OcrQueue {
  import opened Wrappers
  import Gpu
  import JobStore
  import JobQueue
  import OcrPipeline
  import ImageValidation
  import Detection

  /** The `job_data` dict; the image bytes are represented by their length. */
  datatype OcrJob = OcrJob(filename: string, byteCount: nat, jobId: string)

  type Rec = JobStore.Record<OcrPipeline.OcrJobResult>

  datatype World = World(queue: JobQueue.Queue<OcrJob>, store: JobStore.Store<OcrPipeline.OcrJobResult>, gpu: Gpu.Manager)

  /** The outcome of one `_process_job`: the new world, the store writes in the
      order made, and whether the GPU was acquired. */
  datatype Step = Step(world: World, writes: seq<Rec>, gpuAcquired: bool)

  /** The GPU user id every OCR worker shares. */
  const GpuService: string := "ocr_queue"

  const GpuTimeout: real := 300.0

  const GpuTimeoutMessage: string := "Could not acquire GPU access within timeout period"

  function ProcessingWrite(progress: int): (r: Rec)
    ensures r.status == "processing" && r.progress == progress && r.result.None? && r.error.None?
  {
    JobStore.Record("processing", None, None, progress)
  }

  /** The record written when the job ends: "completed" with progress 100 and
      the result, or "error" with the exception text and the default progress. */
  function FinalWrite(outcome: Outcome<OcrPipeline.OcrJobResult>): (r: Rec)
    ensures outcome.Returned? <==> r.status == "completed"
    ensures outcome.Returned? ==> r == JobStore.Record("completed", Some(outcome.value), None, 100)
    ensures outcome.Raised? ==> r == JobStore.Record("error", None, Some(outcome.message), 0)
  {
    match outcome
    case Returned(v) => JobStore.Record("completed", Some(v), None, 100)
    case Raised(m) => JobStore.Record("error", None, Some(m), 0)
  }

  /** The writes made once the GPU is held: "processing" at 1, the backend's
      progress writes, then the final record. */
  function RunWrites(run: OcrPipeline.Run): (r: seq<Rec>)
    ensures |r| == |run.progress| + 2
    ensures r[0] == ProcessingWrite(1)
    ensures forall k :: 0 <= k < |run.progress| ==> r[k + 1] == ProcessingWrite(run.progress[k])
    ensures r[|r| - 1] == FinalWrite(run.outcome)
  {
    [ProcessingWrite(1)] + seq(|run.progress|, k requires 0 <= k < |run.progress| => ProcessingWrite(run.progress[k]))
      + [FinalWrite(run.outcome)]
  }

  /** `_process_job` for the job `job` (already taken off its lane). */
  function ProcessOcrJob(w: World, job: OcrJob, probes: seq<Gpu.Probe>, run: OcrPipeline.Run): (r: Step)
    requires Gpu.ClockPasses(probes, GpuTimeout)
    ensures r.gpuAcquired == Gpu.WaitForGpu(w.gpu, GpuService, None, probes, GpuTimeout).acquired
    ensures !r.gpuAcquired ==> r.writes == [JobStore.Record("error", None, Some(GpuTimeoutMessage), 0)]
    ensures r.gpuAcquired ==> r.writes == RunWrites(run)
    ensures r.world.store == JobStore.ApplyWrites(w.store, job.jobId, r.writes)
    ensures r.world.queue == w.queue.(active := w.queue.active - {job.jobId})
    ensures r.world.gpu.users ==
      Gpu.WaitForGpu(w.gpu, GpuService, None, probes, GpuTimeout).seen.users - (if r.gpuAcquired then {GpuService} else {})
    ensures r.world.gpu.maxConcurrent == w.gpu.maxConcurrent
  {
    var active := w.queue.active + {job.jobId};
    var wait := Gpu.WaitForGpu(w.gpu, GpuService, None, probes, GpuTimeout);
    var writes :=
      if wait.acquired then RunWrites(run)
      else [JobStore.Record("error", None, Some(GpuTimeoutMessage), 0)];
    var gpu := if wait.acquired then Gpu.ReleaseGpu(wait.manager, GpuService, None) else wait.manager;
    assert active - {job.jobId} == w.queue.active - {job.jobId};
    assert wait.acquired ==> wait.manager.users == wait.seen.users + {GpuService};
    assert wait.acquired ==> gpu.users == (wait.seen.users + {GpuService}) - {GpuService} == wait.seen.users - {GpuService};
    Step(World(w.queue.(active := active - {job.jobId}), JobStore.ApplyWrites(w.store, job.jobId, writes), gpu),
         writes, wait.acquired)
  }

  /** Without the GPU the job goes straight to "error": it is never written
      "processing", and the backend's behaviour makes no difference. */
  lemma NoGpuNoProcessing(w: World, job: OcrJob, probes: seq<Gpu.Probe>, run1: OcrPipeline.Run, run2: OcrPipeline.Run)
    requires Gpu.ClockPasses(probes, GpuTimeout)
    requires !ProcessOcrJob(w, job, probes, run1).gpuAcquired
    ensures forall k :: 0 <= k < |ProcessOcrJob(w, job, probes, run1).writes| ==>
      ProcessOcrJob(w, job, probes, run1).writes[k].status != "processing"
    ensures ProcessOcrJob(w, job, probes, run1) == ProcessOcrJob(w, job, probes, run2)
  {}

  /** After the job, its stored record is the final one: "completed" with
      progress 100 and the backend's result, or "error" with the message. */
  lemma FinalRecord(w: World, job: OcrJob, probes: seq<Gpu.Probe>, run: OcrPipeline.Run)
    requires Gpu.ClockPasses(probes, GpuTimeout)
    ensures var r := ProcessOcrJob(w, job, probes, run);
      && (r.gpuAcquired && run.outcome.Returned? ==>
            JobStore.GetJobStatus(r.world.store, job.jobId) == Some(JobStore.Record("completed", Some(run.outcome.value), None, 100)))
      && (r.gpuAcquired && run.outcome.Raised? ==>
            JobStore.GetJobStatus(r.world.store, job.jobId) == Some(JobStore.Record("error", None, Some(run.outcome.message), 0)))
      && (!r.gpuAcquired ==>
            JobStore.GetJobStatus(r.world.store, job.jobId) == Some(JobStore.Record("error", None, Some(GpuTimeoutMessage), 0)))
      && (forall id :: id != job.jobId ==> JobStore.GetJobStatus(r.world.store, id) == JobStore.GetJobStatus(w.store, id))
  {
    var r := ProcessOcrJob(w, job, probes, run);
    forall id | id != job.jobId
      ensures JobStore.GetJobStatus(r.world.store, id) == JobStore.GetJobStatus(w.store, id)
    {
      assert r.world.store == w.store[job.jobId := r.writes[|r.writes| - 1]];
    }
  }

  /** The job leaves the GPU user set as its last wait attempt found it,
      provided the shared id was not already held there; with a single-slot
      manager that is always so, because a grant needs an empty set. */
  lemma GpuRestored(w: World, job: OcrJob, probes: seq<Gpu.Probe>, run: OcrPipeline.Run)
    requires Gpu.ClockPasses(probes, GpuTimeout)
    requires GpuService !in Gpu.WaitForGpu(w.gpu, GpuService, None, probes, GpuTimeout).seen.users || w.gpu.maxConcurrent == 1
    ensures ProcessOcrJob(w, job, probes, run).world.gpu == Gpu.WaitForGpu(w.gpu, GpuService, None, probes, GpuTimeout).seen
  {
    var wait := Gpu.WaitForGpu(w.gpu, GpuService, None, probes, GpuTimeout);
    assert wait.acquired && w.gpu.maxConcurrent == 1 ==> |wait.seen.users| == 0;
  }

  /** While no other worker touches the manager during the wait, the job gives
      back the GPU user set it started from. */
  lemma GpuRestoredWhenQuiet(w: World, job: OcrJob, probes: seq<Gpu.Probe>, run: OcrPipeline.Run)
    requires Gpu.ClockPasses(probes, GpuTimeout) && Gpu.Quiet(w.gpu, probes)
    requires GpuService !in w.gpu.users || w.gpu.maxConcurrent == 1
    ensures ProcessOcrJob(w, job, probes, run).world.gpu == w.gpu
  {
    Gpu.QuietSeesStart(w.gpu, GpuService, None, probes, GpuTimeout);
    GpuRestored(w, job, probes, run);
  }

  /** A run of the backend on an empty upload raises before any progress
      write, so the job's writes are "processing" at 1 and then the validation
      error. */
  lemma BadBytesFailAfterProcessing(w: World, job: OcrJob, probes: seq<Gpu.Probe>, image: ImageValidation.Dims,
                                    detector: Outcome<seq<Detection.PredictEntry>>,
                                    recognise: nat -> Outcome<Option<string>>)
    requires Gpu.ClockPasses(probes, GpuTimeout)
    requires job.byteCount == 0
    requires ProcessOcrJob(w, job, probes, OcrPipeline.FullOcrLogic(job.filename, job.byteCount, image, detector, recognise)).gpuAcquired
    ensures ProcessOcrJob(w, job, probes, OcrPipeline.FullOcrLogic(job.filename, job.byteCount, image, detector, recognise)).writes
         == [ProcessingWrite(1), JobStore.Record("error", None, Some("Empty file uploaded"), 0)]
  {
    var run := OcrPipeline.FullOcrLogic(job.filename, job.byteCount, image, detector, recognise);
    assert run == OcrPipeline.Run([], Raised("Empty file uploaded"));
  }

  /** The progress a job reports is not monotone: the worker writes
      "processing" at 1 before the backend runs, and the backend's first write,
      for region 0, is `int(0 / n * 100)`, which is 0. From there on the
      backend's values never go backwards. */
  lemma ProgressDropsAtFirstRegion(w: World, job: OcrJob, probes: seq<Gpu.Probe>, image: ImageValidation.Dims,
                                   detector: Outcome<seq<Detection.PredictEntry>>,
                                   recognise: nat -> Outcome<Option<string>>)
    requires Gpu.ClockPasses(probes, GpuTimeout)
    requires Gpu.WaitForGpu(w.gpu, GpuService, None, probes, GpuTimeout).acquired
    requires OcrPipeline.FullOcrLogic(job.filename, job.byteCount, image, detector, recognise).progress != []
    ensures var ws := ProcessOcrJob(w, job, probes, OcrPipeline.FullOcrLogic(job.filename, job.byteCount, image, detector, recognise)).writes;
            && ws[0].progress == 1 && ws[1].progress == 0
            && forall i, j :: 1 <= i <= j < |ws| - 1 ==> ws[i].progress <= ws[j].progress
  {
    var run := OcrPipeline.FullOcrLogic(job.filename, job.byteCount, image, detector, recognise);
    assert ProcessOcrJob(w, job, probes, run).writes == RunWrites(run);
    assert run.outcome.Returned?;
    RunWritesProgress(run, |run.progress|);
  }

  /** The progress values of `RunWrites` for a run that wrote the backend's
      per-region values for `n` regions. */
  lemma RunWritesProgress(run: OcrPipeline.Run, n: nat)
    requires n > 0 && run.progress == OcrPipeline.ProgressWrites(n)
    ensures var ws := RunWrites(run);
            && ws[0].progress == 1 && ws[1].progress == 0
            && forall i, j :: 1 <= i <= j < |ws| - 1 ==> ws[i].progress <= ws[j].progress
  {
    var ws := RunWrites(run);
    assert ws[1].progress == OcrPipeline.Progress(0, n) == 0;
    forall i, j | 1 <= i <= j < |ws| - 1
      ensures ws[i].progress <= ws[j].progress
    {
      assert ws[i].progress == OcrPipeline.Progress(i - 1, n);
      assert ws[j].progress == OcrPipeline.Progress(j - 1, n);
      OcrPipeline.ProgressMonotone(i - 1, j - 1, n);
    }
  }

  /** One pass of `_worker_loop`: take the next job (priority lane first) and
      process it; with both lanes empty nothing changes. */
  function WorkerStep(w: World, probes: seq<Gpu.Probe>, run: OcrPipeline.Run): (r: Option<(OcrJob, Step)>)
    requires Gpu.ClockPasses(probes, GpuTimeout)
    ensures r.None? <==> w.queue.lanes.priority == [] && w.queue.lanes.normal == []
    ensures w.queue.lanes.priority != [] ==> r.value.0 == w.queue.lanes.priority[0]
    ensures w.queue.lanes.priority == [] && w.queue.lanes.normal != [] ==> r.value.0 == w.queue.lanes.normal[0]
    ensures r.Some? ==> r.value.1.world.queue.active == w.queue.active - {r.value.0.jobId}
  {
    match JobQueue.Dispatch(w.queue.lanes)
    case None => None
    case Some(t) => Some((t.job, ProcessOcrJob(w.(queue := w.queue.(lanes := t.rest)), t.job, probes, run)))
  }
}

=== FILE: pydict.dfy ===
/** Python's `dict` with string keys, as the list of its items in insertion
    order: assigning to an existing key replaces the value in place, assigning
    to a new key appends. */
module PyDict {
  import opened Wrappers

  datatype Entry<V> = Entry(key: string, value: V)

  type Dict<V> = seq<Entry<V>>

  function Keys<V>(d: Dict<V>): (r: seq<string>)
    ensures |r| == |d|
    ensures forall i :: 0 <= i < |d| ==> r[i] == d[i].key
  {
    seq(|d|, i requires 0 <= i < |d| => d[i].key)
  }

  /** `k in d`. */
  predicate HasKey<V>(d: Dict<V>, k: string) {
    exists i :: 0 <= i < |d| && d[i].key == k
  }

  /** No key occurs twice: every dict the program builds has this shape. */
  predicate Unique<V>(d: Dict<V>) {
    forall i, j :: 0 <= i < j < |d| ==> d[i].key != d[j].key
  }

  /** The position of `k` among the keys, if present. */
  function IndexOf<V>(d: Dict<V>, k: string): (r: Option<nat>)
    ensures r.None? <==> !HasKey(d, k)
    ensures r.Some? ==> r.value < |d| && d[r.value].key == k
    ensures r.Some? ==> forall j :: 0 <= j < r.value ==> d[j].key != k
  {
    if d == [] then None
    else if d[0].key == k then Some(0)
    else
      match IndexOf(d[1..], k)
      case None =>
        assert forall i :: 1 <= i < |d| ==> d[i] == d[1..][i - 1];
        None
      case Some(i) => Some(i + 1)
  }

  /** `d.get(k)`. */
  function Get<V>(d: Dict<V>, k: string): (r: Option<V>)
    ensures r.None? <==> !HasKey(d, k)
    ensures r.Some? ==> exists i :: 0 <= i < |d| && d[i] == Entry(k, r.value)
  {
    match IndexOf(d, k)
    case None => None
    case Some(i) => Some(d[i].value)
  }

  /** In a dict without repeated keys every item is what `Get` finds. */
  lemma GetUnique<V>(d: Dict<V>, i: nat)
    requires Unique(d) && i < |d|
    ensures Get(d, d[i].key) == Some(d[i].value)
  {
    FirstIndex(d, d[i].key, i);
  }

  /** `d[k] = v`. */
  function Put<V>(d: Dict<V>, k: string, v: V): (r: Dict<V>)
    ensures Get(r, k) == Some(v)
    ensures forall k' :: k' != k ==> Get(r, k') == Get(d, k')
    ensures HasKey(d, k) ==> Keys(r) == Keys(d)
    ensures !HasKey(d, k) ==> r == d + [Entry(k, v)]
    ensures |r| >= |d| && forall i :: 0 <= i < |d| ==> r[i].key == d[i].key
    ensures Unique(d) ==> Unique(r)
  {
    match IndexOf(d, k)
    case Some(i) =>
      ReplaceGet(d, k, v, i);
      ReplaceShape(d, k, v, i);
      d[i := Entry(k, v)]
    case None =>
      AppendGet(d, k, v);
      AppendShape(d, k, v);
      d + [Entry(k, v)]
  }

  lemma ReplaceGet<V>(d: Dict<V>, k: string, v: V, i: nat)
    requires IndexOf(d, k) == Some(i)
    ensures Get(d[i := Entry(k, v)], k) == Some(v)
    ensures forall k' :: k' != k ==> Get(d[i := Entry(k, v)], k') == Get(d, k')
  {
    var r := d[i := Entry(k, v)];
    FirstIndex(r, k, i);
    forall k' | k' != k ensures Get(r, k') == Get(d, k') {
      SameIndex(d, r, k');
    }
  }

  lemma ReplaceShape<V>(d: Dict<V>, k: string, v: V, i: nat)
    requires IndexOf(d, k) == Some(i)
    ensures Keys(d[i := Entry(k, v)]) == Keys(d)
    ensures forall j :: 0 <= j < |d| ==> d[i := Entry(k, v)][j].key == d[j].key
    ensures Unique(d) ==> Unique(d[i := Entry(k, v)])
  {
    var r := d[i := Entry(k, v)];
    assert forall j :: 0 <= j < |d| ==> r[j].key == d[j].key;
    assert Keys(r) == Keys(d);
  }

  lemma AppendGet<V>(d: Dict<V>, k: string, v: V)
    requires !HasKey(d, k)
    ensures Get(d + [Entry(k, v)], k) == Some(v)
    ensures forall k' :: k' != k ==> Get(d + [Entry(k, v)], k') == Get(d, k')
  {
    var r := d + [Entry(k, v)];
    FirstIndex(r, k, |d|);
    forall k' | k' != k ensures Get(r, k') == Get(d, k') {
      SameIndex(d, r, k');
    }
  }

  lemma AppendShape<V>(d: Dict<V>, k: string, v: V)
    requires !HasKey(d, k)
    ensures forall j :: 0 <= j < |d| ==> (d + [Entry(k, v)])[j].key == d[j].key
    ensures Unique(d) ==> Unique(d + [Entry(k, v)])
  {
    var r := d + [Entry(k, v)];
    forall j | 0 <= j < |d| ensures r[j] == d[j] {}
  }

  lemma FirstIndex<V>(d: Dict<V>, k: string, i: nat)
    requires i < |d| && d[i].key == k
    requires forall j :: 0 <= j < i ==> d[j].key != k
    ensures IndexOf(d, k) == Some(i)
  {
    assert HasKey(d, k);
  }

  /** Two dicts that agree on where `k` sits agree on `IndexOf(_, k)`. */
  lemma SameIndex<V>(d: Dict<V>, e: Dict<V>, k: string)
    requires forall i :: 0 <= i < |d| && i < |e| ==> (d[i].key == k <==> e[i].key == k)
    requires forall i :: |d| <= i < |e| ==> e[i].key != k
    requires forall i :: |e| <= i < |d| ==> d[i].key != k
    ensures IndexOf(d, k) == IndexOf(e, k)
  {
    match IndexOf(d, k)
    case None =>
    case Some(i) =>
  }

  /** The value of the last item of `ps` whose key is `k`. */
  function LastWith<V>(ps: seq<Entry<V>>, k: string): (r: Option<V>)
    ensures r.None? <==> !HasKey(ps, k)
    ensures r.Some? ==> exists i :: 0 <= i < |ps| && ps[i] == Entry(k, r.value) &&
                                    forall j :: i < j < |ps| ==> ps[j].key != k
  {
    if ps == [] then None
    else if ps[|ps| - 1].key == k then Some(ps[|ps| - 1].value)
    else
      var r := LastWith(ps[..|ps| - 1], k);
      assert forall i :: 0 <= i < |ps| - 1 ==> ps[..|ps| - 1][i] == ps[i];
      r
  }

  /** `for k, v in ps: d[k] = v`: the last assignment to a key wins, and a key
      never assigned keeps its value from `d`. */
  function PutAll<V>(d: Dict<V>, ps: seq<Entry<V>>): (r: Dict<V>)
    ensures forall k :: Get(r, k) == if LastWith(ps, k).Some? then LastWith(ps, k) else Get(d, k)
    ensures Unique(d) ==> Unique(r)
    decreases |ps|
  {
    if ps == [] then d
    else Put(PutAll(d, ps[..|ps| - 1]), ps[|ps| - 1].key, ps[|ps| - 1].value)
  }

  /** Inserting the items of a dict with distinct keys into a dict that holds
      none of them appends them in order. */
  lemma {:induction false} PutAllFresh<V>(d: Dict<V>, e: Dict<V>)
    requires Unique(d + e)
    ensures PutAll(d, e) == d + e
    decreases |e|
  {
    if e != [] {
      var s := d + e;
      var init := e[..|e| - 1];
      var last := e[|e| - 1];
      assert s[..|s| - 1] == d + init;
      UniquePrefix(s, |s| - 1);
      PutAllFresh(d, init);
      LastKeyFresh(s);
      assert s[|s| - 1] == last;
      assert d + init + [Entry(last.key, last.value)] == s;
    }
  }

  lemma UniquePrefix<V>(s: Dict<V>, n: nat)
    requires Unique(s) && n <= |s|
    ensures Unique(s[..n])
  {
    forall i, j | 0 <= i < j < n ensures s[..n][i].key != s[..n][j].key {
      assert s[..n][i] == s[i] && s[..n][j] == s[j];
    }
  }

  /** In a dict without repeated keys the last key is not among the others. */
  lemma LastKeyFresh<V>(s: Dict<V>)
    requires Unique(s) && s != []
    ensures !HasKey(s[..|s| - 1], s[|s| - 1].key)
  {
    var p := s[..|s| - 1];
    forall i | 0 <= i < |p| ensures p[i].key != s[|s| - 1].key {
      assert p[i] == s[i];
    }
  }
}

=== FILE: responseparser.dfy ===
/** The repair pipeline of `extract_and_parse_json`
    (`backend/utils/response_parser.py`). The regular-expression matches are
    inputs: the body of the first ```json fenced block, and for a text the
    `findall` results of the simple `"key": "value"` pattern and of the nested
    `"key": { ... }` pattern. `\w`, `\s` and `str.isdigit` are read over ASCII. */
module ResponseParser {
  import opened Wrappers
  import opened Text
  import opened PyDict

  // ---------------------------------------------------------------------------
  // normalize_field_name
  // ---------------------------------------------------------------------------

  predicate AllWord(s: string) { forall i :: 0 <= i < |s| ==> IsWord(s[i]) }
  predicate NoUpper(s: string) { forall i :: 0 <= i < |s| ==> !IsUpper(s[i]) }
  predicate WordOrSpace(s: string) { forall i :: 0 <= i < |s| ==> IsWord(s[i]) || IsSpace(s[i]) }
  predicate NoSpace(s: string) { forall i :: 0 <= i < |s| ==> !IsSpace(s[i]) }

  /** The strings `normalize_field_name` can return: lower-case letters,
      digits and single underscores, with no underscore at either end. */
  predicate NormalName(s: string) {
    && AllWord(s) && NoUpper(s) && NoDouble(s, '_')
    && (s == [] || (s[0] != '_' && s[|s| - 1] != '_'))
  }

  /** `re.sub(r'[^\w\s]', '', s)`. */
  function DropPunctuation(s: string): (r: string)
    ensures WordOrSpace(r)
    ensures NoUpper(s) ==> NoUpper(r)
    ensures WordOrSpace(s) ==> r == s
  {
    if s == [] then []
    else if IsWord(s[0]) || IsSpace(s[0]) then [s[0]] + DropPunctuation(s[1..])
    else DropPunctuation(s[1..])
  }

  /** `re.sub(r'\s+', '_', s)`; `inRun` says the character before `s` was
      whitespace already replaced. */
  function SpaceRuns(s: string, inRun: bool): (r: string)
    ensures WordOrSpace(s) ==> AllWord(r)
    ensures NoUpper(s) ==> NoUpper(r)
    ensures NoSpace(s) ==> r == s
  {
    if s == [] then []
    else if IsSpace(s[0]) then
      if inRun then SpaceRuns(s[1..], true) else "_" + SpaceRuns(s[1..], true)
    else [s[0]] + SpaceRuns(s[1..], false)
  }

  /** `re.sub(r'_+', '_', s)`; `inRun` says the character before `s` was an
      underscore already kept. */
  function UnderscoreRuns(s: string, inRun: bool): (r: string)
    ensures NoDouble(r, '_')
    ensures inRun && r != [] ==> r[0] != '_'
    ensures AllWord(s) ==> AllWord(r)
    ensures NoUpper(s) ==> NoUpper(r)
    ensures NoDouble(s, '_') && !(inRun && s != [] && s[0] == '_') ==> r == s
  {
    if s == [] then []
    else if s[0] == '_' && inRun then UnderscoreRuns(s[1..], true)
    else [s[0]] + UnderscoreRuns(s[1..], s[0] == '_')
  }

  /** Stripping keeps word-or-space and capital-free text so. */
  lemma StripWordOrSpace(a: string)
    requires WordOrSpace(a) && NoUpper(a)
    ensures WordOrSpace(Strip(a)) && NoUpper(Strip(a))
  {
    var k := StripSlice(a);
  }

  /** Stripping underscores off a capital-free word with no `__` leaves a
      normal name. */
  lemma StripUnderscoresNormal(c: string)
    requires AllWord(c) && NoUpper(c) && NoDouble(c, '_')
    ensures NormalName(StripChar(c, '_'))
  {
    var k := StripCharSlice(c, '_');
  }

  /** `normalize_field_name`. */
  function NormalizeFieldName(name: string): (r: string)
    ensures NormalName(r)
  {
    var a := DropPunctuation(Lower(name));
    StripWordOrSpace(a);
    var b := SpaceRuns(Strip(a), false);
    var c := UnderscoreRuns(b, false);
    StripUnderscoresNormal(c);
    StripChar(c, '_')
  }

  /** A name already in normal form is left as it is. */
  lemma NormalNameFixed(s: string)
    requires NormalName(s)
    ensures NormalizeFieldName(s) == s
  {
    PunctuationFree(s);
    SpacingFree(s);
    assert UnderscoreRuns(s, false) == s;
    UnderscoresFree(s);
  }

  lemma SpacingFree(s: string)
    requires NormalName(s)
    ensures SpaceRuns(Strip(s), false) == s
  {
    StripNoop(s);
  }

  lemma UnderscoresFree(s: string)
    requires NormalName(s)
    ensures StripChar(s, '_') == s
  {
    assert LStripChar(s, '_') == s;
    assert RStripChar(s, '_') == s;
  }

  lemma PunctuationFree(s: string)
    requires NormalName(s)
    ensures DropPunctuation(Lower(s)) == s
  {
    LowerNoop(s);
  }

  /** Normalising twice gives the same name as normalising once. */
  lemma NormalizeIdempotent(name: string)
    ensures NormalizeFieldName(NormalizeFieldName(name)) == NormalizeFieldName(name)
  {
    NormalNameFixed(NormalizeFieldName(name));
  }

  // ---------------------------------------------------------------------------
  // is_related_field
  // ---------------------------------------------------------------------------

  function Quoted(s: string): string { "\"" + s + "\"" }

  /** `i` is where `pat` first occurs in `s`. */
  predicate FirstAt(s: string, pat: string, i: nat) {
    OccursAt(s, pat, i) && forall j: nat :: j < i ==> !OccursAt(s, pat, j)
  }

  /** `s.find(pat)` returns exactly the first occurrence. */
  lemma FindIsFirst(s: string, pat: string)
    ensures forall i: nat :: FirstAt(s, pat, i) <==> Find(s, pat) == Some(i)
  {}

  /** `is_related_field`. */
  function IsRelatedField(entityId: string, fieldKey: string, text: string): (b: bool)
    ensures b ==> Contains(text, Quoted(entityId)) && Contains(text, Quoted(fieldKey))
    ensures entityId == fieldKey ==> (b <==> Contains(text, Quoted(entityId)))
  {
    match (Find(text, Quoted(entityId)), Find(text, Quoted(fieldKey)))
    case (Some(e), Some(f)) => -500 < e - f < 500
    case _ => false
  }

  /** Relatedness does not depend on which token is the entity. */
  lemma RelatedSymmetric(a: string, b: string, text: string)
    ensures IsRelatedField(a, b, text) == IsRelatedField(b, a, text)
  {}

  /** A field is related to an entity iff both quoted tokens occur in the text
      and their first occurrences are less than 500 characters apart; a missing
      token means unrelated. */
  lemma RelatedFieldMeaning(entityId: string, fieldKey: string, text: string)
    ensures !Contains(text, Quoted(entityId)) || !Contains(text, Quoted(fieldKey)) ==> !IsRelatedField(entityId, fieldKey, text)
    ensures IsRelatedField(entityId, fieldKey, text) <==>
      exists i: nat, j: nat :: FirstAt(text, Quoted(entityId), i) && FirstAt(text, Quoted(fieldKey), j) && -500 < i - j < 500
  {
    FindIsFirst(text, Quoted(entityId));
    FindIsFirst(text, Quoted(fieldKey));
    match (Find(text, Quoted(entityId)), Find(text, Quoted(fieldKey)))
    case (Some(e), Some(f)) =>
      assert FirstAt(text, Quoted(entityId), e) && FirstAt(text, Quoted(fieldKey), f);
    case _ =>
  }

  // ---------------------------------------------------------------------------
  // generic_json_repair
  // ---------------------------------------------------------------------------

  /** A value held in `all_data`: a string, a nested object of strings, or the
      list the duplicate-key step would build. */
  datatype Value = Str(text: string) | Obj(fields: Dict<string>) | Many(items: seq<Value>)

  /** A value of the repaired top-level object: an item kept from `all_data`,
      or the "entities" list. */
  datatype Field = Plain(value: Value) | EntityList(entities: seq<Dict<Value>>)

  /** One match of the nested pattern: its key, and the simple matches inside
      its braces. */
  datatype NestedMatch = NestedMatch(key: string, pairs: seq<Entry<string>>)

  datatype Scan = Scan(simple: seq<Entry<string>>, nested: seq<NestedMatch>)

  function StrippedPairs(ps: seq<Entry<string>>): (r: seq<Entry<string>>)
    ensures |r| == |ps|
    ensures forall i :: 0 <= i < |ps| ==> r[i] == Entry(Strip(ps[i].key), Strip(ps[i].value))
  {
    seq(|ps|, i requires 0 <= i < |ps| => Entry(Strip(ps[i].key), Strip(ps[i].value)))
  }

  /** The step 1 assignments: stripped key to stripped string. */
  function SimpleItems(ps: seq<Entry<string>>): (r: seq<Entry<Value>>)
    ensures |r| == |ps|
    ensures forall i :: 0 <= i < |ps| ==> r[i] == Entry(Strip(ps[i].key), Str(Strip(ps[i].value)))
  {
    seq(|ps|, i requires 0 <= i < |ps| => Entry(Strip(ps[i].key), Str(Strip(ps[i].value))))
  }

  /** The step 2 assignments: stripped key to the object of its stripped
      inner pairs. */
  function NestedItems(ns: seq<NestedMatch>): (r: seq<Entry<Value>>)
    ensures |r| == |ns|
    ensures forall i :: 0 <= i < |ns| ==> r[i].key == Strip(ns[i].key) && r[i].value.Obj?
  {
    seq(|ns|, i requires 0 <= i < |ns| => Entry(Strip(ns[i].key), Obj(PutAll([], StrippedPairs(ns[i].pairs)))))
  }

  /** `later` if it is present, otherwise `earlier`. */
  function Override<V>(later: Option<V>, earlier: Option<V>): (r: Option<V>)
    ensures r.Some? <==> later.Some? || earlier.Some?
    ensures later.Some? ==> r == later
  {
    if later.Some? then later else earlier
  }

  /** Steps 1 and 2: `all_data`. A key holds the object of the last nested
      match with that key if there is one, otherwise the string of the last
      simple match with it. */
  function AllData(scan: Scan): (r: Dict<Value>)
    ensures Unique(r)
    ensures forall k :: Get(r, k) == Override(LastWith(NestedItems(scan.nested), k), LastWith(SimpleItems(scan.simple), k))
  {
    PutAll(PutAll([], SimpleItems(scan.simple)), NestedItems(scan.nested))
  }

  /** Step 3 over the items of `all_data`, with `counts` the number of times
      each key was seen. A key seen more than once would collect its values in
      a list (`organized_data[key] = []` on first sight, then `append`). */
  function Organize(items: Dict<Value>, counts: multiset<string>): (r: Dict<Value>)
    ensures Unique(r)
  {
    if items == [] then []
    else
      var org := Organize(items[..|items| - 1], counts);
      var e := items[|items| - 1];
      var cur: Option<Value> := Get(org, e.key);
      if counts[e.key] > 1 then
        match cur
        case Some(Many(xs)) => Put(org, e.key, Many(xs + [e.value]))
        case _ => Put(org, e.key, Many([e.value]))
      else Put(org, e.key, e.value)
  }

  /** Every key of a dict is counted once. */
  lemma {:induction false} UniqueCountsOne<V>(d: Dict<V>)
    requires Unique(d)
    ensures forall i :: 0 <= i < |d| ==> multiset(Keys(d))[d[i].key] == 1
  {
    if d != [] {
      var init := d[..|d| - 1];
      UniqueCountsOne(init);
      assert Keys(d) == Keys(init) + [d[|d| - 1].key];
      forall i | 0 <= i < |d| ensures multiset(Keys(d))[d[i].key] == 1 {
        if i < |d| - 1 {
          assert init[i] == d[i];
          assert d[i].key != d[|d| - 1].key;
        } else {
          assert d[i].key !in Keys(init);
        }
      }
    }
  }

  lemma {:induction false} OrganizeDistinct(items: Dict<Value>, counts: multiset<string>)
    requires Unique(items)
    requires forall i :: 0 <= i < |items| ==> counts[items[i].key] == 1
    ensures Organize(items, counts) == items
  {
    if items != [] {
      var n := |items| - 1;
      var init := items[..n];
      UniquePrefix(items, n);
      forall i | 0 <= i < |init| ensures counts[init[i].key] == 1 {
        assert init[i] == items[i];
      }
      OrganizeDistinct(init, counts);
      var e := items[n];
      LastKeyFresh(items);
      assert counts[e.key] == 1;
      assert Organize(items, counts) == Put(init, e.key, e.value);
      assert Put(init, e.key, e.value) == init + [Entry(e.key, e.value)];
      assert init + [e] == items;
    }
  }

  /** `all_data` is a dict, so every key count is 1: step 3 never builds a
      list and `organized_data` equals `all_data`. */
  lemma OrganizeIsIdentity(scan: Scan)
    ensures Organize(AllData(scan), multiset(Keys(AllData(scan)))) == AllData(scan)
  {
    UniqueCountsOne(AllData(scan));
    OrganizeDistinct(AllData(scan), multiset(Keys(AllData(scan))));
  }

  /** The items whose key is all digits (`digits`) or not (`!digits`), in
      order. */
  function Partition<V>(d: Dict<V>, digits: bool): (r: Dict<V>)
    ensures forall i :: 0 <= i < |r| ==> IsDigits(r[i].key) == digits && r[i] in d
    ensures forall i :: 0 <= i < |d| && IsDigits(d[i].key) == digits ==> d[i] in r
    ensures |r| <= |d|
  {
    if d == [] then []
    else if IsDigits(d[0].key) == digits then [d[0]] + Partition(d[1..], digits)
    else Partition(d[1..], digits)
  }

  // -- sorted() over strings ---------------------------------------------------

  /** Python's `<=` on `str`: code-point lexicographic order. */
  predicate LexLe(a: string, b: string)
    decreases |a|
  {
    a == [] || (b != [] && (a[0] < b[0] || (a[0] == b[0] && LexLe(a[1..], b[1..]))))
  }

  lemma {:induction false} LexTotal(a: string, b: string)
    ensures LexLe(a, b) || LexLe(b, a)
    decreases |a|
  {
    if a != [] && b != [] && a[0] == b[0] {
      LexTotal(a[1..], b[1..]);
    }
  }

  predicate Sorted(s: seq<string>) {
    forall i :: 0 <= i < |s| - 1 ==> LexLe(s[i], s[i + 1])
  }

  function Insert(x: string, s: seq<string>): (r: seq<string>)
    ensures |r| == |s| + 1
    ensures multiset(r) == multiset(s) + multiset{x}
    ensures r[0] == x || (s != [] && r[0] == s[0])
    ensures Sorted(s) ==> Sorted(r)
  {
    if s == [] then [x]
    else if LexLe(x, s[0]) then [x] + s
    else
      LexTotal(x, s[0]);
      var rest := Insert(x, s[1..]);
      assert s == [s[0]] + s[1..];
      [s[0]] + rest
  }

  /** `sorted(keys)`. */
  function SortStrings(s: seq<string>): (r: seq<string>)
    ensures multiset(r) == multiset(s)
    ensures Sorted(r)
  {
    if s == [] then []
    else
      assert s == [s[0]] + s[1..];
      Insert(s[0], SortStrings(s[1..]))
  }

  /** Numbered keys sort as text, not as numbers: "10" comes before "9". */
  lemma SortIsTextual()
    ensures SortStrings(["9", "10"]) == ["10", "9"]
  {
    assert LexLe("10", "9");
    assert !LexLe("9", "10");
    assert SortStrings(["10"]) == ["10"];
  }

  // -- entities ------------------------------------------------------------------
  //
  // The loops that build the entities and the top level are stated for any key
  // normaliser `norm`; `GenericJsonRepair` runs them with `NormalizeFieldName`.

  /** `not any(is_related_field(num, key, text) for num in nums)`. */
  predicate Unrelated(nums: seq<string>, key: string, text: string) {
    forall n :: 0 <= n < |nums| ==> !IsRelatedField(nums[n], key, text)
  }

  /** `k` is the normalised name of a field of `regular` related to `num`. */
  predicate RelatedName(num: string, regular: Dict<Value>, text: string, norm: string -> string, k: string) {
    exists i :: 0 <= i < |regular| && IsRelatedField(num, regular[i].key, text) && norm(regular[i].key) == k
  }

  /** `k` is the normalised name of a field of `regular` related to none of
      `nums`. */
  predicate TopName(nums: seq<string>, regular: Dict<Value>, text: string, norm: string -> string, k: string) {
    exists i :: 0 <= i < |regular| && Unrelated(nums, regular[i].key, text) && norm(regular[i].key) == k
  }

  lemma RelatedNameSnoc(num: string, regular: Dict<Value>, text: string, norm: string -> string, k: string)
    requires regular != []
    ensures RelatedName(num, regular, text, norm, k) <==>
      || RelatedName(num, regular[..|regular| - 1], text, norm, k)
      || (IsRelatedField(num, regular[|regular| - 1].key, text) && norm(regular[|regular| - 1].key) == k)
  {
    var init := regular[..|regular| - 1];
    if RelatedName(num, regular, text, norm, k) {
      var i :| 0 <= i < |regular| && IsRelatedField(num, regular[i].key, text) && norm(regular[i].key) == k;
      if i < |init| {
        assert init[i] == regular[i];
      }
    }
    if RelatedName(num, init, text, norm, k) {
      var i :| 0 <= i < |init| && IsRelatedField(num, init[i].key, text) && norm(init[i].key) == k;
      assert regular[i] == init[i];
    }
  }

  lemma TopNameSnoc(nums: seq<string>, regular: Dict<Value>, text: string, norm: string -> string, k: string)
    requires regular != []
    ensures TopName(nums, regular, text, norm, k) <==>
      || TopName(nums, regular[..|regular| - 1], text, norm, k)
      || (Unrelated(nums, regular[|regular| - 1].key, text) && norm(regular[|regular| - 1].key) == k)
  {
    var init := regular[..|regular| - 1];
    if TopName(nums, regular, text, norm, k) {
      var i :| 0 <= i < |regular| && Unrelated(nums, regular[i].key, text) && norm(regular[i].key) == k;
      if i < |init| {
        assert init[i] == regular[i];
      }
    }
    if TopName(nums, init, text, norm, k) {
      var i :| 0 <= i < |init| && Unrelated(nums, init[i].key, text) && norm(init[i].key) == k;
      assert regular[i] == init[i];
    }
  }

  /** After `d[k] = v` the keys are those of `d` plus `k`. */
  lemma PutKeys<V>(d: Dict<V>, k: string, v: V)
    ensures forall k' :: HasKey(Put(d, k, v), k') <==> HasKey(d, k') || k' == k
  {
    forall k' ensures HasKey(Put(d, k, v), k') <==> HasKey(d, k') || k' == k {
      if k' != k {
        assert Get(Put(d, k, v), k') == Get(d, k');
      }
    }
  }

  /** `d[k] = v` leaves the item at a position holding another key alone. */
  lemma PutKeepsOther<V>(d: Dict<V>, k: string, v: V, i: nat)
    requires i < |d| && d[i].key != k
    ensures i < |Put(d, k, v)| && Put(d, k, v)[i] == d[i]
  {}

  /** The entity's starting items: its id, and the numbered value when it is a
      string. */
  function BaseEntity(num: string, value: Option<Value>): (r: Dict<Value>)
    ensures |r| >= 1 && r[0] == Entry("id", Str(num))
    ensures forall k :: HasKey(r, k) <==> k == "id" || (k == "primary_value" && value.Some? && value.value.Str?)
  {
    match value
    case Some(Str(s)) =>
      var r := [Entry("id", Str(num)), Entry("primary_value", Str(s))];
      assert r[1].key == "primary_value";
      r
    case _ => [Entry("id", Str(num))]
  }

  /** The inner loop over `regular_items` for one entity: every field related
      to `num` is stored under its normalised name; the items already there
      keep their places. */
  function AddRelated(e: Dict<Value>, num: string, regular: Dict<Value>, text: string, norm: string -> string): (r: Dict<Value>)
    ensures |r| >= |e| && forall i :: 0 <= i < |e| ==> r[i].key == e[i].key
    decreases |regular|
  {
    if regular == [] then e
    else
      var acc := AddRelated(e, num, regular[..|regular| - 1], text, norm);
      var f := regular[|regular| - 1];
      if IsRelatedField(num, f.key, text) then Put(acc, norm(f.key), f.value) else acc
  }

  /** The entity's keys are its starting keys plus the normalised names of the
      fields related to it, and nothing else. */
  lemma {:induction false} AddRelatedKeys(e: Dict<Value>, num: string, regular: Dict<Value>, text: string, norm: string -> string)
    ensures forall k :: HasKey(AddRelated(e, num, regular, text, norm), k) <==> HasKey(e, k) || RelatedName(num, regular, text, norm, k)
    decreases |regular|
  {
    if regular != [] {
      var init := regular[..|regular| - 1];
      AddRelatedKeys(e, num, init, text, norm);
      var acc := AddRelated(e, num, init, text, norm);
      var f := regular[|regular| - 1];
      if IsRelatedField(num, f.key, text) {
        PutKeys(acc, norm(f.key), f.value);
      }
      forall k ensures HasKey(AddRelated(e, num, regular, text, norm), k) <==> HasKey(e, k) || RelatedName(num, regular, text, norm, k) {
        RelatedNameSnoc(num, regular, text, norm, k);
      }
    }
  }

  /** The first item keeps its value unless a related field lands on its key. */
  lemma {:induction false} AddRelatedKeepsFirst(e: Dict<Value>, num: string, regular: Dict<Value>, text: string, norm: string -> string)
    requires |e| >= 1
    requires !RelatedName(num, regular, text, norm, e[0].key)
    ensures AddRelated(e, num, regular, text, norm)[0] == e[0]
    decreases |regular|
  {
    if regular != [] {
      var init := regular[..|regular| - 1];
      RelatedNameSnoc(num, regular, text, norm, e[0].key);
      AddRelatedKeepsFirst(e, num, init, text, norm);
      var acc := AddRelated(e, num, init, text, norm);
      var f := regular[|regular| - 1];
      if IsRelatedField(num, f.key, text) {
        PutKeepsOther(acc, norm(f.key), f.value, 0);
      }
    }
  }

  /** The field key `key` is related to `num` and normalised to `k`. */
  predicate RelatedTo(num: string, key: string, text: string, norm: string -> string, k: string) {
    IsRelatedField(num, key, text) && norm(key) == k
  }

  /** The value of the last field of `regular` that is related to `num` and
      is normalised to `k`. */
  function LastRelated(num: string, regular: Dict<Value>, text: string, norm: string -> string, k: string): (r: Option<Value>)
    ensures r.None? <==> !RelatedName(num, regular, text, norm, k)
    decreases |regular|
  {
    if regular == [] then None
    else
      var f := regular[|regular| - 1];
      RelatedNameSnoc(num, regular, text, norm, k);
      if RelatedTo(num, f.key, text, norm, k) then Some(f.value)
      else LastRelated(num, regular[..|regular| - 1], text, norm, k)
  }

  /** Field `i` is related to `num`, is normalised to `k`, and no later field
      is. */
  predicate IsLastRelated(num: string, regular: Dict<Value>, text: string, norm: string -> string, k: string, i: nat)
    requires i < |regular|
  {
    && RelatedTo(num, regular[i].key, text, norm, k)
    && forall j :: i < j < |regular| ==> !RelatedTo(num, regular[j].key, text, norm, k)
  }

  /** The field `LastRelated` reports is related to `num`, normalised to `k`,
      and followed by no other such field. */
  lemma {:induction false} LastRelatedMeaning(num: string, regular: Dict<Value>, text: string, norm: string -> string, k: string)
    returns (i: nat)
    requires LastRelated(num, regular, text, norm, k).Some?
    ensures i < |regular| && IsLastRelated(num, regular, text, norm, k, i)
    ensures regular[i].value == LastRelated(num, regular, text, norm, k).value
    decreases |regular|
  {
    var n := |regular| - 1;
    if RelatedTo(num, regular[n].key, text, norm, k) {
      i := n;
    } else {
      var init := regular[..n];
      assert LastRelated(num, regular, text, norm, k) == LastRelated(num, init, text, norm, k);
      i := LastRelatedMeaning(num, init, text, norm, k);
      assert regular[i] == init[i];
      forall j | i < j < |regular| ensures !RelatedTo(num, regular[j].key, text, norm, k) {
        if j < n {
          assert regular[j] == init[j];
        }
      }
    }
  }

  /** What an entity holds under `k` after the inner loop, read off the fields
      directly. */
  function RelatedValue(e: Dict<Value>, num: string, regular: Dict<Value>, text: string, norm: string -> string, k: string): Option<Value> {
    match LastRelated(num, regular, text, norm, k)
    case Some(v) => Some(v)
    case None => Get(e, k)
  }

  /** An entity key holds the value of the last field related to the entity
      and normalised to it; every other key keeps its starting value. */
  lemma {:induction false} AddRelatedValues(e: Dict<Value>, num: string, regular: Dict<Value>, text: string, norm: string -> string)
    ensures forall k :: Get(AddRelated(e, num, regular, text, norm), k) == RelatedValue(e, num, regular, text, norm, k)
    decreases |regular|
  {
    if regular != [] {
      var init := regular[..|regular| - 1];
      AddRelatedValues(e, num, init, text, norm);
    }
  }

  /** The entity for the numbered key `num`: "id" first, holding `num` unless
      a related field is also normalised to "id". */
  function Entity(num: string, numbered: Dict<Value>, regular: Dict<Value>, text: string, norm: string -> string): (r: Dict<Value>)
    ensures |r| >= 1 && r[0].key == "id"
    ensures !RelatedName(num, regular, text, norm, "id") ==> r[0].value == Str(num)
  {
    var base := BaseEntity(num, Get(numbered, num));
    if RelatedName(num, regular, text, norm, "id") then AddRelated(base, num, regular, text, norm)
    else
      AddRelatedKeepsFirst(base, num, regular, text, norm);
      AddRelated(base, num, regular, text, norm)
  }

  /** An entity holds exactly its id, "primary_value" when the numbered value
      is a string, and the normalised names of the fields related to it. */
  lemma EntityKeys(num: string, numbered: Dict<Value>, regular: Dict<Value>, text: string, norm: string -> string)
    ensures forall k :: HasKey(Entity(num, numbered, regular, text, norm), k) <==>
      || k == "id"
      || (k == "primary_value" && Get(numbered, num).Some? && Get(numbered, num).value.Str?)
      || RelatedName(num, regular, text, norm, k)
  {
    AddRelatedKeys(BaseEntity(num, Get(numbered, num)), num, regular, text, norm);
  }

  /** An entity's values: a related field's name holds the last related
      field's value; otherwise "id" holds the number and "primary_value" the
      numbered string. */
  lemma EntityValues(num: string, numbered: Dict<Value>, regular: Dict<Value>, text: string, norm: string -> string)
    ensures forall k :: Get(Entity(num, numbered, regular, text, norm), k)
                     == RelatedValue(BaseEntity(num, Get(numbered, num)), num, regular, text, norm, k)
  {
    AddRelatedValues(BaseEntity(num, Get(numbered, num)), num, regular, text, norm);
  }

  /** The entities in the order of their sorted ids. */
  function Entities(nums: seq<string>, numbered: Dict<Value>, regular: Dict<Value>, text: string, norm: string -> string)
    : (r: seq<Dict<Value>>)
    ensures |r| == |nums|
    ensures forall i :: 0 <= i < |nums| ==> r[i] == Entity(nums[i], numbered, regular, text, norm)
  {
    seq(|nums|, i requires 0 <= i < |nums| => Entity(nums[i], numbered, regular, text, norm))
  }

  /** The last loop: a regular item related to no numbered key goes to the
      top level under its normalised name. */
  function TopLevel(start: Dict<Field>, regular: Dict<Value>, nums: seq<string>, text: string, norm: string -> string)
    : (r: Dict<Field>)
    ensures |r| >= |start| && forall i :: 0 <= i < |start| ==> r[i].key == start[i].key
    decreases |regular|
  {
    if regular == [] then start
    else
      var acc := TopLevel(start, regular[..|regular| - 1], nums, text, norm);
      var f := regular[|regular| - 1];
      if !(exists n :: 0 <= n < |nums| && IsRelatedField(nums[n], f.key, text)) then
        Put(acc, norm(f.key), Plain(f.value))
      else acc
  }

  lemma {:induction false} TopLevelKeys(start: Dict<Field>, regular: Dict<Value>, nums: seq<string>, text: string, norm: string -> string)
    ensures forall k :: HasKey(TopLevel(start, regular, nums, text, norm), k) <==> HasKey(start, k) || TopName(nums, regular, text, norm, k)
    decreases |regular|
  {
    if regular != [] {
      var init := regular[..|regular| - 1];
      TopLevelKeys(start, init, nums, text, norm);
      var acc := TopLevel(start, init, nums, text, norm);
      var f := regular[|regular| - 1];
      if Unrelated(nums, f.key, text) {
        PutKeys(acc, norm(f.key), Plain(f.value));
      }
      forall k ensures HasKey(TopLevel(start, regular, nums, text, norm), k) <==> HasKey(start, k) || TopName(nums, regular, text, norm, k) {
        TopNameSnoc(nums, regular, text, norm, k);
      }
    }
  }

  /** The first top-level item keeps its value unless an unrelated field lands
      on its key. */
  lemma {:induction false} TopLevelKeepsFirst(start: Dict<Field>, regular: Dict<Value>, nums: seq<string>, text: string, norm: string -> string)
    requires |start| >= 1
    requires !TopName(nums, regular, text, norm, start[0].key)
    ensures TopLevel(start, regular, nums, text, norm)[0] == start[0]
    decreases |regular|
  {
    if regular != [] {
      var init := regular[..|regular| - 1];
      TopNameSnoc(nums, regular, text, norm, start[0].key);
      TopLevelKeepsFirst(start, init, nums, text, norm);
      var acc := TopLevel(start, init, nums, text, norm);
      var f := regular[|regular| - 1];
      if Unrelated(nums, f.key, text) {
        PutKeepsOther(acc, norm(f.key), Plain(f.value), 0);
      }
    }
  }

  /** The value of the last field of `regular` that is related to none of
      `nums` and is normalised to `k`. */
  function LastTop(nums: seq<string>, regular: Dict<Value>, text: string, norm: string -> string, k: string): (r: Option<Value>)
    ensures r.None? <==> !TopName(nums, regular, text, norm, k)
    decreases |regular|
  {
    if regular == [] then None
    else
      var f := regular[|regular| - 1];
      TopNameSnoc(nums, regular, text, norm, k);
      if Unrelated(nums, f.key, text) && norm(f.key) == k then Some(f.value)
      else LastTop(nums, regular[..|regular| - 1], text, norm, k)
  }

  /** Field `i` is related to none of `nums`, is normalised to `k`, and no
      later field is. */
  predicate IsLastTop(nums: seq<string>, regular: Dict<Value>, text: string, norm: string -> string, k: string, i: nat)
    requires i < |regular|
  {
    && Unrelated(nums, regular[i].key, text) && norm(regular[i].key) == k
    && forall j :: i < j < |regular| ==> !(Unrelated(nums, regular[j].key, text) && norm(regular[j].key) == k)
  }

  /** The field `LastTop` reports is unrelated, normalised to `k`, and followed
      by no other such field. */
  lemma {:induction false} LastTopMeaning(nums: seq<string>, regular: Dict<Value>, text: string, norm: string -> string, k: string)
    returns (i: nat)
    requires LastTop(nums, regular, text, norm, k).Some?
    ensures i < |regular| && IsLastTop(nums, regular, text, norm, k, i)
    ensures regular[i].value == LastTop(nums, regular, text, norm, k).value
    decreases |regular|
  {
    var n := |regular| - 1;
    var f := regular[n];
    if Unrelated(nums, f.key, text) && norm(f.key) == k {
      i := n;
    } else {
      var init := regular[..n];
      i := LastTopMeaning(nums, init, text, norm, k);
      assert regular[i] == init[i];
      forall j | i < j < |regular| ensures !(Unrelated(nums, regular[j].key, text) && norm(regular[j].key) == k) {
        if j < n {
          assert regular[j] == init[j];
          assert !(Unrelated(nums, init[j].key, text) && norm(init[j].key) == k);
        }
      }
    }
  }

  /** What the top level holds under `k` after the last loop, read off the
      fields directly. */
  function TopValue(start: Dict<Field>, regular: Dict<Value>, nums: seq<string>, text: string, norm: string -> string, k: string): Option<Field> {
    match LastTop(nums, regular, text, norm, k)
    case Some(v) => Some(Plain(v))
    case None => Get(start, k)
  }

  /** A top-level key holds the value of the last unrelated field normalised
      to it; every other key keeps its starting value. */
  lemma {:induction false} TopLevelValues(start: Dict<Field>, regular: Dict<Value>, nums: seq<string>, text: string, norm: string -> string)
    ensures forall k :: Get(TopLevel(start, regular, nums, text, norm), k) == TopValue(start, regular, nums, text, norm, k)
    decreases |regular|
  {
    if regular != [] {
      var init := regular[..|regular| - 1];
      TopLevelValues(start, init, nums, text, norm);
    }
  }

  /** `numbered_items` and `regular_items` of the scanned text. */
  function Numbered(scan: Scan): Dict<Value> { Partition(AllData(scan), true) }
  function Regular(scan: Scan): Dict<Value> { Partition(AllData(scan), false) }

  /** The "entities" item, present when some key is numbered. */
  function EntitiesItem(text: string, scan: Scan): (r: Dict<Field>)
    ensures forall k :: HasKey(r, k) <==> k == "entities" && Numbered(scan) != []
  {
    if Numbered(scan) == [] then []
    else
      var ents := Entities(SortStrings(Keys(Numbered(scan))), Numbered(scan), Regular(scan), text, NormalizeFieldName);
      SingleKey("entities", EntityList(ents));
      [Entry("entities", EntityList(ents))]
  }

  lemma SingleKey<V>(k0: string, v: V)
    ensures forall k :: HasKey([Entry(k0, v)], k) <==> k == k0
  {
    assert [Entry(k0, v)][0].key == k0;
  }

  /** `generic_json_repair(text)` for the matches `scan` found in `text`. The
      list-building branch of step 3 is never taken (`OrganizeIsIdentity`), so
      the items are split straight from `all_data`. The result holds exactly
      "entities" (when some key is numbered) and the normalised names of the
      fields related to no numbered key, each holding the value of the last
      such field; together with `EntityKeys`, a field lands in the entities it
      is related to or at the top level, never both. */
  function GenericJsonRepair(text: string, scan: Scan): (r: Dict<Field>)
    ensures Numbered(scan) != [] ==> |r| >= 1 && r[0].key == "entities"
    ensures forall k :: HasKey(r, k) <==>
      (k == "entities" && Numbered(scan) != []) || TopName(Keys(Numbered(scan)), Regular(scan), text, NormalizeFieldName, k)
    ensures forall k :: TopName(Keys(Numbered(scan)), Regular(scan), text, NormalizeFieldName, k) ==>
      Get(r, k) == Some(Plain(LastTop(Keys(Numbered(scan)), Regular(scan), text, NormalizeFieldName, k).value))
  {
    TopLevelKeys(EntitiesItem(text, scan), Regular(scan), Keys(Numbered(scan)), text, NormalizeFieldName);
    TopLevelValues(EntitiesItem(text, scan), Regular(scan), Keys(Numbered(scan)), text, NormalizeFieldName);
    TopLevel(EntitiesItem(text, scan), Regular(scan), Keys(Numbered(scan)), text, NormalizeFieldName)
  }

  /** There is an "entities" list exactly when some key of `all_data` is all
      digits. */
  lemma HasEntitiesIff(scan: Scan)
    ensures Numbered(scan) != [] <==> exists i :: 0 <= i < |AllData(scan)| && IsDigits(AllData(scan)[i].key)
  {
    if Numbered(scan) != [] {
      assert Numbered(scan)[0] in AllData(scan);
    }
  }

  /** Unless an unrelated field is itself normalised to "entities", the first
      item holds one entity per numbered key, in sorted (textual) order. */
  lemma RepairEntities(text: string, scan: Scan)
    requires Numbered(scan) != []
    requires !TopName(Keys(Numbered(scan)), Regular(scan), text, NormalizeFieldName, "entities")
    ensures GenericJsonRepair(text, scan)[0].value
         == EntityList(Entities(SortStrings(Keys(Numbered(scan))), Numbered(scan), Regular(scan), text, NormalizeFieldName))
  {
    TopLevelKeepsFirst(EntitiesItem(text, scan), Regular(scan), Keys(Numbered(scan)), text, NormalizeFieldName);
  }

  // ---------------------------------------------------------------------------
  // extract_and_parse_json
  // ---------------------------------------------------------------------------

  /** `text.replace('\\n', '\n').replace('\\"', '"')`. */
  function CleanEscapes(s: string): (r: string)
    ensures !Contains(s, "\\n") && !Contains(s, "\\\"") ==> r == s
  {
    Replace(Replace(s, "\\n", "\n"), "\\\"", "\"")
  }

  /** `extract_and_parse_json`. `block` is the body of the first ```json fenced
      block, if any; `scan(t)` is what the two patterns find in `t`. The
      repaired object is serialised by `json.dumps` and read back by
      `json.loads`, which returns it unchanged, so the parse-failure branch is
      never taken. */
  function ExtractAndParseJson(block: Option<string>, scan: string -> Scan): (r: Option<Dict<Field>>)
    ensures r.None? <==> block.None?
    ensures r.Some? ==>
      var text := CleanEscapes(block.value);
      r.value == GenericJsonRepair(text, scan(text))
    ensures r.Some? ==>
      var text := CleanEscapes(block.value);
      var sc := scan(text);
      forall k :: HasKey(r.value, k) <==>
        (k == "entities" && Numbered(sc) != []) || TopName(Keys(Numbered(sc)), Regular(sc), text, NormalizeFieldName, k)
    ensures r.Some? ==>
      var text := CleanEscapes(block.value);
      var sc := scan(text);
      forall k :: TopName(Keys(Numbered(sc)), Regular(sc), text, NormalizeFieldName, k) ==>
        Get(r.value, k) == Some(Plain(LastTop(Keys(Numbered(sc)), Regular(sc), text, NormalizeFieldName, k).value))
    ensures r.Some? ==>
      var text := CleanEscapes(block.value);
      var sc := scan(text);
      Numbered(sc) != [] && !TopName(Keys(Numbered(sc)), Regular(sc), text, NormalizeFieldName, "entities") ==>
        r.value[0] == Entry("entities", EntityList(Entities(SortStrings(Keys(Numbered(sc))), Numbered(sc), Regular(sc), text, NormalizeFieldName)))
  {
    match block
    case None => None
    case Some(content) =>
      var text := CleanEscapes(content);
      if Numbered(scan(text)) != [] && !TopName(Keys(Numbered(scan(text))), Regular(scan(text)), text, NormalizeFieldName, "entities") then
        RepairEntities(text, scan(text));
        Some(GenericJsonRepair(text, scan(text)))
      else Some(GenericJsonRepair(text, scan(text)))
  }
}

=== FILE: streamlittool.dfy ===
/** The data logic of the Streamlit annotation page
    (`annotation_tool/data_annoation_streamlit.py`): `filter_files`, the
    navigation buttons, saving, the flag toggle and the consensus form. One
    button press is one step; widget values are parameters. */
module StreamlitTool {
  import opened Wrappers
  import opened Text
  import opened PyDict
  import opened Annotation

  /** `filter_files`: the named filter's sub-list, or every file for an
      unknown name. */
  function FilterFiles(data: Data, files: seq<string>, user: string, name: string): (r: seq<string>)
    requires Covers(data, files)
    ensures IsSubseq(r, files)
    ensures ParseFilter(name).None? ==> r == files
    ensures ParseFilter(name).Some? ==> r == Select(data, files, user, ParseFilter(name).value)
  {
    match ParseFilter(name)
    case None =>
      SubseqRefl(files);
      files
    case Some(All) =>
      SelectAll(data, files, user);
      SubseqRefl(files);
      files
    case Some(f) => Select(data, files, user, f)
  }

  /** Every name, known or not, gives an order-preserving sub-list; "all" and
      unknown names give the whole list. */
  lemma FilterFilesAll(data: Data, files: seq<string>, user: string, name: string)
    requires Covers(data, files)
    requires ParseFilter(name).None? || name == "all"
    ensures FilterFiles(data, files, user, name) == files
  {
    SelectAll(data, files, user);
  }

  /** Changing the filter recomputes the list and goes back to the first
      image; choosing the same filter changes nothing. */
  function ChangeFilter(data: Data, files: seq<string>, user: string, current: string, chosen: string,
                        filtered: seq<string>, index: int): (r: (string, seq<string>, int))
    requires Covers(data, files)
    ensures chosen == current ==> r == (current, filtered, index)
    ensures chosen != current ==> r == (chosen, FilterFiles(data, files, user, chosen), 0)
  {
    if chosen != current then (chosen, FilterFiles(data, files, user, chosen), 0)
    else (current, filtered, index)
  }

  // ---------------------------------------------------------------------------
  // Navigation
  // ---------------------------------------------------------------------------

  /** The navigation buttons. `GoTo` carries the number-input value, which the
      widget bounds to 1..total. "Save & Next" and "Skip" move like "Next". */
  datatype NavButton = First | Prev | Next | Last | GoTo(target: int) | SaveAndNext | Skip

  /** The index after one button, with `total` filtered images. */
  function Navigate(index: int, total: nat, b: NavButton): (r: int)
    ensures (0 <= index < total && (b.GoTo? ==> 1 <= b.target <= total)) ==> 0 <= r < total
    ensures b == Last && total == 0 ==> r == -1
    ensures b in {Next, SaveAndNext, Skip} && index == total - 1 ==> r == index
    ensures b == Prev && index == 0 ==> r == 0
    ensures b == First ==> r == 0
    ensures b == Prev && index > 0 ==> r == index - 1
    ensures b in {Next, SaveAndNext, Skip} && index < total - 1 ==> r == index + 1
    ensures b == Last ==> r == total - 1
    ensures b.GoTo? ==> r == b.target - 1
  {
    match b
    case First => 0
    case Prev => if index > 0 then index - 1 else index
    case Next | SaveAndNext | Skip => if index < total - 1 then index + 1 else index
    case Last => total - 1
    case GoTo(t) => t - 1
  }

  /** "Next" then "Prev" returns to the same image when there is a next one. */
  lemma NextThenPrev(index: int, total: nat)
    requires 0 <= index < total - 1
    ensures Navigate(Navigate(index, total, Next), total, Prev) == index
  {}

  /** "Save Current" and "Save & Next" on the shown image: store the stripped
      text for the current user with the reading `now`, then `save_data`
      stamps every record with the reading its loop takes for it. */
  function SaveCurrent(data: Data, filtered: seq<string>, index: int, user: string, input: string,
                       confidence: string, now: string, stamp: Stamps): (r: Data)
    requires 0 <= index < |filtered| && Covers(data, filtered)
    ensures r.Keys == data.Keys
    ensures Get(r[filtered[index]].users, user) == Some(Saved(input, confidence, now))
    ensures forall u :: u != user ==> Get(r[filtered[index]].users, u) == Get(data[filtered[index]].users, u)
    ensures r[filtered[index]] == SaveAnnotation(data[filtered[index]], user, input, confidence, now).(modified := stamp(filtered[index]))
    ensures r[filtered[index]].modified == stamp(filtered[index])
    ensures r[filtered[index]].(users := data[filtered[index]].users, modified := data[filtered[index]].modified)
         == data[filtered[index]]
    ensures forall g :: g in data && g != filtered[index] ==> r[g] == data[g].(modified := stamp(g))
  {
    SaveFile(data, filtered[index], user, input, confidence, now, stamp)
  }

  // ---------------------------------------------------------------------------
  // Flags
  // ---------------------------------------------------------------------------

  /** `any(f.startswith(current_user) for f in flags)`. */
  predicate AnyStartsWith(flags: seq<string>, user: string) {
    exists i :: 0 <= i < |flags| && StartsWith(flags[i], user)
  }

  /** The un-flag comprehension as written: drops every flag starting with the
      user name. */
  function NotStartingWith(user: string): string -> bool {
    f => !StartsWith(f, user)
  }

  /** `toggle_flag` as written. `reason` is the confirmed reason, `None` when
      the flag is not confirmed. In the running page `reason` is always `None`:
      "Confirm Flag" is drawn only inside `toggle_flag`, which runs only on the
      run where "Flag/Unflag" was clicked, and clicking "Confirm Flag" starts a
      new run in which "Flag/Unflag" reads False. The `Some` case states the
      append branch as the code writes it. */
  function ToggleFlagAsWritten(flags: seq<string>, user: string, reason: Option<string>): (r: seq<string>)
    ensures !AnyStartsWith(flags, user) && reason.Some? ==> r == flags + [FlagEntry(user, reason.value)]
    ensures !AnyStartsWith(flags, user) && reason.None? ==> r == flags
    ensures AnyStartsWith(flags, user) ==> IsSubseq(r, flags) && !AnyStartsWith(r, user)
  {
    if !AnyStartsWith(flags, user) then
      match reason
      case Some(why) => flags + [FlagEntry(user, why)]
      case None => flags
    else FilterSeq(flags, NotStartingWith(user))
  }

  /** What the running page can do: with no confirmed reason, a toggle never
      adds a flag. An unflagged file stays as it is, and a flagged one loses
      flags. */
  lemma PageNeverAddsFlag(flags: seq<string>, user: string)
    ensures IsSubseq(ToggleFlagAsWritten(flags, user, None), flags)
    ensures !AnyStartsWith(flags, user) ==> ToggleFlagAsWritten(flags, user, None) == flags
    ensures AnyStartsWith(flags, user) ==> |ToggleFlagAsWritten(flags, user, None)| < |flags|
  {
    if !AnyStartsWith(flags, user) {
      SubseqRefl(flags);
    } else {
      SubseqLength(ToggleFlagAsWritten(flags, user, None), flags);
    }
  }

  /** The prefix test reads another user's flag as the current user's when the
      other name extends it: "ann" toggling on a file "anna" flagged removes
      Anna's flag instead of adding her own, which `ToggleFlag` does not. */
  lemma PrefixUnflagsOthers()
    ensures ToggleFlagAsWritten(["anna: blurry"], "ann", Some("faded")) == []
    ensures ToggleFlag(["anna: blurry"], "ann", Some("faded")) == ["anna: blurry", "ann: faded"]
  {
    var flags := ["anna: blurry"];
    assert StartsWith(flags[0], "ann");
    assert FilterSeq(flags, NotStartingWith("ann")) == [];
    assert !IsOwnFlag(flags[0], "ann") by {
      assert flags[0][3] != ("ann" + ":")[3];
    }
    assert !HasOwnFlag(flags, "ann");
    assert Strip("faded") == "faded" by {
      StripNoop("faded");
    }
    assert FlagEntry("ann", "faded") == "ann" + ": " + "faded";
    assert ToggleFlag(flags, "ann", Some("faded")) == flags + [FlagEntry("ann", "faded")];
    assert "ann" + ": " + "faded" == "ann: faded";
  }

  // ---------------------------------------------------------------------------
  // Consensus
  // ---------------------------------------------------------------------------

  /** The radio options: "user: text" for each annotator in order. */
  function ConsensusChoices(users: Dict<UserEntry>): (r: seq<string>)
    ensures |r| == |users|
    ensures forall i :: 0 <= i < |users| ==> r[i] == users[i].key + ": " + users[i].value.text.GetOr("")
  {
    seq(|users|, i requires 0 <= i < |users| => users[i].key + ": " + users[i].value.text.GetOr(""))
  }

  /** `choice.split(": ", 1)[-1]`: what follows the first ": ", or the whole
      string when there is none. */
  function AfterSeparator(choice: string): (r: string)
    ensures !Contains(choice, ": ") ==> r == choice
    ensures Contains(choice, ": ") ==> |r| <= |choice| - 2
  {
    match Find(choice, ": ")
    case None => choice
    case Some(i) => choice[i + 2..]
  }

  /** For a user name without ": " the chosen option gives back exactly that
      user's text. */
  lemma ChoiceRecoversText(user: string, text: string)
    requires !Contains(user, ": ")
    ensures AfterSeparator(user + ": " + text) == text
  {
    var s := user + ": " + text;
    assert OccursAt(s, ": ", |user|);
    forall j: nat | j < |user| ensures !OccursAt(s, ": ", j) {
      if j + 1 < |user| {
        assert !OccursAt(user, ": ", j);
        assert s[j..j + 2] == user[j..j + 2];
      } else {
        assert s[j + 1] == ':';
      }
    }
    assert Find(s, ": ") == Some(|user|);
    assert s[|user| + 2..] == text;
  }

  /** "Save Consensus": the stripped custom text wins over the chosen option;
      an empty result stores nothing. The form exists only with more than one
      annotator. */
  function SetConsensus(fd: FileData, custom: string, choice: string): (r: FileData)
    ensures |fd.users| <= 1 ==> r == fd
    ensures r.(consensus := fd.consensus) == fd
    ensures |fd.users| > 1 && Strip(custom) != [] ==> r.consensus == Strip(custom)
    ensures |fd.users| > 1 && Strip(custom) == [] && AfterSeparator(choice) != [] ==> r.consensus == AfterSeparator(choice)
    ensures r.consensus != fd.consensus ==> r.consensus != []
  {
    if |fd.users| > 1 then
      var text := if Strip(custom) != [] then Strip(custom) else AfterSeparator(choice);
      if text != [] then fd.(consensus := text) else fd
    else fd
  }

  /** With a blank custom field, choosing the option of an annotator whose name
      has no ": " stores that annotator's text when it is non-empty. */
  lemma ChosenTextBecomesConsensus(fd: FileData, custom: string, i: nat)
    requires |fd.users| > 1 && i < |fd.users| && Strip(custom) == []
    requires !Contains(fd.users[i].key, ": ")
    requires fd.users[i].value.text.GetOr("") != []
    ensures SetConsensus(fd, custom, ConsensusChoices(fd.users)[i]).consensus == fd.users[i].value.text.GetOr("")
  {
    ChoiceRecoversText(fd.users[i].key, fd.users[i].value.text.GetOr(""));
  }
}

=== FILE: testclients.dfy ===
/** The client-side logic of the end-to-end test scripts: the status-polling
    loop shared by the OCR and form-parsing clients
    (`tests/test_ocr_pipeline_e2e.py.py`, `tests/test_qwen_form_parsing.py`),
    the binary search that sizes overlay text, the choice of input images and
    the success/failure tallies. HTTP replies, the file system and font
    metrics are parameters. */
module TestClients {
  import opened Wrappers
  import opened Text

  const PollInterval: nat := 30
  const MaxPollAttempts: nat := 10
  const MinFontSize: int := 8
  const MaxFontSize: int := 300
  const OutputSuffix: string := "_detected"
  const ImageExtensions: seq<string> := [".png", ".jpg", ".jpeg", ".bmp", ".tiff"]

  // ---------------------------------------------------------------------------
  // Polling a job
  // ---------------------------------------------------------------------------

  /** What one status request yields: a 200 reply with the body's `status`
      (absent when the key is missing), another HTTP status code, or an
      exception from the request or the JSON decoding. */
  datatype Reply = Answer(status: Option<string>, body: string) | HttpError(code: int) | Failed(message: string)

  /** A 200 reply that ends the polling: "completed", "error", and every
      status the client does not know (including a missing one). */
  predicate Settles(rep: Reply) {
    rep.Answer? && rep.status != Some("pending") && rep.status != Some("processing")
  }

  /** A 200 reply saying the job is still queued or running. */
  predicate Waiting(rep: Reply) {
    rep.Answer? && (rep.status == Some("pending") || rep.status == Some("processing"))
  }

  /** The trace of one polling run: the returned payload (`None` for Python's
      `None`), how many requests were sent and how many pauses were taken. */
  datatype PollRun = PollRun(result: Option<Reply>, requests: nat, sleeps: nat)

  /** Polling from `attempt` on, with `server(k)` the reply to the k-th
      request: a settling reply is returned at once; a reply that does not
      settle pauses and retries until the last attempt. */
  function PollFrom(server: nat -> Reply, attempt: nat, maxAttempts: nat): (r: PollRun)
    requires 1 <= attempt
    ensures attempt > maxAttempts <==> r.requests == 0
    ensures attempt <= maxAttempts ==> r.requests <= maxAttempts - attempt + 1
    ensures r.requests > 0 ==> r.sleeps == r.requests - 1
    decreases maxAttempts - attempt
  {
    if attempt > maxAttempts then PollRun(None, 0, 0)
    else
      var rep := server(attempt);
      if Settles(rep) then PollRun(Some(rep), 1, 0)
      else if attempt == maxAttempts then PollRun(if Waiting(rep) then Some(rep) else None, 1, 0)
      else
        var rest := PollFrom(server, attempt + 1, maxAttempts);
        PollRun(rest.result, rest.requests + 1, rest.sleeps + 1)
  }

  /** What a polling run from `attempt` does: every request before the last
      got a reply that does not settle; a settling last reply is returned; a
      last reply that does not settle is the one at `maxAttempts`, returned
      when it is waiting and `None` when it failed. There is one pause
      between consecutive requests. */
  lemma {:induction false} PollFromMeaning(server: nat -> Reply, attempt: nat, maxAttempts: nat)
    requires 1 <= attempt
    ensures var r := PollFrom(server, attempt, maxAttempts);
      && (attempt > maxAttempts ==> r == PollRun(None, 0, 0))
      && (attempt <= maxAttempts ==>
        var last := attempt + r.requests - 1;
        && 1 <= r.requests <= maxAttempts - attempt + 1
        && r.sleeps == r.requests - 1
        && (forall k :: attempt <= k < last ==> !Settles(server(k)))
        && (Settles(server(last)) ==> r.result == Some(server(last)))
        && (!Settles(server(last)) ==>
              last == maxAttempts && r.result == if Waiting(server(last)) then Some(server(last)) else None))
    decreases maxAttempts - attempt
  {
    if attempt < maxAttempts && !Settles(server(attempt)) {
      PollFromMeaning(server, attempt + 1, maxAttempts);
    }
  }

  /** `poll_ocr_job_status` and `poll_job_status`: the two clients classify
      replies the same way ("completed" and "error" are returned alike), so
      one loop models both. */
  method PollJobStatus(server: nat -> Reply, maxAttempts: nat) returns (result: Option<Reply>, requests: nat, sleeps: nat)
    ensures PollRun(result, requests, sleeps) == PollFrom(server, 1, maxAttempts)
    ensures requests <= maxAttempts
    ensures result.Some? ==> result.value == server(requests) && result.value.Answer?
  {
    requests, sleeps := 0, 0;
    var attempt := 1;
    while attempt <= maxAttempts
      invariant 1 <= attempt && (attempt <= maxAttempts || attempt == 1)
      invariant requests == attempt - 1 && sleeps == requests
      invariant forall k :: 1 <= k < attempt ==> !Settles(server(k))
      invariant attempt <= maxAttempts ==>
        var rest := PollFrom(server, attempt, maxAttempts);
        PollFrom(server, 1, maxAttempts) == PollRun(rest.result, rest.requests + requests, rest.sleeps + sleeps)
      decreases maxAttempts - attempt
    {
      var rep := server(attempt);
      requests := requests + 1;
      if Settles(rep) {
        RunFacts(server, maxAttempts);
        return Some(rep), requests, sleeps;
      } else if attempt < maxAttempts {
        sleeps := sleeps + 1;
      } else {
        result := if Waiting(rep) then Some(rep) else None;
        RunFacts(server, maxAttempts);
        return result, requests, sleeps;
      }
      attempt := attempt + 1;
    }
    result := None;
  }

  /** A polling run sends at most `maxAttempts` requests, and a payload it
      returns is a 200 reply to its last request. */
  lemma RunFacts(server: nat -> Reply, maxAttempts: nat)
    ensures var r := PollFrom(server, 1, maxAttempts);
      && r.requests <= maxAttempts
      && (r.result.Some? ==> r.result.value == server(r.requests) && r.result.value.Answer?)
  {
    PollFromMeaning(server, 1, maxAttempts);
  }

  /** The client's schedule: at most ten requests and at most 270 seconds of
      pauses, whatever the server answers. */
  lemma PollingIsBounded(server: nat -> Reply)
    ensures PollFrom(server, 1, MaxPollAttempts).requests <= MaxPollAttempts
    ensures PollFrom(server, 1, MaxPollAttempts).sleeps * PollInterval <= 270
  {
    PollFromMeaning(server, 1, MaxPollAttempts);
  }

  /** A job that keeps answering "pending" is given up on after the last
      attempt, with the last pending payload, not with `None`. */
  lemma PendingJobTimesOut(server: nat -> Reply, maxAttempts: nat)
    requires maxAttempts >= 1
    requires forall k :: 1 <= k <= maxAttempts ==> server(k) == Answer(Some("pending"), "")
    ensures PollFrom(server, 1, maxAttempts) == PollRun(Some(Answer(Some("pending"), "")), maxAttempts, maxAttempts - 1)
  {
    var r := PollFrom(server, 1, maxAttempts);
    PollFromMeaning(server, 1, maxAttempts);
    assert !Settles(server(r.requests));
  }

  /** `None` comes back exactly when the server never settled and the last
      request failed. */
  lemma NoneIffLastRequestFailed(server: nat -> Reply, maxAttempts: nat)
    requires maxAttempts >= 1
    ensures PollFrom(server, 1, maxAttempts).result.None? <==>
      (forall k :: 1 <= k <= maxAttempts ==> !Settles(server(k))) && !server(maxAttempts).Answer?
  {
    var r := PollFrom(server, 1, maxAttempts);
    PollFromMeaning(server, 1, maxAttempts);
    if r.result.None? {
      assert !Settles(server(r.requests));
    } else if Settles(server(r.requests)) {
      assert !(forall k :: 1 <= k <= maxAttempts ==> !Settles(server(k)));
    }
  }

  /** `test_single_image`'s verdict: a submission that returned a non-empty
      job id, polled to a payload whose status is "completed". */
  function SingleImageVerdict(jobId: Option<string>, server: nat -> Reply, maxAttempts: nat): (ok: bool)
    ensures ok ==> jobId.Some? && jobId.value != []
    ensures ok <==> (
      && jobId.Some? && jobId.value != []
      && exists k :: 1 <= k <= maxAttempts && server(k).Answer? && server(k).status == Some("completed")
                     && (forall j :: 1 <= j < k ==> !Settles(server(j))))
  {
    match jobId
    case None => false
    case Some(id) =>
      if id == [] then false
      else
        var run := PollFrom(server, 1, maxAttempts);
        PollFromMeaning(server, 1, maxAttempts);
        var okay := run.result.Some? && run.result.value.Answer? && run.result.value.status == Some("completed");
        assert okay ==> Settles(server(run.requests));
        okay
  }

  // ---------------------------------------------------------------------------
  // Sizing the overlay text
  // ---------------------------------------------------------------------------

  /** Larger fonts fit no better than smaller ones on [lo, hi]. */
  predicate Monotone(fits: int -> bool, lo: int, hi: int) {
    forall a, b :: lo <= a <= b <= hi && fits(b) ==> fits(a)
  }

  /** `fit_text_to_box`, returning the size of the font it chooses.
      `fits(size)` says the text's bounding box at that size lies within the
      box; a size whose measuring raises is treated like one that does not fit,
      as the source does. Despite its documentation the routine never returns
      `None` for drawable text: with no size fitting it falls back to the
      smallest. */
  method FitTextToBox(text: string, width: int, height: int, minSize: int, maxSize: int, fits: int -> bool)
    returns (r: Option<int>)
    ensures r.None? <==> text == [] || width <= 0 || height <= 0
    ensures r.Some? ==> r.value == minSize || (minSize <= r.value <= maxSize && fits(r.value))
    ensures r.Some? && Monotone(fits, minSize, maxSize) ==>
      forall s :: r.value < s <= maxSize ==> !fits(s)
    ensures r.Some? && Monotone(fits, minSize, maxSize) ==>
      (fits(r.value) && r.value <= maxSize) || (r.value == minSize && forall s :: minSize <= s <= maxSize ==> !fits(s))
  {
    if text == [] || width <= 0 || height <= 0 {
      return None;
    }
    var best: Option<int> := None;
    var lo, hi := minSize, maxSize;
    while lo <= hi
      invariant minSize <= lo && hi <= maxSize
      invariant best.Some? ==> best.value == lo - 1 && minSize <= best.value <= maxSize && fits(best.value)
      invariant best.None? ==> lo == minSize
      invariant Monotone(fits, minSize, maxSize) ==> forall s :: minSize <= s < lo ==> fits(s)
      invariant Monotone(fits, minSize, maxSize) ==> forall s :: hi < s <= maxSize ==> !fits(s)
      decreases hi - lo
    {
      var mid := (lo + hi) / 2;
      if fits(mid) {
        best := Some(mid);
        lo := mid + 1;
      } else {
        hi := mid - 1;
      }
    }
    r := if best.Some? then best else Some(minSize);
  }

  // ---------------------------------------------------------------------------
  // Choosing the input images
  // ---------------------------------------------------------------------------

  /** `f.lower().endswith(IMAGE_EXTENSIONS)`. */
  predicate HasImageExtension(f: string) {
    exists i :: 0 <= i < |ImageExtensions| && EndsWith(Lower(f), ImageExtensions[i])
  }

  /** The OCR client's test for an input: an image name that is not one of its
      own annotated outputs. */
  predicate IsTestImage(f: string) {
    HasImageExtension(f) && !Contains(f, OutputSuffix)
  }

  /** `os.path.join(a, b)` on POSIX. */
  function PathJoin(a: string, b: string): (r: string)
    ensures EndsWith(r, b)
  {
    if StartsWith(b, "/") then b
    else if a == [] || EndsWith(a, "/") then a + b
    else a + "/" + b
  }

  /** The kept directory entries, in listing order. */
  function ImageNames(names: seq<string>): (r: seq<string>)
    ensures |r| <= |names|
    ensures forall i :: 0 <= i < |r| ==> IsTestImage(r[i]) && r[i] in names
    ensures forall f :: f in names && IsTestImage(f) ==> f in r
  {
    if names == [] then []
    else if IsTestImage(names[0]) then [names[0]] + ImageNames(names[1..])
    else ImageNames(names[1..])
  }

  /** `get_test_images` of the OCR client: `listing` is `os.listdir(dir)`,
      `None` when the directory does not exist. */
  function GetTestImages(dir: string, listing: Option<seq<string>>): (r: seq<string>)
    ensures listing.None? ==> r == []
    ensures listing.Some? ==> |r| == |ImageNames(listing.value)|
    ensures listing.Some? ==> forall i :: 0 <= i < |r| ==> r[i] == PathJoin(dir, ImageNames(listing.value)[i])
  {
    match listing
    case None => []
    case Some(names) =>
      var kept := ImageNames(names);
      seq(|kept|, i requires 0 <= i < |kept| => PathJoin(dir, kept[i]))
  }

  /** The annotated copy the client writes, `<stem>_detected.png`, is never
      taken as an input on a later run. */
  lemma OutputsAreSkipped(stem: string)
    ensures ImageNames([stem + OutputSuffix + ".png"]) == []
  {
    var f := stem + OutputSuffix + ".png";
    assert f[|stem|..|stem| + |OutputSuffix|] == OutputSuffix;
    assert OccursAt(f, OutputSuffix, |stem|);
  }

  /** The image entries of an `os.walk` listing, in visiting order. */
  function WalkEntries(walk: seq<(string, string)>): (r: seq<(string, string)>)
    ensures |r| <= |walk|
    ensures forall i :: 0 <= i < |r| ==> HasImageExtension(r[i].1) && r[i] in walk
    ensures forall e :: e in walk && HasImageExtension(e.1) ==> e in r
  {
    if walk == [] then []
    else if HasImageExtension(walk[0].1) then [walk[0]] + WalkEntries(walk[1..])
    else WalkEntries(walk[1..])
  }

  /** `get_test_images` of the form client: `walk` lists the `(root, file)`
      pairs of `os.walk` in visiting order; only the extension is tested. */
  function WalkImages(walk: seq<(string, string)>): (r: seq<string>)
    ensures |r| == |WalkEntries(walk)|
    ensures forall i :: 0 <= i < |r| ==> r[i] == PathJoin(WalkEntries(walk)[i].0, WalkEntries(walk)[i].1)
  {
    var kept := WalkEntries(walk);
    seq(|kept|, i requires 0 <= i < |kept| => PathJoin(kept[i].0, kept[i].1))
  }

  /** The form client, unlike the OCR client, does take the OCR client's
      annotated outputs as inputs. */
  lemma FormClientTakesOutputs(stem: string)
    ensures WalkImages([("", stem + OutputSuffix + ".png")]) == [stem + OutputSuffix + ".png"]
  {
    var f := stem + OutputSuffix + ".png";
    var low := Lower(f);
    assert low[|low| - 4..] == ".png";
    assert EndsWith(low, ImageExtensions[0]);
  }

  // ---------------------------------------------------------------------------
  // Tallies
  // ---------------------------------------------------------------------------

  /** The sequential loops of `run_batch_processing` and `run_test_suite`:
      one verdict per image, with a five-second pause between images. */
  method RunSequential(verdicts: seq<bool>) returns (successful: nat, failed: nat, pauses: nat)
    ensures successful + failed == |verdicts|
    ensures successful == multiset(verdicts)[true]
    ensures failed == multiset(verdicts)[false]
    ensures pauses == if verdicts == [] then 0 else |verdicts| - 1
  {
    successful, failed, pauses := 0, 0, 0;
    var i := 0;
    while i < |verdicts|
      invariant 0 <= i <= |verdicts|
      invariant successful == multiset(verdicts[..i])[true]
      invariant failed == multiset(verdicts[..i])[false]
      invariant successful + failed == i
      invariant pauses == if i == |verdicts| && i > 0 then i - 1 else i
    {
      assert verdicts[..i + 1] == verdicts[..i] + [verdicts[i]];
      if verdicts[i] {
        successful := successful + 1;
      } else {
        failed := failed + 1;
      }
      if i + 1 < |verdicts| {
        pauses := pauses + 1;
      }
      i := i + 1;
    }
    assert verdicts[..i] == verdicts;
  }

  /** The concurrent branch of `run_batch_processing`: futures complete in any
      order, and a future that raised counts as a failure. */
  method CollectConcurrent(completed: seq<Outcome<bool>>) returns (successful: nat, failed: nat)
    ensures successful + failed == |completed|
    ensures successful == multiset(completed)[Returned(true)]
  {
    successful, failed := 0, 0;
    var i := 0;
    while i < |completed|
      invariant 0 <= i <= |completed|
      invariant successful == multiset(completed[..i])[Returned(true)]
      invariant successful + failed == i
    {
      assert completed[..i + 1] == completed[..i] + [completed[i]];
      match completed[i] {
        case Returned(ok) =>
          if ok {
            successful := successful + 1;
          } else {
            failed := failed + 1;
          }
        case Raised(_) =>
          failed := failed + 1;
      }
      i := i + 1;
    }
    assert completed[..i] == completed;
  }

  /** The tally does not depend on the order in which the futures complete. */
  lemma CompletionOrderIrrelevant(a: seq<Outcome<bool>>, b: seq<Outcome<bool>>)
    requires multiset(a) == multiset(b)
    ensures |a| == |b| && multiset(a)[Returned(true)] == multiset(b)[Returned(true)]
  {
    assert |multiset(a)| == |multiset(b)|;
  }
}

=== FILE: text.dfy ===
/** The string primitives the Python code leans on (`str.strip`, `str.lower`,
    `str.title`, `str.isdigit`, `str.splitlines`, `str.find`, `str.replace`,
    `", ".join`, f-string rendering of integers), modelled over ASCII: a
    character outside ASCII is neither a letter, a digit nor whitespace. */
module Text {
  import opened Wrappers

  // ---------------------------------------------------------------------------
  // Character classes
  // ---------------------------------------------------------------------------

  /** `str.isspace` restricted to ASCII: space, \t, \n, \v, \f, \r and the
      separators \x1c..\x1f. This is also what `\s` matches in a `str` regex. */
  predicate IsSpace(c: char) {
    c == ' ' || c == '\t' || c == '\n' || c == '\r' || c == '\U{0b}' || c == '\U{0c}'
    || c == '\U{1c}' || c == '\U{1d}' || c == '\U{1e}' || c == '\U{1f}'
  }

  /** The ASCII line boundaries of `str.splitlines` (\x1f is whitespace but not a boundary). */
  predicate IsLineBreak(c: char) {
    c == '\n' || c == '\r' || c == '\U{0b}' || c == '\U{0c}'
    || c == '\U{1c}' || c == '\U{1d}' || c == '\U{1e}'
  }

  lemma LineBreakIsSpace(c: char)
    ensures IsLineBreak(c) ==> IsSpace(c)
  {}

  predicate IsDigit(c: char) { '0' <= c <= '9' }
  predicate IsUpper(c: char) { 'A' <= c <= 'Z' }
  predicate IsLower(c: char) { 'a' <= c <= 'z' }
  predicate IsLetter(c: char) { IsUpper(c) || IsLower(c) }

  /** `\w` over ASCII: letters, digits and the underscore. */
  predicate IsWord(c: char) { IsLetter(c) || IsDigit(c) || c == '_' }

  function LowerChar(c: char): (r: char)
    ensures !IsUpper(r)
    ensures IsLetter(c) <==> IsLetter(r)
    ensures !IsLetter(c) ==> r == c
  {
    if IsUpper(c) then (c as int + 32) as char else c
  }

  function UpperChar(c: char): (r: char)
    ensures !IsLower(r)
    ensures IsLetter(c) <==> IsLetter(r)
    ensures !IsLetter(c) ==> r == c
  {
    if IsLower(c) then (c as int - 32) as char else c
  }

  // ---------------------------------------------------------------------------
  // Case mapping
  // ---------------------------------------------------------------------------

  /** `str.lower()`. */
  function Lower(s: string): (r: string)
    ensures |r| == |s|
    ensures forall i :: 0 <= i < |s| ==> r[i] == LowerChar(s[i])
  {
    if s == [] then [] else [LowerChar(s[0])] + Lower(s[1..])
  }

  /** `str.title()`: a letter that follows a non-letter (or starts the string)
      is upper-cased, every other letter is lower-cased. */
  function Title(s: string): (r: string)
    ensures |r| == |s|
  {
    TitleAfter(s, false)
  }

  function TitleAfter(s: string, prevCased: bool): (r: string)
    ensures |r| == |s|
    ensures forall i :: 0 <= i < |s| ==> IsLetter(r[i]) == IsLetter(s[i])
    ensures forall i :: 0 <= i < |s| && !IsLetter(s[i]) ==> r[i] == s[i]
    ensures |s| > 0 ==> if prevCased then !IsUpper(r[0]) else !IsLower(r[0])
    ensures forall i :: 0 < i < |s| && IsLetter(s[i - 1]) ==> !IsUpper(r[i])
    ensures forall i :: 0 < i < |s| && !IsLetter(s[i - 1]) ==> !IsLower(r[i])
  {
    if s == [] then []
    else
      var c := if prevCased then LowerChar(s[0]) else UpperChar(s[0]);
      [c] + TitleAfter(s[1..], IsLetter(s[0]))
  }

  /** `str.title` ignores the input's casing. */
  /** Title-casing changes only the casing. */
  lemma {:induction false} LowerTitle(s: string, prevCased: bool)
    ensures Lower(TitleAfter(s, prevCased)) == Lower(s)
  {
    if s != [] {
      LowerTitle(s[1..], IsLetter(s[0]));
      assert TitleAfter(s, prevCased)[1..] == TitleAfter(s[1..], IsLetter(s[0]));
    }
  }

  lemma {:induction false} TitleIgnoresCase(s: string, prevCased: bool)
    ensures TitleAfter(Lower(s), prevCased) == TitleAfter(s, prevCased)
  {
    if s != [] {
      assert Lower(s)[1..] == Lower(s[1..]);
      TitleIgnoresCase(s[1..], IsLetter(s[0]));
    }
  }

  // ---------------------------------------------------------------------------
  // Stripping
  // ---------------------------------------------------------------------------

  /** `r` is the piece of `s` that starts at `k`. */
  predicate SliceAt(r: string, s: string, k: nat) {
    k + |r| <= |s| && forall i :: 0 <= i < |r| ==> r[i] == s[k + i]
  }

  lemma SliceCompose(r: string, l: string, s: string, j: nat, k: nat)
    requires SliceAt(r, l, j) && SliceAt(l, s, k)
    ensures SliceAt(r, s, k + j)
  {
    forall i | 0 <= i < |r| ensures r[i] == s[k + j + i] {
      assert r[i] == l[j + i];
    }
  }

  function LStrip(s: string): (r: string)
    ensures r == [] || !IsSpace(r[0])
    ensures |r| <= |s|
  {
    if s != [] && IsSpace(s[0]) then LStrip(s[1..]) else s
  }

  /** `LStrip(s)` is what follows a whitespace-only head of `s`. */
  lemma {:induction false} LStripSlice(s: string)
    ensures SliceAt(LStrip(s), s, |s| - |LStrip(s)|)
    ensures forall i :: 0 <= i < |s| - |LStrip(s)| ==> IsSpace(s[i])
    decreases |s|
  {
    if s != [] && IsSpace(s[0]) {
      var t := s[1..];
      var l := LStrip(t);
      assert LStrip(s) == l;
      LStripSlice(t);
      SliceCompose(l, t, s, |t| - |l|, 1);
      assert 1 + (|t| - |l|) == |s| - |l|;
      forall i | 1 <= i < |s| - |l| ensures IsSpace(s[i]) {
        assert s[i] == t[i - 1];
      }
    }
  }

  function RStrip(s: string): (r: string)
    ensures r == [] || !IsSpace(r[|r| - 1])
    ensures |r| <= |s|
  {
    if s != [] && IsSpace(s[|s| - 1]) then RStrip(s[..|s| - 1]) else s
  }

  /** `RStrip(s)` is what precedes a whitespace-only tail of `s`. */
  lemma {:induction false} RStripSlice(s: string)
    ensures SliceAt(RStrip(s), s, 0)
    ensures forall i :: |RStrip(s)| <= i < |s| ==> IsSpace(s[i])
    decreases |s|
  {
    if s != [] && IsSpace(s[|s| - 1]) {
      var p := s[..|s| - 1];
      RStripSlice(p);
      SliceCompose(RStrip(p), p, s, 0, 0);
      forall i | |RStrip(s)| <= i < |s| - 1 ensures IsSpace(s[i]) {
        assert s[i] == p[i];
      }
    }
  }

  /** `str.strip()`: drop leading and trailing whitespace. */
  function Strip(s: string): (r: string)
    ensures r == [] || (!IsSpace(r[0]) && !IsSpace(r[|r| - 1]))
    ensures |r| <= |s|
    ensures (forall i :: 0 <= i < |s| ==> IsSpace(s[i])) <==> r == []
  {
    LStripSlice(s);
    RStripSlice(LStrip(s));
    RStrip(LStrip(s))
  }

  /** A string that has no leading or trailing whitespace is a fixpoint of `Strip`. */
  lemma StripNoop(s: string)
    requires s == [] || (!IsSpace(s[0]) && !IsSpace(s[|s| - 1]))
    ensures Strip(s) == s
  {}

  /** `Strip(s)` is the piece of `s` that starts at `k`. */
  lemma StripSlice(s: string) returns (k: nat)
    ensures SliceAt(Strip(s), s, k)
  {
    var l := LStrip(s);
    LStripSlice(s);
    RStripSlice(l);
    k := |s| - |l|;
    SliceCompose(RStrip(l), l, s, 0, k);
  }

  /** Stripping keeps a break-free string break-free. */
  lemma StripNoLineBreak(s: string)
    requires NoLineBreak(s)
    ensures NoLineBreak(Strip(s))
  {
    var k := StripSlice(s);
  }

  /** A string without capitals is a fixpoint of `Lower`. */
  lemma {:induction false} LowerNoop(s: string)
    requires forall i :: 0 <= i < |s| ==> !IsUpper(s[i])
    ensures Lower(s) == s
    decreases |s|
  {
    if s != [] {
      LowerNoop(s[1..]);
      assert [s[0]] + s[1..] == s;
    }
  }

  function LStripChar(s: string, ch: char): (r: string)
    ensures r == [] || r[0] != ch
    ensures |r| <= |s|
  {
    if s != [] && s[0] == ch then LStripChar(s[1..], ch) else s
  }

  lemma {:induction false} LStripCharSlice(s: string, ch: char)
    ensures SliceAt(LStripChar(s, ch), s, |s| - |LStripChar(s, ch)|)
    decreases |s|
  {
    if s != [] && s[0] == ch {
      var t := s[1..];
      LStripCharSlice(t, ch);
      SliceCompose(LStripChar(t, ch), t, s, |t| - |LStripChar(t, ch)|, 1);
    }
  }

  function RStripChar(s: string, ch: char): (r: string)
    ensures r == [] || r[|r| - 1] != ch
    ensures |r| <= |s|
  {
    if s != [] && s[|s| - 1] == ch then RStripChar(s[..|s| - 1], ch) else s
  }

  lemma {:induction false} RStripCharSlice(s: string, ch: char)
    ensures SliceAt(RStripChar(s, ch), s, 0)
    decreases |s|
  {
    if s != [] && s[|s| - 1] == ch {
      var p := s[..|s| - 1];
      RStripCharSlice(p, ch);
      SliceCompose(RStripChar(p, ch), p, s, 0, 0);
    }
  }

  /** No two adjacent copies of `ch`. */
  predicate NoDouble(s: string, ch: char) {
    forall k :: 0 <= k < |s| - 1 ==> !(s[k] == ch && s[k + 1] == ch)
  }

  /** A piece of a string without doubles has none either. */
  lemma SliceNoDouble(r: string, s: string, k: nat, ch: char)
    requires SliceAt(r, s, k) && NoDouble(s, ch)
    ensures NoDouble(r, ch)
  {
    forall j | 0 <= j < |r| - 1 ensures !(r[j] == ch && r[j + 1] == ch) {
      assert r[j] == s[k + j] && r[j + 1] == s[k + j + 1];
    }
  }

  /** Both ends stripped of `ch`, the rest is a piece of `s`. */
  lemma StripCharPiece(s: string, ch: char)
    ensures SliceAt(RStripChar(LStripChar(s, ch), ch), s, |s| - |LStripChar(s, ch)|)
  {
    var l := LStripChar(s, ch);
    LStripCharSlice(s, ch);
    RStripCharSlice(l, ch);
    SliceCompose(RStripChar(l, ch), l, s, 0, |s| - |l|);
  }

  /** `str.strip(ch)`: drop leading and trailing copies of one character. The
      result is a piece of the input and introduces no new doubles. */
  function StripChar(s: string, ch: char): (r: string)
    ensures r == [] || (r[0] != ch && r[|r| - 1] != ch)
    ensures NoDouble(s, ch) ==> NoDouble(r, ch)
  {
    var l := LStripChar(s, ch);
    var r := RStripChar(l, ch);
    RStripCharSlice(l, ch);
    StripCharPiece(s, ch);
    if NoDouble(s, ch) then SliceNoDouble(r, s, |s| - |l|, ch); r else r
  }

  /** `StripChar(s, ch)` is the piece of `s` that starts at `k`. */
  lemma StripCharSlice(s: string, ch: char) returns (k: nat)
    ensures SliceAt(StripChar(s, ch), s, k)
  {
    StripCharPiece(s, ch);
    assert StripChar(s, ch) == RStripChar(LStripChar(s, ch), ch);
    k := |s| - |LStripChar(s, ch)|;
  }

  // ---------------------------------------------------------------------------
  // Searching
  // ---------------------------------------------------------------------------

  predicate StartsWith(s: string, prefix: string) {
    |prefix| <= |s| && s[..|prefix|] == prefix
  }

  predicate EndsWith(s: string, suffix: string) {
    |suffix| <= |s| && s[|s| - |suffix|..] == suffix
  }

  predicate OccursAt(s: string, pat: string, i: nat) {
    i + |pat| <= |s| && s[i..i + |pat|] == pat
  }

  /** `pat in s`. */
  predicate Contains(s: string, pat: string) {
    exists i: nat :: i <= |s| && OccursAt(s, pat, i)
  }

  /** `s.find(pat)`: the lowest index of an occurrence, or None for Python's -1. */
  function Find(s: string, pat: string): (r: Option<nat>)
    ensures r.Some? ==> OccursAt(s, pat, r.value)
    ensures r.Some? ==> forall j: nat :: j < r.value ==> !OccursAt(s, pat, j)
    ensures r.None? <==> !Contains(s, pat)
  {
    FindFrom(s, pat, 0)
  }

  function FindFrom(s: string, pat: string, from: nat): (r: Option<nat>)
    requires from <= |s| + 1
    ensures r.Some? ==> from <= r.value && OccursAt(s, pat, r.value)
    ensures r.Some? ==> forall j: nat :: from <= j < r.value ==> !OccursAt(s, pat, j)
    ensures r.None? ==> forall j: nat :: from <= j ==> !OccursAt(s, pat, j)
    decreases |s| + 1 - from
  {
    if from + |pat| > |s| then None
    else if s[from..from + |pat|] == pat then Some(from)
    else FindFrom(s, pat, from + 1)
  }

  /** `str.isdigit()` over ASCII: non-empty and every character a digit. */
  predicate IsDigits(s: string) {
    |s| > 0 && forall i :: 0 <= i < |s| ==> IsDigit(s[i])
  }

  // ---------------------------------------------------------------------------
  // Splitting, joining, replacing
  // ---------------------------------------------------------------------------

  predicate NoLineBreak(s: string) {
    forall i :: 0 <= i < |s| ==> !IsLineBreak(s[i])
  }

  /** Index of the first line boundary, if any. */
  function FirstBreak(s: string): (r: Option<nat>)
    ensures r.Some? ==> r.value < |s| && IsLineBreak(s[r.value])
    ensures r.Some? ==> NoLineBreak(s[..r.value])
    ensures r.None? <==> NoLineBreak(s)
  {
    if s == [] then None
    else if IsLineBreak(s[0]) then Some(0)
    else
      match FirstBreak(s[1..])
      case None => None
      case Some(k) =>
        assert s[..k + 1] == [s[0]] + s[1..][..k];
        Some(k + 1)
  }

  /** `str.splitlines()`: "\r\n" is one boundary and no empty line follows a
      final boundary. */
  function SplitLines(s: string): (r: seq<string>)
    ensures forall k :: 0 <= k < |r| ==> NoLineBreak(r[k])
    ensures AllSpace(s) ==> forall k :: 0 <= k < |r| ==> AllSpace(r[k])
    ensures s == [] ==> r == []
    ensures s != [] && NoLineBreak(s) ==> r == [s]
    decreases |s|
  {
    if s == [] then []
    else
      match FirstBreak(s)
      case None => [s]
      case Some(i) =>
        var next := if s[i] == '\r' && i + 1 < |s| && s[i + 1] == '\n' then i + 2 else i + 1;
        [s[..i]] + SplitLines(s[next..])
  }

  predicate AllSpace(s: string) {
    forall i :: 0 <= i < |s| ==> IsSpace(s[i])
  }

  /** `sep.join(parts)`. */
  function Join(parts: seq<string>, sep: string): (r: string)
    ensures parts == [] ==> r == []
    ensures |parts| == 1 ==> r == parts[0]
  {
    if parts == [] then []
    else if |parts| == 1 then parts[0]
    else parts[0] + sep + Join(parts[1..], sep)
  }

  /** Joining break-free pieces with a break-free separator gives a break-free
      string. */
  lemma {:induction false} JoinNoLineBreak(parts: seq<string>, sep: string)
    requires forall k :: 0 <= k < |parts| ==> NoLineBreak(parts[k])
    requires NoLineBreak(sep)
    ensures NoLineBreak(Join(parts, sep))
  {
    if |parts| > 1 {
      JoinNoLineBreak(parts[1..], sep);
      var rest := Join(parts[1..], sep);
      var j := parts[0] + sep + rest;
      forall i | 0 <= i < |j| ensures !IsLineBreak(j[i]) {
        if i < |parts[0]| {
          assert j[i] == parts[0][i];
        } else if i < |parts[0]| + |sep| {
          assert j[i] == sep[i - |parts[0]|];
        } else {
          assert j[i] == rest[i - |parts[0]| - |sep|];
        }
      }
    }
  }

  /** A join of non-empty pieces starts with the first piece's first character
      and ends with the last piece's last character. */
  lemma {:induction false} JoinEnds(parts: seq<string>, sep: string)
    requires |parts| >= 1 && forall k :: 0 <= k < |parts| ==> parts[k] != []
    ensures Join(parts, sep) != []
    ensures Join(parts, sep)[0] == parts[0][0]
    ensures Join(parts, sep)[|Join(parts, sep)| - 1] == parts[|parts| - 1][|parts[|parts| - 1]| - 1]
  {
    if |parts| > 1 {
      JoinEnds(parts[1..], sep);
    }
  }

  /** `s.replace(old, new)` for a non-empty `old`: left to right, without overlap. */
  function Replace(s: string, pat: string, rep: string): (r: string)
    requires pat != []
    ensures !Contains(s, pat) ==> r == s
    decreases |s|
  {
    if |s| < |pat| then
      assert !Contains(s, pat);
      s
    else if s[..|pat|] == pat then
      assert OccursAt(s, pat, 0);
      rep + Replace(s[|pat|..], pat, rep)
    else
      assert !Contains(s, pat) ==> !Contains(s[1..], pat) by {
        if Contains(s[1..], pat) {
          var t := s[1..];
          var i: nat :| i <= |t| && OccursAt(t, pat, i);
          var j := i + 1;
          assert t[i..i + |pat|] == s[j..j + |pat|];
          assert OccursAt(s, pat, j);
        }
      }
      [s[0]] + Replace(s[1..], pat, rep)
  }

  // ---------------------------------------------------------------------------
  // Integer rendering (`f"{n}"`)
  // ---------------------------------------------------------------------------

  function DigitChar(d: nat): (c: char)
    requires d < 10
    ensures IsDigit(c)
  {
    ('0' as int + d) as char
  }

  function NatToString(n: nat): (r: string)
    ensures IsDigits(r)
    ensures r[0] == '0' ==> n == 0
    decreases n
  {
    if n < 10 then [DigitChar(n)]
    else NatToString(n / 10) + [DigitChar(n % 10)]
  }

  /** Distinct numbers render differently, so ids built from them never collide. */
  lemma {:induction false} NatToStringInjective(a: nat, b: nat)
    requires NatToString(a) == NatToString(b)
    ensures a == b
    decreases a
  {
    var sa, sb := NatToString(a), NatToString(b);
    if a < 10 || b < 10 {
      assert |sa| == 1 <==> a < 10;
      assert |sb| == 1 <==> b < 10;
    } else {
      var pa, pb := NatToString(a / 10), NatToString(b / 10);
      assert sa == pa + [DigitChar(a % 10)];
      assert sb == pb + [DigitChar(b % 10)];
      assert |pa| == |pb|;
      assert pa == sa[..|sa| - 1] == sb[..|sb| - 1] == pb;
      assert DigitChar(a % 10) == sa[|sa| - 1] == sb[|sb| - 1] == DigitChar(b % 10);
      NatToStringInjective(a / 10, b / 10);
    }
  }

  function IntToString(i: int): (r: string)
    ensures |r| > 0
    ensures i < 0 <==> r[0] == '-'
  {
    if i < 0 then "-" + NatToString(-i) else NatToString(i)
  }

  lemma IntToStringInjective(a: int, b: int)
    requires IntToString(a) == IntToString(b)
    ensures a == b
  {
    if a < 0 {
      assert IntToString(a)[1..] == NatToString(-a);
      assert IntToString(b)[1..] == NatToString(-b);
      NatToStringInjective(-a, -b);
    } else {
      NatToStringInjective(a, b);
    }
  }
}

=== FILE: textextraction.dfy ===
/** The OCR endpoints (`backend/api/v1/endpoints/text_extraction.py`): job
    submission on the normal and priority routes and the status lookup that
    maps a stored record to a response. `uuid4` is the `freshId` parameter. */
module TextExtraction {
  import opened Wrappers
  import JobStore
  import JobQueue
  import ImageValidation
  import OcrPipeline
  import OcrQueue
  import Gpu

  /** An `UploadFile` as the endpoints see it. */
  datatype Upload = Upload(contentType: Option<string>, filename: Option<string>, byteCount: nat)

  datatype SubmitResponse = Submitted(jobId: string, message: string) | BadRequest(error: ImageValidation.UploadError)

  const PendingRecord: JobStore.Record<OcrPipeline.OcrJobResult> := JobStore.Record("pending", None, None, 0)

  /** `file.filename or "uploaded_image"`. */
  function JobFilename(filename: Option<string>): (r: string)
    ensures filename.Some? && filename.value != [] ==> r == filename.value
    ensures filename.None? || filename.value == [] ==> r == "uploaded_image"
  {
    if filename.Some? && filename.value != [] then filename.value else "uploaded_image"
  }

  /** `submit_ocr_job` (`priority` false) and `submit_priority_ocr_job`
      (`priority` true). */
  function SubmitOcrJob(w: OcrQueue.World, u: Upload, freshId: string, priority: bool): (r: (SubmitResponse, OcrQueue.World))
    ensures ImageValidation.ValidateImageFile(u.contentType, u.filename).Some? ==>
      r.0 == BadRequest(ImageValidation.ValidateImageFile(u.contentType, u.filename).value) && r.1 == w
    ensures ImageValidation.ValidateImageFile(u.contentType, u.filename).None? ==>
      && r.0.Submitted? && r.0.jobId == freshId
      && r.1.store == w.store[freshId := PendingRecord]
      && r.1.queue == JobQueue.SubmitJob(w.queue, OcrQueue.OcrJob(JobFilename(u.filename), u.byteCount, freshId), priority)
      && r.1.gpu == w.gpu
  {
    match ImageValidation.ValidateImageFile(u.contentType, u.filename)
    case Some(e) => (BadRequest(e), w)
    case None =>
      var store := JobStore.SetJobStatus(w.store, freshId, "pending", progress := 0);
      var job := OcrQueue.OcrJob(JobFilename(u.filename), u.byteCount, freshId);
      var msg := if priority then "Priority job submitted to queue. Poll for status using job_id."
                 else "Job submitted to queue. Files will be processed one by one. Poll for status using job_id.";
      (Submitted(freshId, msg), OcrQueue.World(JobQueue.SubmitJob(w.queue, job, priority), store, w.gpu))
  }

  /** `/ocr` never touches the priority lane and `/ocr/priority` never touches
      the normal lane. */
  lemma SubmitLaneChoice(w: OcrQueue.World, u: Upload, freshId: string)
    requires ImageValidation.ValidateImageFile(u.contentType, u.filename).None?
    ensures SubmitOcrJob(w, u, freshId, false).1.queue.lanes.priority == w.queue.lanes.priority
    ensures SubmitOcrJob(w, u, freshId, false).1.queue.lanes.normal
         == w.queue.lanes.normal + [OcrQueue.OcrJob(JobFilename(u.filename), u.byteCount, freshId)]
    ensures SubmitOcrJob(w, u, freshId, true).1.queue.lanes.normal == w.queue.lanes.normal
    ensures SubmitOcrJob(w, u, freshId, true).1.queue.lanes.priority
         == w.queue.lanes.priority + [OcrQueue.OcrJob(JobFilename(u.filename), u.byteCount, freshId)]
  {}

  datatype StatusResponse =
    | NotFound
    | Status(success: bool, status: string, message: string, progress: int, result: Option<OcrPipeline.OcrJobResult>)
      /** `OcrJobResult(**None)` raises outside the handler's reach: HTTP 500. */
    | ServerError

  /** `get_ocr_job_status_api` on the record the store holds for the id. */
  function OcrStatusOf(job: Option<JobStore.Record<OcrPipeline.OcrJobResult>>): (r: StatusResponse)
    ensures job.None? <==> r == NotFound
    ensures job.Some? && job.value.status in {"pending", "processing"} ==>
      r == Status(true, job.value.status, "Job is still processing", job.value.progress, None)
    ensures job.Some? && job.value.status == "completed" && job.value.result.Some? ==>
      r == Status(true, "completed", "Job completed successfully", 100, job.value.result)
    ensures r == ServerError <==> job.Some? && job.value.status == "completed" && job.value.result.None?
    ensures job.Some? && job.value.status !in {"pending", "processing", "completed"} ==>
      r == Status(false, "error", "Job failed", job.value.progress, None)
    ensures r.Status? ==> (r.success <==> r.status != "error")
  {
    match job
    case None => NotFound
    case Some(rec) =>
      if rec.status == "pending" then Status(true, "pending", "Job is still processing", rec.progress, None)
      else if rec.status == "processing" then Status(true, "processing", "Job is still processing", rec.progress, None)
      else if rec.status == "completed" then
        if rec.result.Some? then Status(true, "completed", "Job completed successfully", 100, rec.result)
        else ServerError
      else Status(false, "error", "Job failed", rec.progress, None)
  }

  function GetOcrJobStatus(store: JobStore.Store<OcrPipeline.OcrJobResult>, jobId: string): (r: StatusResponse)
    ensures jobId !in store <==> r == NotFound
    ensures jobId in store && store[jobId].status == "completed" && store[jobId].result.Some? ==> r.Status? && r.progress == 100
  {
    OcrStatusOf(JobStore.GetJobStatus(store, jobId))
  }

  /** Right after a successful submission the job reads as pending at 0. */
  lemma SubmittedReadsPending(w: OcrQueue.World, u: Upload, freshId: string, priority: bool)
    requires ImageValidation.ValidateImageFile(u.contentType, u.filename).None?
    ensures GetOcrJobStatus(SubmitOcrJob(w, u, freshId, priority).1.store, freshId)
         == Status(true, "pending", "Job is still processing", 0, None)
  {}

  /** The status route reports what the worker's lifecycle wrote: a completed
      job with its result at progress 100; a failed one as an error with
      `success` false. */
  lemma StatusAfterProcessing(w: OcrQueue.World, job: OcrQueue.OcrJob, probes: seq<Gpu.Probe>, run: OcrPipeline.Run)
    requires Gpu.ClockPasses(probes, OcrQueue.GpuTimeout)
    ensures var s := OcrQueue.ProcessOcrJob(w, job, probes, run);
      && (s.gpuAcquired && run.outcome.Returned? ==>
            GetOcrJobStatus(s.world.store, job.jobId)
              == Status(true, "completed", "Job completed successfully", 100, Some(run.outcome.value)))
      && (!s.gpuAcquired || run.outcome.Raised? ==>
            GetOcrJobStatus(s.world.store, job.jobId) == Status(false, "error", "Job failed", 0, None))
  {
    OcrQueue.FinalRecord(w, job, probes, run);
  }
}

=== FILE: tktool.dfy ===
/** The data logic of the Tk annotation window
    (`annotation_tool/data_annoation_tool.py`): `apply_filter`, the
    navigation methods, `save_current`, `toggle_flag`, `toggle_bookmark` and
    the consensus dialog. Each method call is one step on `State`; dialog and
    entry values are parameters. */
module TkTool {
  import opened Wrappers
  import opened Text
  import opened PyDict
  import opened Annotation

  /** The fields of `TrOCRAnnotationTool` the data logic reads and writes. */
  datatype State = State(
    data: Data, files: seq<string>, user: string, filter: string,
    filtered: seq<string>, index: int)

  /** The window's standing invariant: every listed file has a record, and the
      index points into the filtered list (or is 0 when that list is empty). */
  predicate Valid(st: State) {
    && Covers(st.data, st.files)
    && Covers(st.data, st.filtered)
    && 0 <= st.index
    && (st.index < |st.filtered| || (st.filtered == [] && st.index == 0))
  }

  /** `apply_filter`: a known filter recomputes the list, an unknown one leaves
      it as it was; an index past the end goes back to 0. */
  function ApplyFilter(st: State): (r: State)
    requires Covers(st.data, st.files) && Covers(st.data, st.filtered) && 0 <= st.index
    ensures Valid(r)
    ensures r.(filtered := st.filtered, index := st.index) == st
    ensures ParseFilter(st.filter).None? ==> r.filtered == st.filtered
    ensures ParseFilter(st.filter).Some? ==> r.filtered == Select(st.data, st.files, st.user, ParseFilter(st.filter).value)
    ensures st.index < |r.filtered| ==> r.index == st.index
  {
    var filtered := match ParseFilter(st.filter)
      case None => st.filtered
      case Some(f) => Select(st.data, st.files, st.user, f);
    st.(filtered := filtered, index := if st.index >= |filtered| then 0 else st.index)
  }

  /** `show_image(index)`: an index outside the filtered list is ignored. */
  function ShowImage(st: State, i: int): (r: State)
    requires Valid(st)
    ensures Valid(r)
    ensures 0 <= i < |st.filtered| ==> r == st.(index := i)
    ensures !(0 <= i < |st.filtered|) ==> r == st
  {
    if st.filtered == [] || !(0 <= i < |st.filtered|) then st else st.(index := i)
  }

  function NextImage(st: State): (r: State)
    requires Valid(st)
    ensures Valid(r)
    ensures st.index < |st.filtered| - 1 ==> r == st.(index := st.index + 1)
    ensures st.index >= |st.filtered| - 1 ==> r == st
  {
    if st.filtered == [] then st
    else if st.index < |st.filtered| - 1 then ShowImage(st, st.index + 1)
    else st
  }

  function PrevImage(st: State): (r: State)
    requires Valid(st)
    ensures Valid(r)
    ensures st.index > 0 ==> r == st.(index := st.index - 1)
    ensures st.index == 0 ==> r == st
  {
    if st.filtered == [] then st
    else if st.index > 0 then ShowImage(st, st.index - 1)
    else st
  }

  function FirstImage(st: State): (r: State)
    requires Valid(st)
    ensures Valid(r) && r.index == 0
  {
    if st.filtered != [] then ShowImage(st, 0) else st
  }

  function LastImage(st: State): (r: State)
    requires Valid(st)
    ensures Valid(r)
    ensures st.filtered != [] ==> r.index == |st.filtered| - 1
  {
    if st.filtered != [] then ShowImage(st, |st.filtered| - 1) else st
  }

  /** `jump_to_image`: `target` is `int(jump_var.get())`, `None` when that
      raises `ValueError`; only 1..len moves. */
  function JumpToImage(st: State, target: Option<int>): (r: State)
    requires Valid(st)
    ensures Valid(r)
    ensures target.Some? && 1 <= target.value <= |st.filtered| ==> r == st.(index := target.value - 1)
    ensures !(target.Some? && 1 <= target.value <= |st.filtered|) ==> r == st
  {
    if st.filtered == [] then st
    else
      match target
      case Some(t) => if 1 <= t <= |st.filtered| then ShowImage(st, t - 1) else st
      case None => st
  }

  /** Moving on and back returns to the same image. */
  lemma NextThenPrev(st: State)
    requires Valid(st) && st.index < |st.filtered| - 1
    ensures PrevImage(NextImage(st)) == st
  {}

  /** Navigation changes only the index. */
  lemma NavigationKeepsData(st: State, target: Option<int>)
    requires Valid(st)
    ensures NextImage(st).(index := st.index) == st
    ensures PrevImage(st).(index := st.index) == st
    ensures FirstImage(st).(index := st.index) == st
    ensures LastImage(st).(index := st.index) == st
    ensures JumpToImage(st, target).(index := st.index) == st
  {}

  /** `save_current`: with images to show, store the stripped entry text for
      the current user on the current image and write every record; with none,
      nothing happens. */
  function SaveCurrent(st: State, input: string, confidence: string, now: string, stamp: Stamps): (r: State)
    requires Valid(st)
    ensures Valid(r)
    ensures r.(data := st.data) == st
    ensures st.filtered == [] ==> r == st
    ensures st.filtered != [] ==>
      r.data == SaveFile(st.data, st.filtered[st.index], st.user, input, confidence, now, stamp)
  {
    if st.filtered == [] then st
    else st.(data := SaveFile(st.data, st.filtered[st.index], st.user, input, confidence, now, stamp))
  }

  /** After a save, the current image counts as annotated for the user exactly
      when the stripped text is non-empty. */
  lemma SaveMarksAnnotated(st: State, input: string, confidence: string, now: string, stamp: Stamps)
    requires Valid(st) && st.filtered != []
    ensures IsAnnotated(SaveCurrent(st, input, confidence, now, stamp).data[st.filtered[st.index]], st.user) <==> Strip(input) != []
  {
    var f := st.filtered[st.index];
    var saved := SaveAnnotation(st.data[f], st.user, input, confidence, now);
    assert SaveCurrent(st, input, confidence, now, stamp).data[f].users == saved.users;
  }

  /** `save_and_next`: the shown image is saved, then the window moves one
      image forward unless it is on the last one. */
  function SaveAndNext(st: State, input: string, confidence: string, now: string, stamp: Stamps): (r: State)
    requires Valid(st)
    ensures Valid(r)
    ensures r.data == SaveCurrent(st, input, confidence, now, stamp).data
    ensures r.(data := st.data, index := st.index) == st
    ensures st.index < |st.filtered| - 1 ==> r.index == st.index + 1
    ensures st.index >= |st.filtered| - 1 ==> r.index == st.index
  {
    NextImage(SaveCurrent(st, input, confidence, now, stamp))
  }

  // ---------------------------------------------------------------------------
  // Flags
  // ---------------------------------------------------------------------------

  /** `toggle_flag` as written, on the current image's flags. The flag branch is
      chosen by `current_user not in flags`, so only a bare-name flag counts as
      the user's; `reason` is the dialog's answer, `None` on cancel. */
  function ToggleFlagAsWritten(flags: seq<string>, user: string, reason: Option<string>): (r: seq<string>)
    ensures user !in flags && reason.Some? ==> r == flags + [FlagEntry(user, reason.value)]
    ensures user !in flags && reason.None? ==> r == flags
    ensures user in flags ==> r == OthersFlags(flags, user)
  {
    if user !in flags then
      match reason
      case Some(why) => flags + [FlagEntry(user, why)]
      case None => flags
    else OthersFlags(flags, user)
  }

  /** Once a user has flagged with a reason, toggling never removes it: unless
      the bare name is also present, every flag of the user stays. */
  lemma FlagWithReasonSticks(flags: seq<string>, user: string, reason: Option<string>)
    requires user !in flags
    ensures forall i :: 0 <= i < |flags| ==> flags[i] in ToggleFlagAsWritten(flags, user, reason)
  {}

  /** A flag with a reason is one the toggle cannot take back: toggling again
      appends a second flag, where `ToggleFlag` removes the first. */
  lemma ReasonFlagCannotBeUndone()
    ensures ToggleFlagAsWritten(["ann: dim"], "ann", Some("dim")) == ["ann: dim", "ann: dim"]
    ensures ToggleFlag(["ann: dim"], "ann", Some("dim")) == []
  {
    var f := "ann: dim";
    assert Strip("dim") == "dim" by {
      StripNoop("dim");
    }
    assert FlagEntry("ann", "dim") == "ann" + ": " + "dim" == f;
    assert f != "ann";
    assert IsOwnFlag(f, "ann") by {
      assert f[..|"ann" + ":"|] == "ann" + ":";
    }
    assert [f][0] == f;
    assert HasOwnFlag([f], "ann");
    assert FilterSeq([f], NotOwnBy("ann")) == [];
  }

  /** `toggle_flag` on the window: does nothing without images. A flag added
      or removed is followed by `save_data`, which stamps every record; a
      cancelled dialog saves nothing. */
  function ToggleFlagAt(st: State, reason: Option<string>, stamp: Stamps): (r: State)
    requires Valid(st)
    ensures Valid(r)
    ensures r.(data := st.data) == st
    ensures st.filtered == [] ==> r == st
    ensures st.filtered != [] && st.user !in st.data[st.filtered[st.index]].flags && reason.None? ==> r == st
    ensures st.filtered != [] && (st.user in st.data[st.filtered[st.index]].flags || reason.Some?) ==>
      var f := st.filtered[st.index];
      && r.data.Keys == st.data.Keys
      && r.data[f] == st.data[f].(flags := ToggleFlagAsWritten(st.data[f].flags, st.user, reason), modified := stamp(f))
      && forall g :: g in st.data && g != f ==> r.data[g] == st.data[g].(modified := stamp(g))
  {
    if st.filtered == [] then st
    else
      var f := st.filtered[st.index];
      var fd := st.data[f];
      if st.user !in fd.flags && reason.None? then st
      else
        var newFlags := ToggleFlagAsWritten(fd.flags, st.user, reason);
        st.(data := StampModified(st.data[f := fd.(flags := newFlags)], stamp))
  }

  /** `toggle_bookmark` on the window: does nothing without images; otherwise
      the current user's bookmark is toggled and every record is stamped. */
  function ToggleBookmarkAt(st: State, stamp: Stamps): (r: State)
    requires Valid(st)
    ensures Valid(r)
    ensures r.(data := st.data) == st
    ensures st.filtered == [] ==> r == st
    ensures st.filtered != [] ==>
      var f := st.filtered[st.index];
      && r.data.Keys == st.data.Keys
      && r.data[f] == st.data[f].(bookmarks := ToggleBookmark(st.data[f].bookmarks, st.user), modified := stamp(f))
      && forall g :: g in st.data && g != f ==> r.data[g] == st.data[g].(modified := stamp(g))
  {
    if st.filtered == [] then st
    else
      var f := st.filtered[st.index];
      var fd := st.data[f];
      st.(data := StampModified(st.data[f := fd.(bookmarks := ToggleBookmark(fd.bookmarks, st.user))], stamp))
  }

  // ---------------------------------------------------------------------------
  // Consensus
  // ---------------------------------------------------------------------------

  /** `set_consensus` and its "Save Consensus" button: fewer than two
      annotators only warns; otherwise the stripped custom text, or else the
      selected annotation, is stored when non-empty. */
  function SetConsensus(fd: FileData, custom: string, selected: string): (r: FileData)
    ensures |fd.users| < 2 ==> r == fd
    ensures r.(consensus := fd.consensus) == fd
    ensures |fd.users| >= 2 && Strip(custom) != [] ==> r.consensus == Strip(custom)
    ensures |fd.users| >= 2 && Strip(custom) == [] && selected != [] ==> r.consensus == selected
    ensures Strip(custom) == [] && selected == [] ==> r == fd
  {
    if |fd.users| < 2 then fd
    else
      var text := if Strip(custom) != [] then Strip(custom) else selected;
      if text != [] then fd.(consensus := text) else fd
  }

  /** A custom consensus with visible text takes the file out of the
      "consensus_needed" list for every user. */
  lemma CustomConsensusSettles(fd: FileData, custom: string, selected: string, user: string)
    requires |fd.users| >= 2 && Strip(custom) != []
    ensures !Keeps(ConsensusNeeded, SetConsensus(fd, custom, selected), user)
  {
    var r := SetConsensus(fd, custom, selected);
    assert r.consensus == Strip(custom);
    StripNoop(Strip(custom));
    assert Strip(r.consensus) != [];
  }
}

=== FILE: wrappers.dfy ===
/** Failure-carrying datatypes shared by every module of the model. */
module Wrappers {

  /** Python's `None` versus a present value. */
  datatype Option<+T> = None | Some(value: T) {
    function GetOr(default: T): T {
      match this
      case Some(v) => v
      case None => default
    }
  }

  /** The outcome of a call that either returns a value or raises with a message
      (`str(e)` of the exception). */
  datatype Outcome<+R> = Returned(value: R) | Raised(message: string)
}
